=== FILE: README.md ===
# LearnFlow decision logic in Dafny

LearnFlow is a learning platform. It has three parts:

- an Express backend that grades quizzes, keeps learning paths, builds CBSE
  courses and stores user preferences;
- a React frontend with quiz pages, a learning-path page, an onboarding
  wizard, a profile page and a document page;
- a small Flask service that extracts the text of an uploaded PDF and asks a
  language model for a summary.

This project models the decision and aggregation logic between the HTTP
handlers and the language-model calls, and proves properties of it. The
logic covered is:

- grading and pass rules;
- the daily-quiz bonus, completion percentage and leaderboard ranks;
- dashboard, progress and analytics statistics;
- the sanitisers applied to model output;
- CBSE course construction and its Mermaid flowchart;
- profile and preference validation;
- the client-side state machines: answer slots, navigation, submit guard,
  learning-path progression and onboarding;
- the small text and form validators of the frontend.

The Flask service holds no chunking, embedding, vector index or retrieval
code. The platform has no retrieval pipeline to model.

Modules, one per file:

| module | file | models |
|---|---|---|
| `Wrappers` | wrappers.dfy | `Option` and `Result` |
| `Text` | text.dfy | `trim`, digits, decimal printing and ASCII `toLowerCase` |
| `Seqs` | seqs.dfy | filter, count, take and last-n over sequences |
| `Json` | json.dfy | JavaScript values: truthiness, property reads, `Number()` |
| `Schema` | schema.dfy | the Mongoose models `LearningPathQuiz`, `LearningPath` and `User` |
| `Grading` | grading.dfy | `submitQuiz` in both controllers, path credit, daily bonus, leaderboard |
| `Stats` | stats.dfy | `getDashboardData`, `getProgress`, `getAnalytics`, `getPastScore` |
| `Profile` | profile.dfy | `editProfile`, `changePassword`, `savePreferences` |
| `Cbse` | cbse.dfy | `generateFlowchart` and `generateCbseCourse` |
| `LlmOutput` | llm.dfy | `cleanJsonResponse` and the generated-question filter |
| `AiService` | ai_service.dfy | Backend/Utils/aiService.js: quiz, resources and performance analysis |
| `QuizAi` | quiz_ai.dfy | Backend/Utils/quizAiService.js: adaptive path, quiz and analysis |
| `QuizSession` | quiz_session.dfy | the quiz pages and their shared `QuizCore` |
| `LearnFlow` | learnflow.dfy | the learning-path page |
| `Onboarding` | onboarding.dfy | the onboarding wizard |
| `ProfilePage` | profile_page.dfy | the profile page's client-side checks |
| `Recognition` | recognition.dfy | `formatText`, upload-source choice and the YouTube link check |

The database and the model calls are parameters:

- **Stored documents** are given as sequences, such as the user store or the
  paths of a user.
- **A lookup's result** is an `Option`.
- **`JSON.parse` of model output** is an `Option<Json>`; `None` stands for a
  syntax error.
- **The resources generated per subtopic** come from a function parameter.
- **The clock** is an integer or real parameter.
- **`bcrypt.compare`** is a boolean and **`bcrypt.hash`** a string.

The 70% pass marks use exact arithmetic. The source writes
`score >= total * 0.7` with a float, and the model writes
`10 * score >= 7 * total`. For a total of integer marks that is at least 0
and below 2^53, the float product never rounds above the exact product, so
these `>=` tests give the same verdict. A negative total breaks this:
−90 × 0.7 is −62.99999999999999, so a score of −63 fails in the source and
passes in the model. A negative total needs negative marks, which every quiz
schema refuses. Other
float comparisons and `Math.round` do not always agree with exact
arithmetic; the two places where they differ are listed under "## Left out".

## Model

| member | source | states |
|---|---|---|
| Json.StringToNumber | Backend/Controller/profileController.js:62 | `Number()` of blank text is 0 and of a run of decimal digits its value, never negative; the model reads every other text as NaN, which is weaker than the source for "Infinity", signs, fractions and exponents (see "## Left out") |
| Json.SingletonArrayReadsAsItsElement | Backend/Controller/profileController.js:62 | A one-element array of a string or a non-negative integer reads as that element |
| Schema.ParseDifficulty | Backend/Model/LearningPathQuiz.js:11-15 | Exactly the three names Easy, Medium and Hard are accepted, and the level returned carries the name given |
| Schema.ParseStyle | Backend/Model/User.js:66-69 | Exactly the four learning-style names are accepted, and the style returned carries the name given |
| Schema.NewLearningPathQuiz | Backend/Model/LearningPathQuiz.js:46-51 | A new quiz is Pending with score 0 and no responses; it satisfies the schema iff its topic is non-empty and every question has four options, type MCQ and at least one mark |
| Schema.NewTopic | Backend/Model/LearningPath.js:10-12 | A new topic is not completed and has no completion date, with the given name, description, resources and order |
| Schema.NewLearningPath | Backend/Model/LearningPath.js:14-19 | A new path starts at 0% completion, with score 0, no completion date and no quizzes |
| Schema.NewUser | Backend/Model/User.js:5-76 | A new user has 30 minutes of daily study time, no chosen preferences and every counter at 0; it is valid iff name, email and password are given |
| Schema.RegisterKeepsEmailsUnique | Backend/Model/User.js:6 | Adding a user to a store with unique emails keeps them unique iff no stored user has the new address |
| Grading.Feedback | Backend/Controller/quizController.js:187 | The feedback is "Correct!" exactly for a correct answer; otherwise it starts with "Incorrect. " and ends with the question's explanation when there is one |
| Grading.IndexErrorMessage | Backend/Controller/quizController.js:175 | The message is "Invalid question index: " followed by decimal digits that read back as the index |
| Grading.GradeFrom | Backend/Controller/quizController.js:172-189 | Grading succeeds iff every response has a question and is not null, giving one graded entry per response in order; otherwise it fails at the first response without a question, or the first null one |
| Grading.ObtainedWithinAnswered | Backend/Controller/quizController.js:170-179 | With non-negative marks, the marks obtained lie between 0 and the marks of the questions that were answered |
| Grading.ScoreWithinTotal | Backend/Controller/quizController.js:170-192 | The score lies between 0 and the total possible marks |
| Grading.AllCorrectEarnsTotal | Backend/Controller/quizController.js:171-179 | A sheet that answers every question correctly scores exactly the total possible marks |
| Grading.ObtainedOnlyReadsAnswered | Backend/Controller/quizController.js:172-179 | The score depends only on the questions that have a response |
| Grading.NoneCorrectEarnsNothing | Backend/Controller/quizController.js:177-179 | A sheet with no correct answer scores 0 |
| Grading.ResultFor | Backend/Controller/quizController.js:193 | A graded quiz is never Pending, and it passes exactly when the score reaches 70% of the total |
| Grading.PerfectScorePasses | Backend/Controller/quizController.js:177-193 | A sheet answering every question correctly passes |
| Grading.PassIsMonotone | Backend/Controller/quizController.js:193 | A higher score than a passing one also passes |
| Grading.ModelNamed | Backend/Controller/quizController.js:158-164 | The body's `quizModel` is looked up by its `String()` text: a model is selected only by its own name, an `Object.prototype` name (such as "constructor") finds a built-in that is no model, and every other text selects nothing |
| Grading.ScoreOfGraded | Backend/Controller/quizController.js:179-192 | The score summed over the stored graded entries equals the marks obtained by the sheet |
| Grading.SubmitQuiz | Backend/Controller/quizController.js:154-257 | The errors come in the source's order, each under exactly its condition: missing fields, unknown model, a built-in name (whose `findById` call throws), missing or foreign quiz, first bad response. On success each answer is correct iff its option equals the correct answer, the score is the marks obtained, the quiz passes iff 10 × score ≥ 7 × total; only a `quizModel` that is exactly the string CustomQuiz or DailyQuiz earns 10 points per mark, and only exactly LearningPathQuiz credits the path. A LearningPathQuiz stores each response with its `selectedOption` and `responseTime` cast as Mongoose casts them, and the save answers SaveRejected ("Validation failed") when a cast fails or the cast quiz breaks its schema; the other models store the responses as graded |
| Grading.SaveGraded | Backend/Controller/quizController.js:191-226 | The save keeps the quiz's owner, topic, questions, score, result and each response's correctness. A LearningPathQuiz stores each response cast and validated, and on a quiz that satisfies its schema with a score of at least 0 it is refused exactly when some response cannot be saved; other models are never refused |
| Grading.SaveSubmission | Backend/Controller/quizController.js:170-257 | After grading, the only refusal is SaveRejected, and only for a LearningPathQuiz; on success each answer is correct iff its option equals the correct answer, the score is the marks obtained, the pass verdict, points and path credit are as for the whole submission, and each stored response is the graded one (cast for a LearningPathQuiz) |
| Grading.SubmitRejectsWhenSaveRefused | Backend/Controller/quizController.js:154-226 | Once every response is graded, a LearningPathQuiz submission answers SaveRejected exactly when its save is refused |
| Grading.SaveRejectedExactlyForUnsavableResponse | Backend/Controller/quizController.js:154-226 | Once every response to a LearningPathQuiz that satisfies its schema is graded, the submission answers SaveRejected exactly when some graded response's option or time fails its cast, or its cast time is negative |
| Grading.ArrayNamedModelEarnsNothing | Backend/Controller/quizController.js:158-257 | A `quizModel` sent as a one-element array holding a model's name selects that model, but earns no points and credits no path, since the later tests compare with `===` |
| Grading.BuiltInModelNameFails | Backend/Controller/quizController.js:158-164 | A `quizModel` naming an `Object.prototype` member passes the model check and fails at the `findById` call |
| Schema.CastNumber | Backend/Model/LearningPathQuiz.js:42 | Mongoose's cast to a `Number` path: `null` and `undefined` are kept, "" becomes `null`, a non-empty string or a boolean becomes what `Number()` gives it and fails exactly when that is NaN, a number is kept, and arrays and objects fail; a successful cast is `null`, `undefined` or a number |
| Schema.CastString | Backend/Model/LearningPathQuiz.js:39 | Mongoose's cast to a `String` path: nullish values and strings are kept, numbers and booleans become their `String()` text, arrays fail, and an object succeeds exactly when it has a non-empty string `_id`; a successful cast is nullish or a string |
| Schema.CastsAreStable | Backend/Model/LearningPathQuiz.js:39-42 | A cast value casts to itself |
| Schema.CastExamples | Backend/Model/LearningPathQuiz.js:39-42 | "" casts to `null` and `true` to 1 on a `Number` path; `{}` and `["a"]` fail on a `String` path |
| Schema.CastResponse | Backend/Model/LearningPathQuiz.js:36-45 | A response can be stored exactly when both its option and its time cast; the stored response is the original with those two fields cast |
| Schema.CastResponses | Backend/Model/LearningPathQuiz.js:36-45 | A response list can be stored exactly when each response can; the stored list has the same length and holds each response's cast |
| Grading.SubmitKeepsScoreInRange | Backend/Controller/quizController.js:170-193 | For a quiz that satisfies its schema, a successful submission stores a score between 0 and the total |
| Grading.CompletionPercent | Backend/Controller/quizController.js:245-246 | Undefined for a path with no topics; otherwise within half a point of 100 × completed / total, in 0..100, and 100 exactly when at least 99.5% of topics are completed |
| Grading.AllCompletedIsComplete | Backend/Controller/quizController.js:245-247 | A path whose topics are all completed is 100% complete |
| Grading.MarkQuizCompleted | Backend/Controller/quizController.js:234-237 | The first quiz entry with the id is marked completed, and every other entry is unchanged |
| Grading.CreditPath | Backend/Controller/quizController.js:234-250 | The course score grows by the score, the points by ten times the score (a missing count is 0), the completion percentage is recomputed, and the completion date is set exactly when it reaches 100 |
| Grading.DailyBonus | Backend/Controller/quizController.js:220-221 | The bonus is 10 up to 6 hours after creation and 0 from 12 hours on; in between it falls linearly by 10/6 per hour |
| Grading.DailyBonusMonotone | Backend/Controller/quizController.js:221 | A later completion never earns a larger bonus |
| Grading.DisplayName | Backend/Controller/quizController.js:295 | The name shown is never empty; it is the username when there is one |
| Grading.Leaderboard | Backend/Controller/quizController.js:281-299 | Without a daily quiz the error is "No daily quiz available"; otherwise the board holds the first ten submissions, ranked 1, 2, … in query order, with their scores and times copied |
| Grading.RankFrom | Backend/Controller/quizController.js:293-299 | Entry k gets rank i + k + 1 and the fields of submission i + k |
| Grading.LeaderboardRanksFollowScores | Backend/Controller/quizController.js:285-299 | When submissions arrive by descending score, a smaller rank never has a lower score |
| Grading.SpreadResponse | Backend/Controller/learningController.js:148-153 | The graded response keeps every submitted field except the three grading fields, and sets isCorrect, marksObtained and feedback from the question |
| Grading.EqualMarksRulesAgree | Backend/Controller/learningController.js:159 | When all questions carry the same marks, the learning controller's pass mark agrees with the quiz controller's |
| Grading.FirstQuestionRuleFailsPerfectSheet | Backend/Controller/learningController.js:159 | Two valid questions worth 3 and 1 marks, both answered correctly, score the full 4 marks but fail the first-question pass mark of 4.2 |
| Grading.LearningSubmitQuiz | Backend/Controller/learningController.js:135-161 | Missing fields and a missing quiz are reported under exactly their conditions, and grading fails at the first bad response. On success every response is kept with its grading fields, the score is the marks obtained, and the result follows the first-question pass mark |
| Grading.LearningSubmitQuizCorrected | Backend/Controller/learningController.js:156-160 | Fails exactly when the written handler fails and keeps its responses and score, but passes at 70% of the marks the quiz offers |
| Grading.CorrectedLearningPerfectSheetPasses | Backend/Controller/learningController.js:159 | Under the corrected pass mark, a sheet answering every question correctly passes, whatever the marks |
| Stats.AverageScore | Backend/Controller/learningController.js:216 | The average is 0 for no quizzes; otherwise times the count it gives the sum of scores, with a missing score counted as 0 |
| Stats.AverageWithinBounds | Backend/Controller/learningController.js:216 | The average lies between any lower and upper bound of the individual scores |
| Stats.PassRate | Backend/Controller/learningController.js:217 | The pass rate lies in 0..100; it is 100 iff there are quizzes and all passed, and 0 iff none passed |
| Stats.OrNA | Backend/Controller/learningController.js:210-211 | A strength or weakness shown is never empty; a non-empty stored one is shown as is |
| Stats.SummarisePath | Backend/Controller/learningController.js:207-213 | A path summary copies name and progress, shows N/A for an empty strength or weakness, and counts missing points as 0 |
| Stats.TotalPointsAppend | Backend/Controller/learningController.js:221 | Total points over two lists of paths is the sum of their totals |
| Stats.TotalPointsCredit | Backend/Controller/learningController.js:221 | Crediting one path with extra points raises the total by exactly that amount |
| Stats.ActiveStreaks | Backend/Controller/learningController.js:222 | One entry per path with a positive streak, in path order: as many entries as such paths, the k-th being the k-th such path's streak, each positive; every positive streak is listed |
| Stats.ActiveStreaksInOrder | Backend/Controller/learningController.js:222 | The active streaks appear in path order, as a subsequence of all streaks |
| Stats.DashboardData | Backend/Controller/learningController.js:206-223 | One summary per path; quiz count, average and pass rate as defined; at most the last five chat entries, in order; total points and active streaks over all paths |
| Stats.Progress | Backend/Controller/learningController.js:181-185 | Completed plus active courses equals total courses, active courses are never negative while completed ≤ total, and all counts are 0 without metrics |
| Stats.AccuracyCoversAllQuestions | Backend/Controller/analyticsController.js:43-45 | Correct plus incorrect answers add up to all questions asked |
| Stats.Analytics | Backend/Controller/analyticsController.js:26-54 | With no history the fixed sample figures are returned. Otherwise the best quiz has the highest score, floored at 0, and is the earliest of ties; the worst has the lowest, capped at 100; correct and incorrect are the sums |
| Stats.BestOfIsBest | Backend/Controller/analyticsController.js:26-37 | The best-quiz fold yields a score that is the maximum, floored at 0, and is the earliest quiz reaching it |
| Stats.WorstOfIsWorst | Backend/Controller/analyticsController.js:28-40 | The worst-quiz fold yields a score that is the minimum, capped at 100, and is the earliest quiz reaching it |
| Stats.BestStep | Backend/Controller/analyticsController.js:35-37 | One more quiz replaces the best one only with a strictly higher score, keeping the best-quiz property |
| Stats.WorstStep | Backend/Controller/analyticsController.js:38-40 | One more quiz replaces the worst one only with a strictly lower score, keeping the worst-quiz property |
| Stats.PastScoresAsWritten | Backend/Controller/analyticsController.js:99-106 | One entry per quiz, in order, with its score and date |
| Stats.PastScoresLoseTitles | Backend/Controller/analyticsController.js:102 | As written, every entry's title is missing |
| Stats.PastScores | Backend/Controller/analyticsController.js:99-106 | One entry per quiz, in order, titled with the quiz's topic name and carrying its score and date |
| Stats.PastScoresAgreeButTitle | Backend/Controller/analyticsController.js:102-104 | The corrected entries differ from the written ones only in the title |
| Profile.FindUser | Backend/Controller/profileController.js:104-107 | The lookup fails iff no user has the email; otherwise it finds one that does |
| Profile.DifficultyOf | Backend/Controller/profileController.js:56-58 | A value is a difficulty iff it is one of the three names |
| Profile.StyleOf | Backend/Controller/profileController.js:59-61 | A value is a learning style iff it is one of the four names |
| Profile.ParseIntOf | Backend/Controller/profileController.js:69 | A study time that passed the study-time test reads as the positive number `Number()` gives it, arrays included; only `true` reads as NaN |
| Profile.PreferencesUpdate | Backend/Controller/profileController.js:66-69 | The preferences set are exactly the supplied ones, each holding the value supplied |
| Profile.EditProfile | Backend/Controller/profileController.js:38-86 | Each refusal comes under exactly its condition, in the source's order: missing name or email; an address held by someone else; an unknown difficulty; an unknown style; a bad study time when a preference is sent; a study time of `true`, which `parseInt` reads as NaN (a server error); an unknown user. Success holds exactly when none applies; only the user's record changes: name and email replaced, password kept, and when a preference is sent the preferences become exactly the supplied ones, a study time stored as its `Number()` value |
| Profile.SingletonStudyTimeIsStored | Backend/Controller/profileController.js:62-69 | A study time sent as the one-element array `[n]`, n > 0, is not refused, and a successful edit stores n |
| Profile.EditKeepsEmailsUnique | Backend/Controller/profileController.js:46-51 | A successful edit keeps emails unique across the store |
| Profile.LengthOf | Backend/Controller/profileController.js:100 | `.length` is the character count of a string, the item count of an array, the number an object's `length` member reads as, and missing for anything else |
| Profile.PasswordPrecheck | Backend/Controller/profileController.js:96-102 | Both passwords are required, and a new password whose length reads below 8 is refused |
| Profile.ShortLengthMemberIsRefused | Backend/Controller/profileController.js:100-102 | An object such as `{"length": 3}` as the new password is refused as too short |
| Profile.ChangePassword | Backend/Controller/profileController.js:94-125 | Each outcome under exactly its condition: the prechecks come before the user lookup; then a current password that is not a string is a server error, a mismatch is refused, and a new password that is not a string is a server error (hashing it throws). Success holds exactly when all pass, and replaces only that user's password hash |
| Profile.ShortPasswordRefusedBeforeLookup | Backend/Controller/profileController.js:100-102 | A short new password gets the same refusal whatever the store, the user and the password match |
| Profile.RunEnd | Backend/Controller/profileController.js:148 | The digit run starting at i ends at the first non-digit |
| Profile.FirstDigitRun | Backend/Controller/profileController.js:148-152 | No number iff the text has no digit; otherwise the value of the first maximal run of digits |
| Profile.FirstDigitRunReadsNumber | Backend/Controller/profileController.js:148-152 | A number printed after digit-free text and before a non-digit is read back exactly, so "120+ mins" gives 120 |
| Profile.SavePreferences | Backend/Controller/profileController.js:134-175 | Each outcome under exactly its condition, in order: all three fields are required, then a known difficulty, a known style, a study time that is a string (otherwise a server error), a digit in it, and a known user. Success holds exactly when all pass, and replaces only that user's preferences with the two names and the first number |
| Profile.ValidAnswersAreSaved | Backend/Controller/profileController.js:134-168 | Three valid answers whose study time holds a number are saved unless the user is gone, and that number is the stored time |
| Profile.SavePreferencesKeepsEmails | Backend/Controller/profileController.js:154-168 | Saving preferences changes no user's email and no store size |
| Cbse.InsertByOrderPermutes | Backend/Controller/cbseCourseController.js:29 | Inserting a topic adds exactly that topic |
| Cbse.InsertByOrderSorted | Backend/Controller/cbseCourseController.js:29 | Inserting into topics sorted by order keeps them sorted |
| Cbse.SortByOrder | Backend/Controller/cbseCourseController.js:29 | The sorted topics are ordered by `order`, with the same count |
| Cbse.SortByOrderPermutes | Backend/Controller/cbseCourseController.js:29 | Sorting is a permutation of the topics |
| Cbse.SortKeepsSortedTopics | Backend/Controller/cbseCourseController.js:29 | Topics already in order are left as they are |
| Cbse.NodeLabel | Backend/Controller/cbseCourseController.js:30-31 | A label starts with the topic name and ends with [Completed] iff the topic is completed, else [Pending] |
| Cbse.FlowLines | Backend/Controller/cbseCourseController.js:29-35 | n topics give 2n − 1 lines |
| Cbse.StepLinesFilter | Backend/Controller/cbseCourseController.js:31-34 | Each topic gives its node, and after the first an edge from the previous node |
| Cbse.FlowLinesAreChain | Backend/Controller/cbseCourseController.js:29-35 | The nodes are T0…Tn−1 in topic order, and the edges are exactly Ti−1 → Ti: a single chain |
| Cbse.Flowchart | Backend/Controller/cbseCourseController.js:27-37 | The text starts with "graph TD;\n", and is just that header iff there are no topics |
| Cbse.TopicResources | Backend/Controller/cbseCourseController.js:84-89 | Exactly the NCERT Book and Notes resources are kept, projected to title and url |
| Cbse.TopicResourcesAppend | Backend/Controller/cbseCourseController.js:85-89 | The whitelist keeps order: filtering two lists is filtering each |
| Cbse.BuildTopics | Backend/Controller/cbseCourseController.js:81-94 | One pending topic per chapter, with order index + 1 and time 0 |
| Cbse.BuiltTopicsAreOrderedAndPending | Backend/Controller/cbseCourseController.js:81-96 | Built topics are already sorted, so the flowchart keeps them, and every node shows [Pending] |
| Cbse.NewCoursePath | Backend/Controller/cbseCourseController.js:98-110 | A new path has the built topics, a duration of 2 × chapters, difficulty Medium, and zero completion, score and points |
| Cbse.StoredSummary | Backend/Controller/cbseCourseController.js:67-77 | quizPending iff some quiz is not completed. firstIncompleteSubtopicIndex is −1 iff all topics are done, since `\|\| 0` keeps −1; otherwise it is the first unfinished topic |
| Cbse.FreshSummary | Backend/Controller/cbseCourseController.js:117-125 | A new path is reported with its flowchart |
| Cbse.FreshAndStoredSummariesAgree | Backend/Controller/cbseCourseController.js:71-125 | For a new path, the fresh and stored summaries agree, flowchart aside, iff the course has chapters |
| Cbse.FindPath | Backend/Controller/cbseCourseController.js:66 | The lookup fails iff no stored path has the name; otherwise it finds the first one that does |
| Cbse.SubjectStep | Backend/Controller/cbseCourseController.js:63-125 | A subject with a stored path is summarised from it and creates nothing; otherwise exactly one new path is created and reported fresh (the intended save; see "## Findings") |
| Cbse.BuildSubjects | Backend/Controller/cbseCourseController.js:63-126 | One summary per subject; the stored paths grow only by the created ones (the intended save; see "## Findings") |
| Cbse.BuildSubjectsNamesSummary | Backend/Controller/cbseCourseController.js:64 | Summary k is named "course - subject k" |
| Cbse.BuildSubjectsNamesSummaries | Backend/Controller/cbseCourseController.js:64 | Every summary is named after its subject |
| Cbse.BuildSubjectsCoversFirst | Backend/Controller/cbseCourseController.js:63-112 | After the loop the first subject has a stored path |
| Cbse.BuildSubjectsCoversSubject | Backend/Controller/cbseCourseController.js:63-112 | After the loop subject k has a stored path |
| Cbse.BuildSubjectsCoversSubjects | Backend/Controller/cbseCourseController.js:63-112 | After the loop every subject has a stored path |
| Cbse.BuildSubjectsReusesStored | Backend/Controller/cbseCourseController.js:66-78 | A subject whose path was stored before the request is summarised from that path |
| Cbse.GenerateCourse | Backend/Controller/cbseCourseController.js:45-126 | A falsy id, an id whose `String()` is not a configured course, and one naming an `Object.prototype` member (a server error: the built-in has no subjects) are refused under exactly their conditions. Success holds exactly when the id's text is a configured course: one summary per subject, named after it, and the store grows only by the created paths (the intended save; see "## Findings") |
| Cbse.BuildSubjectsIsIdempotent | Backend/Controller/cbseCourseController.js:63-126 | When every subject already has a path, nothing is created |
| Cbse.SecondRequestCreatesNothing | Backend/Controller/cbseCourseController.js:45-126 | Repeating a successful request succeeds, creates no path and leaves the store as it is |
| Cbse.NewCoursePathIsRefused | Backend/Controller/cbseCourseController.js:98-112 | The path built for a new subject, with empty strength and weakness, fails the schema's required fields (Backend/Model/LearningPath.js:17-18) |
| Cbse.BuildSubjectsAsWritten | Backend/Controller/cbseCourseController.js:63-126 | As written, the loop fails with a server error iff some subject has no stored path; otherwise it agrees with the intended loop and creates nothing |
| Cbse.GenerateCourseAsWritten | Backend/Controller/cbseCourseController.js:45-139 | As written, the id refusals are those of the intended handler; a known course fails iff some subject lacks a stored path, and any success creates nothing |
| Cbse.FirstRequestFails | Backend/Controller/cbseCourseController.js:98-139 | As written, a first request for a course with subjects answers with a server error |
| Cbse.FirstRequestStoresEveryPath | Backend/Controller/cbseCourseController.js:63-126 | With the intended save, a first request creates paths and leaves every subject with a stored path |
| LlmOutput.FindText | Backend/Utils/aiService.js:13 | The position found is the first occurrence of the needle from the start, or −1 iff there is none |
| LlmOutput.SpaceRunEnd | Backend/Utils/aiService.js:13 | The white-space run from i ends at the first non-space character |
| LlmOutput.StripOpeningFence | Backend/Utils/aiService.js:13 | The first "```json" and the white space after it are removed, and text without it is unchanged |
| LlmOutput.FindClosingFence | Backend/Utils/aiService.js:14 | Finds the first "```" followed only by white space to the end, or −1 iff there is none |
| LlmOutput.StripClosingFence | Backend/Utils/aiService.js:14 | A trailing fence and everything after it are cut, and text without one is unchanged |
| LlmOutput.RemoveNewlines | Backend/Utils/aiService.js:16 | No newline remains, and nothing is added |
| LlmOutput.CleanJson | Backend/Utils/aiService.js:11-17 | The cleaned text has no newline and no white space at either end |
| LlmOutput.CleanJsonUnwrapsFence | Backend/Utils/aiService.js:11-17 | A one-line, trimmed payload wrapped in a ```json fence comes out exactly as the payload |
| LlmOutput.OpeningFenceStripped | Backend/Utils/aiService.js:13 | In a fenced payload, the opening fence and its newline are removed |
| LlmOutput.ClosingFenceStripped | Backend/Utils/aiService.js:14 | In a fenced payload, the closing fence is cut and the newline before it stays |
| LlmOutput.TrimDropsFinalNewline | Backend/Utils/aiService.js:15 | Trimming a trimmed payload plus a newline gives the payload |
| LlmOutput.FilterQuestions | Backend/Utils/aiService.js:291-306 | A null question makes the filter throw. Otherwise exactly the well-formed questions are kept: four options including the string answer, type MCQ, numeric marks, string explanation and, where required, a string subtopic |
| LlmOutput.FilterQuestionsKeepsOrder | Backend/Utils/aiService.js:291-306 | The kept questions are a subsequence of the parsed ones |
| LlmOutput.SubtopicCheckIsStricter | Backend/Utils/quizAiService.js:96-110 | Demanding a subtopic only removes questions, and removes none that have a string subtopic |
| AiService.FallbackMarks | Backend/Utils/aiService.js:278 | The fallback question is worth 1 for Easy, 2 for Medium and 3 for anything else |
| AiService.QuizFallback | Backend/Utils/aiService.js:271-284 | The fallback quiz is one question with those marks, and its duration is the requested count |
| AiService.FallbackQuestionIsWellFormed | Backend/Utils/aiService.js:271-306 | The fallback question passes the subtopic-requiring filter |
| AiService.SmartQuiz | Backend/Utils/aiService.js:285-312 | Without a usable parse or with no surviving question, the result is the fallback. Otherwise it is the parse with only its well-formed questions. Either way there is at least one question and every one is well formed |
| AiService.SmartQuizKeepsParsedAnswer | Backend/Utils/aiService.js:291-312 | An accepted quiz keeps its questions in order and every other field of the parse unchanged |
| AiService.ResourceFallback | Backend/Utils/aiService.js:47-60 | The requested number of fallback resources, capped at three, each with a title and a url ending in the lower-cased topic name |
| AiService.GenerateResources | Backend/Utils/aiService.js:61-69 | At most the requested number of resources, each with a title and url. Without a non-empty, null-free array they are the fallback links, as many as requested up to three, each url ending in the lower-cased topic; otherwise they are the first of the answer's entries with both fields, in their order, as many as requested or as there are, whichever is fewer |
| AiService.UsableAnswerGivesItsFirstEntries | Backend/Utils/aiService.js:61-69 | An answer whose entries all have a title and url gives its first entries, as many as requested |
| AiService.SubtopicKey | Backend/Utils/aiService.js:341 | A question without a subtopic counts under "General", and a non-empty string subtopic under itself |
| AiService.AddTally | Backend/Utils/aiService.js:342-348 | A subtopic named like an `Object.prototype` member gets no tally; otherwise counting one question adds a new tally for an unseen subtopic, or bumps the existing one's total and, for a hit, its correct count. Nothing else changes, and subtopics stay distinct and own |
| AiService.Tallies | Backend/Utils/aiService.js:340-349 | The tallies have distinct subtopics, none a built-in name, and their totals add up to the number of questions whose subtopic is not a built-in name |
| AiService.TalliesCoverKeys | Backend/Utils/aiService.js:340-349 | A subtopic of a question has a tally iff it is not a built-in name |
| AiService.TalliesCount | Backend/Utils/aiService.js:340-349 | Each tally's total is the number of questions of that subtopic (at least 1), and its correct count the number answered correctly |
| AiService.KeyNotTalliedIsNew | Backend/Utils/aiService.js:340-349 | A subtopic with no tally belongs to no question, or is a built-in name |
| AiService.WeakSubtopics | Backend/Utils/aiService.js:351-353 | A subtopic is listed iff its tally is below 70% |
| AiService.WeakMeansBelowSeventyPercent | Backend/Utils/aiService.js:339-353 | A subtopic is weak iff it occurs, is not a built-in name, and fewer than 70% of its questions were answered correctly |
| AiService.InsertByIndexPermutes | Backend/Utils/aiService.js:351 | Inserting an index key adds exactly that tally |
| AiService.InsertByIndexSorted | Backend/Utils/aiService.js:351 | Inserting into tallies in ascending index order keeps them in order |
| AiService.SortByIndex | Backend/Utils/aiService.js:351 | The index keys come out in ascending numeric order, with the same count |
| AiService.SortByIndexPermutes | Backend/Utils/aiService.js:351 | Sorting the index keys is a permutation |
| AiService.KeyOrder | Backend/Utils/aiService.js:351 | `Object.keys` order: a permutation of the tallies with the array-index keys first in ascending numeric order, then the other keys in insertion order |
| AiService.KeyOrderKeepsWeakSubtopics | Backend/Utils/aiService.js:351-353 | The key order changes which subtopics are weak in no way |
| AiService.AnalysisFallback | Backend/Utils/aiService.js:390-407 | Strengths are reported iff more than 70% are correct, and weaknesses iff some answer is wrong. A remedial subtopic is given iff there are questions and the score is below 70%. No resources |
| AiService.EnrichRemedial | Backend/Utils/aiService.js:426-437 | One shaped remedial entry per suggestion that has a name and a description |
| AiService.SheetTallies | Backend/Utils/aiService.js:334-349 | The tallies of a sheet have distinct subtopics, none a built-in name, and totals adding up to the number of questions whose subtopic is not a built-in name |
| AiService.SheetWeakSubtopicsBelowSeventyPercent | Backend/Utils/aiService.js:339-353 | A subtopic is listed iff some question has it, it is not a built-in name, and fewer than 70% of its questions were answered correctly |
| AiService.Enrich | Backend/Utils/aiService.js:419-437 | Keeps strengths and weaknesses, takes the first four of the weak subtopics' resources, and rebuilds the remedial list |
| AiService.Analyze | Backend/Utils/aiService.js:332-448 | The analysis always has string strengths and weaknesses, at most four resources and shaped remedial entries; a null question or response gives the error reply |
| AiService.ParsedAnalysisRefusals | Backend/Utils/aiService.js:408-448 | A parsed `null` answer, or one whose remedial list holds `null`, gives the error reply; a parsed answer of the wrong shape gives the fallback unchanged, with no resources |
| AiService.ParsedAnalysisIsEnriched | Backend/Utils/aiService.js:410-439 | A parsed answer of the right shape is that answer enriched with the resources of the sheet's weak subtopics: its strengths and weaknesses kept, the first four resources listed |
| AiService.UnparsedAnalysisUsesFallback | Backend/Utils/aiService.js:390-424 | When the model's text does not parse, the reply carries the fallback's strengths and weaknesses, with remedial subtopics iff the score is below 70% |
| AiService.UnparsedAnalysisIsEnrichedFallback | Backend/Utils/aiService.js:408-439 | An unparsed reply is the fallback enriched like an accepted one |
| AiService.FallbackPassesChecks | Backend/Utils/aiService.js:390-416 | The fallback passes the shape check, and every remedial entry has a name and a description |
| QuizAi.AdaptivePath | Backend/Utils/quizAiService.js:43-60 | A null parse fails. A parse of the right shape is returned as is, and anything else gives the fixed fallback |
| QuizAi.AdaptivePathIsStable | Backend/Utils/quizAiService.js:43-60 | The fallback passes the shape check, a returned path fed back in is returned unchanged, and a parse is returned as is exactly when it has the path shape |
| QuizAi.SmartQuiz | Backend/Utils/quizAiService.js:84-115 | A null parse, or a null question in a shaped one, fails. A shapeless parse gives the empty fallback. A shaped one keeps only its well-formed questions, with no subtopic demanded, and may end up empty |
| QuizAi.UnparsableQuizIsEmpty | Backend/Utils/quizAiService.js:85-92 | Unparsable text gives no questions and the requested duration |
| QuizAi.QuizServicesAgree | Backend/Utils/quizAiService.js:96-110 | Every question the stricter service keeps is kept by this one |
| QuizAi.TopicResources | Backend/Utils/quizAiService.js:164-189 | Exactly the five common topics have curated resources: two links with string title and url |
| QuizAi.Analyze | Backend/Utils/quizAiService.js:145-191 | A reply failing the shape check gives the fallback. An accepted reply keeps its strengths and weaknesses, and its resources unless they are empty, when the topic's curated list, if any, is used |
| QuizAi.WithCuratedResources | Backend/Utils/quizAiService.js:187-189 | Substituting curated links keeps the reply accepted and its texts, with exactly those links |
| QuizAi.UnparsableAnalysisUsesCuratedResources | Backend/Utils/quizAiService.js:146-189 | Unparsable text yields the default texts with the topic's curated resources |
| QuizAi.CommonTopicGetsResources | Backend/Utils/quizAiService.js:187-189 | For the five common topics an accepted reply always has resources |
| QuizSession.NullResponses | Frontend/src/Pages/LearnFlow/Learnflow.jsx:111 | n answer slots, all null |
| QuizSession.Spread | Frontend/src/Pages/Quiz/QuizCore.jsx:27 | Copying the answers keeps their number and values, and turns holes into undefined |
| QuizSession.Write | Frontend/src/Pages/Quiz/QuizCore.jsx:28 | Writing slot i sets it, keeps every other slot, and past the end grows the array with holes |
| QuizSession.ChooseOption | Frontend/src/Pages/Quiz/QuizCore.jsx:26-30 | With no bounds check, a non-negative index sets that slot and may grow the array; a negative one only copies; other slots keep their values |
| QuizSession.ChooseOptionBounded | Frontend/src/Pages/LearnFlow/QuizCore.jsx:24-32 | An index outside the questions leaves the answers unchanged; an index inside sets only that slot and keeps the length |
| QuizSession.AnsweredCount | Frontend/src/Pages/LearnFlow/QuizCore.jsx:119 | The answered count never exceeds the number of slots |
| QuizSession.GuardMatchesProgress | Frontend/src/Pages/Quiz/Quiz.jsx:103-108 | On a sheet without holes, submission is blocked iff fewer answers are counted than there are slots |
| QuizSession.FreshSheetBlocksSubmit | Frontend/src/Pages/Quiz/Quiz.jsx:90 | A fresh sheet blocks submission iff it has questions |
| QuizSession.GuardedWidth | Frontend/src/Pages/LearnFlow/QuizCore.jsx:133 | The progress width is 0% without questions, stays within 0..100%, and is 100% when all are answered |
| QuizSession.UnguardedWidth | Frontend/src/Pages/Quiz/QuizCore.jsx:129 | Without questions the width is NaN% (nothing answered) or Infinity% (answers present), and a percentage otherwise |
| QuizSession.WidthsAgreeOnQuestions | Frontend/src/Pages/Quiz/QuizCore.jsx:129 | With at least one question both progress bars show the same width |
| QuizSession.GoTo | Frontend/src/Pages/Quiz/QuizCore.jsx:32-37 | A valid index is shown and the selector closed; any other index changes nothing |
| QuizSession.Next | Frontend/src/Pages/Quiz/Quiz.jsx:160-164 | Next moves one forward only to an existing question of a loaded quiz |
| QuizSession.Prev | Frontend/src/Pages/Quiz/Quiz.jsx:166-170 | Previous moves one back only down to the first question |
| QuizSession.NavigationStaysInRange | Frontend/src/Pages/Quiz/Quiz.jsx:160-177 | Go-to, next and previous keep the shown question within 0..n − 1 |
| QuizSession.AcceptQuiz | Frontend/src/Pages/Quiz/CustomQuizPage.jsx:72-83 | A quiz is kept iff it has questions, none null and all of an allowed type. It then starts on question 0 with every answer null and no result, tagged with the page's quiz model where the page has one |
| QuizSession.StricterPagesAcceptLess | Frontend/src/Pages/Quiz/Quiz.jsx:79-87 | The custom and daily pages accept the same quizzes, and the general page accepts all of those |
| QuizSession.GeneralRequest | Frontend/src/Pages/Quiz/Quiz.jsx:51-76 | Refused without a token, then for a blank topic; accepted exactly otherwise, with five questions on the trimmed topic at the chosen difficulty |
| QuizSession.CustomRequest | Frontend/src/Pages/Quiz/CustomQuizPage.jsx:50-67 | Refused without a token, then for a blank topic, no difficulty or zero questions; accepted exactly otherwise, with the trimmed topic, the chosen difficulty and the chosen count |
| QuizSession.PaddedTopicSameRequest | Frontend/src/Pages/Quiz/Quiz.jsx:51-76 | White space around a topic changes neither page's request; a logged-in general request asks five questions on the topic as typed |
| QuizSession.SubmitGuard | Frontend/src/Pages/Quiz/DailyQuizPage.jsx:100-104 | Submission is refused, with the page's message, iff some answer is null |
| QuizSession.Reset | Frontend/src/Pages/Quiz/CustomQuizPage.jsx:144-153 | Every page clears quiz, answers, result, error and question index and leaves the selector. The general page restores topic and difficulty, the custom page also the count, and the daily page keeps its form |
| QuizSession.ResetIsIdempotent | Frontend/src/Pages/Quiz/Quiz.jsx:150-158 | Resetting twice is resetting once |
| QuizSession.RecommendedResources | Frontend/src/Pages/Quiz/QuizCore.jsx:137-142 | A missing or unparsable stored value shows an empty list; otherwise the parsed value |
| QuizSession.OfferedOptions | Frontend/src/Pages/Quiz/QuizCore.jsx:57 | Options are offered iff the question has exactly four, and they are its own |
| QuizSession.KeptQuestionsOfferOptions | Frontend/src/Pages/Quiz/QuizCore.jsx:57-73 | Every question the generators keep is rendered with options, one of which is the correct answer |
| LearnFlow.MarkedTopic | Frontend/src/Pages/LearnFlow/Learnflow.jsx:67-71 | The marked topic is completed at the given date and keeps every other field |
| LearnFlow.CompletionPayload | Frontend/src/Pages/LearnFlow/Learnflow.jsx:66-71 | Only the current topic changes. An index past the end grows the list, with null in the gap |
| LearnFlow.EchoedCompletionCountsOnce | Frontend/src/Pages/LearnFlow/Learnflow.jsx:66-80 | Marking an unfinished topic adds exactly one completion, and a finished one none |
| LearnFlow.FirstIncompleteFrom | Frontend/src/Pages/LearnFlow/Learnflow.jsx:87-89 | Finds the first unfinished topic from the start point, reports none when all are finished, and throws at a null topic met first |
| LearnFlow.LastThreeNames | Frontend/src/Pages/LearnFlow/Learnflow.jsx:81-84 | The names of the last three topics, or fewer when there are fewer, in order |
| LearnFlow.NextTopic | Frontend/src/Pages/LearnFlow/Learnflow.jsx:86-90 | The next topic is the first unfinished one after the current; when there is none it is the one after the current |
| LearnFlow.AfterCompletion | Frontend/src/Pages/LearnFlow/Learnflow.jsx:79-90 | A null topic makes the step fail. A quiz comes iff the completed count is a multiple of 3 or all topics are done, on the last three completed names; otherwise the page moves to the next topic |
| LearnFlow.FinishingThePathTriggersQuiz | Frontend/src/Pages/LearnFlow/Learnflow.jsx:79-80 | Completing every topic always leads to a quiz |
| LearnFlow.TopicNames | Frontend/src/Pages/LearnFlow/Learnflow.jsx:84 | One name per topic, in order |
| LearnFlow.QuizNamesCompletedTopics | Frontend/src/Pages/LearnFlow/Learnflow.jsx:81-84 | Every subtopic sent to the quiz names a completed topic of the path |
| LearnFlow.AfterQuiz | Frontend/src/Pages/LearnFlow/Learnflow.jsx:149-158 | After a quiz the page never moves back or past the end. A jump of more than one lands on an unfinished topic with only finished ones between |
| LearnFlow.AfterQuizFindsUnfinished | Frontend/src/Pages/LearnFlow/Learnflow.jsx:149-153 | Without null topics, the page lands on an unfinished topic no later than any unfinished one that follows |
| LearnFlow.StartResponses | Frontend/src/Pages/LearnFlow/Learnflow.jsx:111 | A quiz's answers start as one null per question; a missing list throws |
| Onboarding.ContinueWarning | Frontend/src/Pages/Onboarding/OnboardingProcess.jsx:43-55 | Continue is refused iff the current question is unanswered |
| Onboarding.Apply | Frontend/src/Pages/Onboarding/OnboardingProcess.jsx:43-57 | Only a shown button acts. Continue moves exactly one step when the question is answered, and a choice sets its answer from the option list |
| Onboarding.ApplyKeepsConsistent | Frontend/src/Pages/Onboarding/OnboardingProcess.jsx:43-57 | Every button keeps the step in range, answers from the lists, and all questions before the step answered |
| Onboarding.RunKeepsConsistent | Frontend/src/Pages/Onboarding/OnboardingProcess.jsx:43-57 | Any sequence of button presses keeps the wizard consistent |
| Onboarding.FreshWizardAnswersEverything | Frontend/src/Pages/Onboarding/OnboardingProcess.jsx:8-57 | From a fresh page, the summary step is reached only with all three questions answered |
| Onboarding.IndicatorShowsStep | Frontend/src/Pages/Onboarding/OnboardingProcess.jsx:293-308 | On a question step, circle i is filled iff i ≤ step, connector i iff circle i + 1 is, and Continue is shown |
| Onboarding.CompleteRequest | Frontend/src/Pages/Onboarding/OnboardingProcess.jsx:59-77 | Without a token the error is shown; otherwise the three answers are sent as they are |
| Onboarding.TimeOptionsReadAsMinutes | Frontend/src/Pages/Onboarding/OnboardingProcess.jsx:188 | The server reads every study-time option as its number of minutes |
| Onboarding.OptionsMatchSchema | Frontend/src/Pages/Onboarding/OnboardingProcess.jsx:126-158 | Every difficulty and style option is a name the server accepts |
| Onboarding.ConsistentSummaryIsAccepted | Frontend/src/Pages/Onboarding/OnboardingProcess.jsx:59-77 | A consistent wizard on its summary step sends answers the server accepts, failing only for an unknown user, and the stored time is the option's minutes |
| Onboarding.Resume | Frontend/src/Pages/Onboarding/OnboardingProcess.jsx:15-19 | A reload keeps the stored step and loses every answer |
| Onboarding.ResumedSummaryIsRefused | Frontend/src/Pages/Onboarding/OnboardingProcess.jsx:15-19 | A reload on the summary step gives an inconsistent wizard whose answers the server refuses as missing |
| Onboarding.ResumeChecked | Frontend/src/Pages/Onboarding/OnboardingProcess.jsx:15-19 | A checked resume is always consistent and never past the first question, and keeps a stored step of 0 or 1 |
| Onboarding.CheckedResumeAnswersEverything | Frontend/src/Pages/Onboarding/OnboardingProcess.jsx:15-57 | After a checked resume, the summary step is reached only with all three answers |
| ProfilePage.EditErrors | Frontend/src/Pages/Profile/Profile.jsx:76-88 | Errors for exactly a blank name, a blank email and a non-positive or non-numeric study time, with the page's messages |
| ProfilePage.OrUndefined | Frontend/src/Pages/Profile/Profile.jsx:104-105 | An empty select value is sent as undefined, and any other as the string |
| ProfilePage.SubmitEdit | Frontend/src/Pages/Profile/Profile.jsx:76-107 | The form is refused iff it has errors. Otherwise it sends the trimmed name and email, the selects, and the typed study time as a positive number |
| ProfilePage.ParseIntDigits | Frontend/src/Pages/Profile/Profile.jsx:106 | A study time that passed the page's test is read as the positive number typed |
| ProfilePage.AcceptedEditPassesServerChecks | Frontend/src/Pages/Profile/Profile.jsx:84-106 | A request the page sends passes the server's required-field and study-time checks, and the server stores the number typed |
| ProfilePage.PasswordErrors | Frontend/src/Pages/Profile/Profile.jsx:129-146 | Errors for exactly an empty current password, a new password shorter than 8, and a confirmation that differs |
| ProfilePage.PasswordFormValid | Frontend/src/Pages/Profile/Profile.jsx:129-146 | The form is valid iff the current password is given, the new one has at least 8 characters and the confirmation repeats it |
| ProfilePage.ValidPasswordFormPassesServerPrecheck | Frontend/src/Pages/Profile/Profile.jsx:135-139 | A form the page accepts passes the server's checks made before the user lookup |
| Recognition.CloseFrom | Frontend/src/Pages/Recognition/Recognition.jsx:10 | Finds the first "**" on the same line, or reports that every later one is past a line break |
| Recognition.EmboldenWithoutStars | Frontend/src/Pages/Recognition/Recognition.jsx:10 | Text without a star is left as is |
| Recognition.EmboldenWrapsBold | Frontend/src/Pages/Recognition/Recognition.jsx:10 | A single `**x**` span on one line becomes `<strong>x</strong>` |
| Recognition.CloseFromStopsAt | Frontend/src/Pages/Recognition/Recognition.jsx:10 | The match closes at the first "**", the shortest match |
| Recognition.BulletLine | Frontend/src/Pages/Recognition/Recognition.jsx:13 | A line starting with "* " and one more character becomes the mark, a space and the rest; any other line is unchanged |
| Recognition.BulletsWithoutStars | Frontend/src/Pages/Recognition/Recognition.jsx:13 | Text without a star has no bullet to replace |
| Recognition.WrittenBulletIsMisencoded | Frontend/src/Pages/Recognition/Recognition.jsx:13 | The mark in the code is the UTF-8 bytes of U+2022 read as Windows-1252, and differs from the bullet |
| Recognition.SplitNewlines | Frontend/src/Pages/Recognition/Recognition.jsx:17 | Splitting gives at least one piece, none containing a newline |
| Recognition.SplitJoinRoundTrip | Frontend/src/Pages/Recognition/Recognition.jsx:16-19 | Joining the pieces with newlines gives back the text |
| Recognition.JoinBrHasNoNewline | Frontend/src/Pages/Recognition/Recognition.jsx:19 | Joining newline-free pieces with `<br>` leaves no newline |
| Recognition.TrimAll | Frontend/src/Pages/Recognition/Recognition.jsx:18 | Every line is trimmed |
| Recognition.FormatWith | Frontend/src/Pages/Recognition/Recognition.jsx:6-22 | The formatted text has no newline |
| Recognition.FormatText | Frontend/src/Pages/Recognition/Recognition.jsx:6-22 | As written, the formatted text has no newline |
| Recognition.FormatTextCorrected | Frontend/src/Pages/Recognition/Recognition.jsx:6-22 | With the intended bullet, the formatted text has no newline |
| Recognition.PlainLineIsTrimmed | Frontend/src/Pages/Recognition/Recognition.jsx:6-22 | A line without stars or line breaks is only trimmed |
| Recognition.OneLineIsTrimmed | Frontend/src/Pages/Recognition/Recognition.jsx:16-19 | A text without newlines comes out trimmed |
| Recognition.OneLineBullet | Frontend/src/Pages/Recognition/Recognition.jsx:13 | On a single line the bullet pass is the line rule |
| Recognition.BulletItemHasNoBold | Frontend/src/Pages/Recognition/Recognition.jsx:10 | A bullet item with no other star is left alone by the bold pass |
| Recognition.BulletItemFormatted | Frontend/src/Pages/Recognition/Recognition.jsx:10-19 | "* x" becomes the mark, a space and x |
| Recognition.WrittenBulletLineShowsMojibake | Frontend/src/Pages/Recognition/Recognition.jsx:13 | As written, "* x" shows the mis-encoded mark, not a bullet |
| Recognition.CorrectedBulletLine | Frontend/src/Pages/Recognition/Recognition.jsx:13 | With the intended mark, "* x" shows "• x" |
| Recognition.ChooseFile | Frontend/src/Pages/Recognition/Recognition.jsx:39-50 | A PDF is kept, clears the link and selects the PDF; anything else drops the file and shows the error |
| Recognition.EnterLink | Frontend/src/Pages/Recognition/Recognition.jsx:53-63 | A non-empty link drops the file and selects YouTube; clearing it falls back to the PDF if one is held |
| Recognition.UploadChoicesStayCoherent | Frontend/src/Pages/Recognition/Recognition.jsx:39-63 | The file and the link never coexist, and the upload type names the source held |
| Recognition.CheckLinkSound | Frontend/src/Pages/Recognition/Recognition.jsx:107-109 | A link the YouTube test accepts matches the YouTube pattern |
| Recognition.CheckLinkComplete | Frontend/src/Pages/Recognition/Recognition.jsx:107-109 | Every link of the pattern's form is accepted |
| Recognition.CheckLinkMatchesPattern | Frontend/src/Pages/Recognition/Recognition.jsx:107-109 | The YouTube test accepts exactly the links of the pattern |
| Recognition.HandleUpload | Frontend/src/Pages/Recognition/Recognition.jsx:66-139 | A held PDF is sent; otherwise a YouTube link is sent iff it matches the pattern, and refused with its message if not |
| Recognition.CoherentUploadSendsHeldSource | Frontend/src/Pages/Recognition/Recognition.jsx:66-139 | On the page's reachable states the held file is sent, and "select a PDF or enter a link" appears iff neither is held |

## Left out

- HTTP, routing, JWT verification, CORS and Mongoose queries: the store and the lookup results are parameters. Error bodies for thrown exceptions are not modelled beyond which check fails.
- Routing as written never loads. Backend/Routes/learningRoutes.js:10,15-17 binds `triggerQuiz`, `getAllLearningPaths`, `updateLearningPath` and `getLearningPath`, which Backend/Controller/learningController.js does not define. Calling `.bind` on `undefined` throws, so the `require` of the learning routes at Backend/app.js:10 throws before the server listens. The model takes each handler as reachable.
- Persistence-layer validation. Two saves are modelled: the refused save of a new CBSE path (see "## Findings"), and the cast and validation of a LearningPathQuiz's responses (Grading.SaveGraded). Otherwise the model treats a stored document as the object the controller builds. Two schemas drop what the controllers write. The Quiz schema (Backend/Model/Quiz.js) declares no question `marks` and no `responses`, `quizScore`, `quizResult` or `completedTime`, so strict mode drops the update at Backend/Controller/learningController.js:156-161. The LearningPath schema declares no `gamification`, `flowchart`, topic `order` or quiz `completed` field. So Mongoose's strict mode drops the `quizzes.$.completed` and `gamification.points` updates at Backend/Controller/quizController.js:237-240, which Grading.CreditPath models as applied.
- Cbse.SubjectStep: models the intended save; as written the save of a new path throws (see "## Findings").
- Cbse.BuildSubjects: models the intended save; as written the loop answers 500 at the first subject without a stored path (Cbse.BuildSubjectsAsWritten).
- Cbse.GenerateCourse: models the intended save; as written a request needing a new path answers 500 (Cbse.GenerateCourseAsWritten).
- Grading.CreditPath: for a path with no topics the source computes a `NaN` completion percentage. Mongoose refuses it, so `save()` throws and the request answers 500 after the score increment has been applied. The model keeps the previous value and does not model that error reply.
- Grading.CompletionPercent: rounds the exact ratio half up. `Math.round((completed / total) * 100)` differs only when 100 × completed / total lies exactly halfway between integers and the float product lands below it. For 23 of 40 topics the source gives 57 and the model 58. Grading.CreditPath stores this value.
- AiService.AnalysisFallback: tests strengths as `10 * correct > 7 * total`. The source's `correct > total * 0.7` differs when 7 × total / 10 is exactly the correct count and the float product rounds below it. At 63 of 90, 119 of 170 and 126 of 180 the source reports strengths and the model does not.
- Grading.SubmitQuiz: the performance analysis stored on the quiz (Backend/Controller/quizController.js:196-206) and the leaderboard score with its speed term and rounding (208-223) are not modelled; only the bonus term is.
- The daily-quiz lookup by date window and its per-user copy (Backend/Controller/quizController.js:100-145) depend on the clock and the store.
- Stats.Progress, Stats.Analytics and Stats.DashboardData: calls that fail at run time in the source are recorded, and only the arithmetic around them is modelled. `getAnalytics` reads an undeclared `Quiz` (Backend/Controller/analyticsController.js:23). `getProgress` calls a missing `generateProgressReport` (Backend/Controller/learningController.js:179). The chat handler reassigns a `const` (Backend/Controller/learningController.js:88).
- Json.StringToNumber: reads only blank text and runs of decimal digits. `Number()` also reads "Infinity" with or without a sign, a leading sign, fractions, exponents and hexadecimal; the model reads all of these as NaN. So Profile.EditProfile refuses a study time such as "+5", "2.5" or "Infinity" as invalid, where the source accepts it: `parseInt` stores "+5" and "2.5" as 5 and 2, and reads "Infinity" as NaN, which the save refuses, so that request answers 500. Profile.ParseIntOf and ProfilePage.ParseIntDigits inherit this: `parseInt` of "1e3" is 1 in JavaScript.
- Profile.ParseIntOf: models numbers as unbounded integers, not doubles. A fractional number (a study time, a mark or a response time such as 2.5) has no `Json` value. Integers above 2^53 are exact in the model and rounded in the source. `parseInt` of a number of at least 1e21 reads its exponent text: `parseInt(1e21)` is 1. So the contract `r == ToNumber(j)` does not hold there, since `Number()` gives 10^21.
- Profile.EditProfile: stores a study time of 1e21 as 10^21, where the source stores 1, because `parseInt` reads the text "1e+21". Exact modelling needs double-precision numbers and their shortest round-trip digits.
- Profile.SingletonStudyTimeIsStored: for `[n]` with n at least 1e21 the source stores the leading digit of the exponent form, not n; the lemma assumes the integer reading above.
- Grading.SpreadResponse: the copy `{...response}` at Backend/Controller/learningController.js:149 is modelled for an object response only. A string or array response also contributes its index keys ("0", "1", …); Grading.SpreadFields gives it no fields.
- Json: objects are maps, so the key order of `JSON.stringify` and of objects in general is not modelled. It is modelled for the subtopic tallies (AiService.KeyOrder). Keys are looked up by their `String()` text (Json.ToText) in the subtopic key and in Cbse.CourseKey.
- AiService.AddTally: a subtopic named like an `Object.prototype` member gets no tally, as in the source. The source also writes `total` and `correct` onto that built-in, and for "__proto__" onto `Object.prototype` itself. Those side effects on the process are not modelled.
- QuizAi.TopicResources: a topic named after an `Object.prototype` member, such as "constructor", is truthy in the source's lookup; the model finds no resources for it.
- Text.Lower changes only the ASCII letters; Unicode case mapping is not modelled. Text.Trim removes JavaScript's full white-space set. String lengths count code points, not UTF-16 units.
- Grading.DailyBonus works in real arithmetic on hours; the millisecond clock arithmetic is not modelled.
- Stats.AverageScore and Stats.PassRate are exact reals; float rounding is not modelled.
- LearnFlow.StartResponses: `new Array(n)` with a non-integer or huge `n` is not modelled; with no number it gives a one-slot array.
- Onboarding.Resume takes the stored step already read as an integer; `parseInt` of the stored text is not modelled.
- QuizSession.CustomRequest takes the count as an integer; `Number("")` and NaN counts are not modelled.
- Toasts, animations, rendering, audio, the PDF report, the network calls and browser storage are not modelled, apart from the step the onboarding page keeps in storage.
- The requests the document page sends (`/upload`, `/process-youtube`) and the Flask service's PDF extraction and summary are external calls.
- The language-model prompts and raw answers are abstract: the sanitisers start from the parsed value.

## Findings

| source | as written | input that shows it | evidently intended | confidence | as-written member | corrected member |
|---|---|---|---|---|---|---|
| Backend/Controller/analyticsController.js:102 | `title: quiz.topicname`; the schema field is `topicName` | any stored quiz | the entry is titled with the quiz's topic name | not executed; high | Stats.PastScoresLoseTitles | Stats.PastScoresAgreeButTitle |
| Backend/Controller/learningController.js:159 | pass mark `questions.length * 0.7 * (questions[0].marks \|\| 1)` | two questions worth 3 and 1, both answered correctly: score 4, mark 4.2 | pass at 70% of the marks offered, as Backend/Controller/quizController.js:193 does. Caveat: Backend/Model/Quiz.js:17-22 declares no `marks`, so as written a correct answer adds `undefined` and the score is NaN, and every sheet with at least one question fails; the update writes `responses`, `quizScore` and `quizResult`, none declared in that schema. The row is about the pass rule on its own | not executed; medium | Grading.FirstQuestionRuleFailsPerfectSheet | Grading.CorrectedLearningPerfectSheetPasses |
| Backend/Controller/cbseCourseController.js:98-112 | a new path is saved with `courseStrength: ''` and `courseWeakness: ''`, which Backend/Model/LearningPath.js:17-18 requires, and with resource objects where strings are declared; were it saved, line 121 would read the undeclared `gamification` | a first request for any course with subjects: `save()` throws and the reply is a 500 | every subject gets a stored path and the summaries are returned | not executed; high | Cbse.FirstRequestFails | Cbse.FirstRequestStoresEveryPath |
| Frontend/src/Pages/Onboarding/OnboardingProcess.jsx:15-19 | the stored step is restored but the answers are not | answer all three questions, reload on the summary step, press Complete: the server answers "All fields are required" | never resume past an unanswered question | not executed; high | Onboarding.ResumedSummaryIsRefused | Onboarding.CheckedResumeAnswersEverything |
| Frontend/src/Pages/Recognition/Recognition.jsx:13 | the bullet literal is "â€¢", the UTF-8 bytes of "•" read as Windows-1252 | "* item" is shown as "â€¢ item" | "• item" | not executed; high | Recognition.WrittenBulletLineShowsMojibake | Recognition.CorrectedBulletLine |

=== FILE: ai_service.dfy ===
/** The sanitising and aggregation around the language model in the main AI
    service: the generated quiz with its fallback question, generated
    resource lists, and the performance analysis built from per-subtopic
    tallies.

    Every model answer is taken already parsed (`Option<Json>`, `None` when
    it does not parse). The resources fetched for a subtopic are the
    parameter `resourcesFor`, standing for `generateResources(topicName,
    subtopic, 2)`.
 */
module AiService {
  import opened Wrappers
  import opened Json
  import opened LlmOutput
  import Text
  import Seqs

  // ---------------------------------------------------------------------
  // generateSmartQuiz
  // ---------------------------------------------------------------------

  /** 1 mark for 'Easy', 2 for 'Medium', 3 for anything else. */
  function FallbackMarks(difficultyLevel: string): (m: int)
    ensures 1 <= m <= 3
    ensures m == 1 <==> difficultyLevel == "Easy"
    ensures m == 2 <==> difficultyLevel == "Medium"
  {
    if difficultyLevel == "Easy" then 1 else if difficultyLevel == "Medium" then 2 else 3
  }

  function FallbackQuestion(topicName: string, difficultyLevel: string): Json
  {
    JObj(map[
      "question" := JStr("What is a core concept in " + topicName + "?"),
      "options" := JArr([JStr("Option 1"), JStr("Option 2"), JStr("Option 3"), JStr("Option 4")]),
      "correctAnswer" := JStr("Option 1"),
      "questionType" := JStr("MCQ"),
      "marks" := JNum(FallbackMarks(difficultyLevel)),
      "aiGeneratedExplanation" := JStr("This is a core concept in " + topicName + "."),
      "subtopic" := JStr(topicName + " Basics")])
  }

  /** The fallback quiz: the single fallback question, lasting
      `numQuestions` minutes. */
  function QuizFallback(topicName: string, difficultyLevel: string, numQuestions: Json): (r: Json)
    ensures Get(r, "questions") == JArr([FallbackQuestion(topicName, difficultyLevel)])
    ensures Get(r, "duration") == numQuestions
    ensures Get(Get(r, "questions").items[0], "marks") == JNum(FallbackMarks(difficultyLevel))
  {
    JObj(map["questions" := JArr([FallbackQuestion(topicName, difficultyLevel)]), "duration" := numQuestions])
  }

  /** The fallback question passes the filter it stands in for. */
  lemma FallbackQuestionIsWellFormed(topicName: string, difficultyLevel: string)
    ensures WellFormedQuestion(FallbackQuestion(topicName, difficultyLevel), true)
  {
    var q := FallbackQuestion(topicName, difficultyLevel);
    assert Get(q, "correctAnswer") == Get(q, "options").items[0];
  }

  /** The parsed answer is used: an object with a question array and a
      numeric duration, no `null` question, and at least one question
      surviving the filter. */
  predicate QuizAccepted(parsed: Option<Json>)
  {
    parsed.Some? && parsed.value.JObj? &&
    Get(parsed.value, "questions").JArr? && Get(parsed.value, "duration").JNum? &&
    FilterQuestions(Get(parsed.value, "questions").items, true).Some? &&
    |FilterQuestions(Get(parsed.value, "questions").items, true).value| > 0
  }

  /** `generateSmartQuiz`. A text that does not parse yields the fallback
      (the fallback object itself passes every later check unchanged). */
  function SmartQuiz(topicName: string, difficultyLevel: string, numQuestions: Json, parsed: Option<Json>)
    : (r: Json)
    ensures !QuizAccepted(parsed) ==> r == QuizFallback(topicName, difficultyLevel, numQuestions)
    ensures QuizAccepted(parsed) ==>
              var kept := FilterQuestions(Get(parsed.value, "questions").items, true).value;
              r == JObj(parsed.value.fields["questions" := JArr(kept)])
    ensures Get(r, "questions").JArr? && |Get(r, "questions").items| > 0
    ensures forall i :: 0 <= i < |Get(r, "questions").items| ==>
              WellFormedQuestion(Get(r, "questions").items[i], true)
  {
    FallbackQuestionIsWellFormed(topicName, difficultyLevel);
    if QuizAccepted(parsed) then
      var kept := FilterQuestions(Get(parsed.value, "questions").items, true).value;
      JObj(parsed.value.fields["questions" := JArr(kept)])
    else QuizFallback(topicName, difficultyLevel, numQuestions)
  }

  /** An accepted quiz keeps the parsed questions that are well formed, in
      their order, and every other field of the answer. */
  lemma SmartQuizKeepsParsedAnswer(topicName: string, difficultyLevel: string, numQuestions: Json, parsed: Option<Json>)
    requires QuizAccepted(parsed)
    ensures var r := SmartQuiz(topicName, difficultyLevel, numQuestions, parsed);
            Seqs.IsSubsequence(Get(r, "questions").items, Get(parsed.value, "questions").items) &&
            Get(r, "duration") == Get(parsed.value, "duration") &&
            forall k :: k in parsed.value.fields && k != "questions" ==> Get(r, k) == parsed.value.fields[k]
  {
    FilterQuestionsKeepsOrder(Get(parsed.value, "questions").items, true);
  }

  // ---------------------------------------------------------------------
  // generateResources
  // ---------------------------------------------------------------------

  predicate HasTitleAndUrl(x: Json)
  {
    Truthy(Get(x, "title")) && Truthy(Get(x, "url"))
  }

  /** `x` is a string ending in `suffix`. */
  predicate EndsWith(x: Json, suffix: string)
  {
    x.JStr? && |suffix| <= |x.s| && x.s[|x.s| - |suffix|..] == suffix
  }

  /** The three fallback links, cut to `numResources`: each points at the
      lower-cased topic name on a learning site. */
  function ResourceFallback(topicName: string, subtopic: string, numResources: nat): (r: seq<Json>)
    ensures |r| == if numResources < 3 then numResources else 3
    ensures forall i :: 0 <= i < |r| ==> HasTitleAndUrl(r[i])
    ensures forall i :: 0 <= i < |r| ==> EndsWith(Get(r[i], "url"), Text.Lower(topicName))
  {
    var slug := Text.Lower(topicName);
    var all := [
      JObj(map["title" := JStr("Introduction to " + subtopic),
               "url" := JStr("https://www.khanacademy.org/learn/" + slug)]),
      JObj(map["title" := JStr(subtopic + " Tutorial"),
               "url" := JStr("https://www.coursera.org/learn/" + slug)]),
      JObj(map["title" := JStr(subtopic + " Guide"),
               "url" := JStr("https://www.freecodecamp.org/learn/" + slug)])];
    assert forall i :: 0 <= i < 3 ==> HasTitleAndUrl(all[i]);
    Seqs.Take(all, numResources)
  }

  /** The parsed answer is a non-empty array without `null` entries. */
  predicate ResourcesAccepted(parsed: Option<Json>)
  {
    parsed.Some? && parsed.value.JArr? && |parsed.value.items| > 0 &&
    forall i :: 0 <= i < |parsed.value.items| ==> !IsNullish(parsed.value.items[i])
  }

  /** `generateResources`: at most `numResources` entries, each with a title
      and a url. */
  function GenerateResources(topicName: string, subtopic: string, numResources: nat, parsed: Option<Json>)
    : (r: seq<Json>)
    ensures |r| <= numResources
    ensures forall i :: 0 <= i < |r| ==> HasTitleAndUrl(r[i])
    ensures !ResourcesAccepted(parsed) ==>
              (|r| == if numResources < 3 then numResources else 3) &&
              forall i :: 0 <= i < |r| ==> EndsWith(Get(r[i], "url"), Text.Lower(topicName))
    ensures ResourcesAccepted(parsed) ==>
              var usable := Seqs.Count(HasTitleAndUrl, parsed.value.items);
              Seqs.IsSubsequence(r, parsed.value.items) &&
              |r| == (if usable < numResources then usable else numResources) &&
              r == Seqs.Filter(HasTitleAndUrl, parsed.value.items)[..|r|]
  {
    if ResourcesAccepted(parsed) then
      var kept := Seqs.Filter(HasTitleAndUrl, parsed.value.items);
      Seqs.FilterIsSubsequence(HasTitleAndUrl, parsed.value.items);
      var r := Seqs.Take(kept, numResources);
      assert r == kept[..|r|];
      Seqs.PrefixKeepsSubsequence(kept, parsed.value.items, |r|);
      r
    else ResourceFallback(topicName, subtopic, numResources)
  }

  /** An answer whose entries all have a title and a url gives its first
      `numResources` entries. */
  lemma UsableAnswerGivesItsFirstEntries(topicName: string, subtopic: string, numResources: nat, items: seq<Json>)
    requires |items| > 0
    requires forall i :: 0 <= i < |items| ==> HasTitleAndUrl(items[i])
    ensures GenerateResources(topicName, subtopic, numResources, Some(JArr(items))) == Seqs.Take(items, numResources)
  {
    Seqs.FilterAllPass(HasTitleAndUrl, items);
    assert forall i :: 0 <= i < |items| ==> !IsNullish(items[i]);
  }

  // ---------------------------------------------------------------------
  // Subtopic tallies
  // ---------------------------------------------------------------------

  /** `q.subtopic || 'General'` as a key. */
  function SubtopicKey(q: Json): (k: string)
    ensures !Truthy(Get(q, "subtopic")) ==> k == "General"
    ensures HasString(q, "subtopic") && Get(q, "subtopic").s != "" ==> k == Get(q, "subtopic").s
  {
    var v := Get(q, "subtopic");
    if Truthy(v) then ToText(v) else "General"
  }

  datatype Tally = Tally(subtopic: string, correct: nat, total: nat)

  /** No subtopic is tallied twice. */
  predicate DistinctSubtopics(ts: seq<Tally>)
  {
    forall i, j :: 0 <= i < j < |ts| ==> ts[i].subtopic != ts[j].subtopic
  }

  /** How many of `keys` are `k`. */
  function Occurrences(keys: seq<string>, k: string): (n: nat)
    ensures n <= |keys|
    decreases |keys|
  {
    if keys == [] then 0
    else Occurrences(keys[..|keys| - 1], k) + (if keys[|keys| - 1] == k then 1 else 0)
  }

  /** How many of `keys` are `k` and answered correctly. */
  function HitsFor(keys: seq<string>, hits: seq<bool>, k: string): (n: nat)
    requires |hits| == |keys|
    ensures n <= Occurrences(keys, k)
    decreases |keys|
  {
    if keys == [] then 0
    else
      HitsFor(keys[..|keys| - 1], hits[..|keys| - 1], k) +
      (if keys[|keys| - 1] == k && hits[|keys| - 1] then 1 else 0)
  }

  predicate HasSubtopic(key: string, t: Tally) { t.subtopic == key }

  /** The tallies are all own keys of the object: none shadows a built-in. */
  predicate OwnKeys(ts: seq<Tally>)
  {
    forall i :: 0 <= i < |ts| ==> !Inherited(ts[i].subtopic)
  }

  /** One more question of subtopic `key`: its tally is counted up, or a
      new tally is appended; a key the prototype already answers gets no
      tally at all. */
  function AddTally(ts: seq<Tally>, key: string, hit: bool): (r: seq<Tally>)
    requires DistinctSubtopics(ts) && OwnKeys(ts)
    ensures DistinctSubtopics(r) && OwnKeys(r)
    ensures Inherited(key) ==> r == ts
    ensures !Inherited(key) && (forall i :: 0 <= i < |ts| ==> ts[i].subtopic != key) ==>
              r == ts + [Tally(key, if hit then 1 else 0, 1)]
    ensures (exists i :: 0 <= i < |ts| && ts[i].subtopic == key) ==> |r| == |ts|
    ensures forall i :: 0 <= i < |ts| && ts[i].subtopic != key ==> r[i] == ts[i]
    ensures forall i :: 0 <= i < |ts| && ts[i].subtopic == key ==>
              r[i] == Tally(key, ts[i].correct + (if hit then 1 else 0), ts[i].total + 1)
    ensures TotalOf(r) == TotalOf(ts) + (if Inherited(key) then 0 else 1)
  {
    if Inherited(key) then ts
    else
      var i := Seqs.FindFrom((t: Tally) => HasSubtopic(key, t), ts, 0);
      if i == -1 then
        var t := Tally(key, if hit then 1 else 0, 1);
        TotalOfAppend(ts, t);
        ts + [t]
      else
        var t := Tally(key, ts[i].correct + (if hit then 1 else 0), ts[i].total + 1);
        TotalOfUpdate(ts, i, t);
        ts[i := t]
  }

  /** The `subtopicPerformance` object, in the order subtopics first
      appear; the tallies share out all the questions whose subtopic is
      not a built-in name. */
  function Tallies(keys: seq<string>, hits: seq<bool>): (r: seq<Tally>)
    requires |hits| == |keys|
    ensures DistinctSubtopics(r) && OwnKeys(r)
    ensures TotalOf(r) + Seqs.Count(Inherited, keys) == |keys|
    decreases |keys|
  {
    if keys == [] then []
    else
      var n := |keys|;
      assert keys == keys[..n - 1] + [keys[n - 1]];
      Seqs.CountAppend(Inherited, keys[..n - 1], [keys[n - 1]]);
      assert Seqs.Count(Inherited, [keys[n - 1]]) == if Inherited(keys[n - 1]) then 1 else 0;
      AddTally(Tallies(keys[..n - 1], hits[..n - 1]), keys[n - 1], hits[n - 1])
  }

  /** A subtopic asked about has a tally exactly when it is not a built-in
      name. */
  lemma {:induction false} TalliesCoverKeys(keys: seq<string>, hits: seq<bool>, k: string)
    requires |hits| == |keys| && k in keys
    ensures (exists i :: 0 <= i < |Tallies(keys, hits)| && Tallies(keys, hits)[i].subtopic == k) <==> !Inherited(k)
    decreases |keys|
  {
    var n := |keys|;
    var init := keys[..n - 1];
    var prev := Tallies(init, hits[..n - 1]);
    var r := Tallies(keys, hits);
    assert r == AddTally(prev, keys[n - 1], hits[n - 1]);
    if !Inherited(k) {
      if k in init {
        TalliesCoverKeys(init, hits[..n - 1], k);
        AddTallyKeepsSubtopic(prev, keys[n - 1], hits[n - 1], k);
      } else {
        assert keys == init + [keys[n - 1]];
        AddTallyHasKey(prev, keys[n - 1], hits[n - 1]);
      }
      assert exists j :: 0 <= j < |Tallies(keys, hits)| && Tallies(keys, hits)[j].subtopic == k;
    } else {
      assert OwnKeys(r);
      assert forall i :: 0 <= i < |r| ==> r[i].subtopic != k;
    }
  }

  /** A subtopic tallied before one more question is still tallied after. */
  lemma AddTallyKeepsSubtopic(ts: seq<Tally>, key: string, hit: bool, k: string)
    requires DistinctSubtopics(ts) && OwnKeys(ts)
    requires exists i :: 0 <= i < |ts| && ts[i].subtopic == k
    ensures exists i :: 0 <= i < |AddTally(ts, key, hit)| && AddTally(ts, key, hit)[i].subtopic == k
  {
    var r := AddTally(ts, key, hit);
    var i :| 0 <= i < |ts| && ts[i].subtopic == k;
    if Inherited(key) {
      assert r == ts;
    } else if k != key {
      assert |r| >= |ts| && r[i] == ts[i];
    }
    assert r[i].subtopic == k;
  }

  /** After a question of a subtopic that is not a built-in name, that
      subtopic is tallied. */
  lemma AddTallyHasKey(ts: seq<Tally>, key: string, hit: bool)
    requires DistinctSubtopics(ts) && OwnKeys(ts) && !Inherited(key)
    ensures exists i :: 0 <= i < |AddTally(ts, key, hit)| && AddTally(ts, key, hit)[i].subtopic == key
  {
    var r := AddTally(ts, key, hit);
    if exists i :: 0 <= i < |ts| && ts[i].subtopic == key {
      var i :| 0 <= i < |ts| && ts[i].subtopic == key;
      assert r[i].subtopic == key;
    } else {
      assert r[|ts|].subtopic == key;
    }
  }

  /** Each tally counts exactly the questions of its subtopic, and those
      of them answered correctly. */
  lemma {:induction false} TalliesCount(keys: seq<string>, hits: seq<bool>, i: nat)
    requires |hits| == |keys| && i < |Tallies(keys, hits)|
    ensures var t := Tallies(keys, hits)[i];
            t.total == Occurrences(keys, t.subtopic) && t.total >= 1 &&
            t.correct == HitsFor(keys, hits, t.subtopic)
    decreases |keys|
  {
    var n := |keys|;
    if i < |Tallies(keys[..n - 1], hits[..n - 1])| {
      TalliesCount(keys[..n - 1], hits[..n - 1], i);
      TalliesCountKept(keys, hits, i);
    } else {
      TalliesCountAdded(keys, hits, i);
    }
  }

  /** The last question keeps the count of an earlier tally right. */
  lemma TalliesCountKept(keys: seq<string>, hits: seq<bool>, i: nat)
    requires |hits| == |keys| > 0
    requires var prev := Tallies(keys[..|keys| - 1], hits[..|keys| - 1]);
             i < |prev| &&
             prev[i].total == Occurrences(keys[..|keys| - 1], prev[i].subtopic) &&
             prev[i].total >= 1 &&
             prev[i].correct == HitsFor(keys[..|keys| - 1], hits[..|keys| - 1], prev[i].subtopic)
    ensures i < |Tallies(keys, hits)|
    ensures var t := Tallies(keys, hits)[i];
            t.total == Occurrences(keys, t.subtopic) && t.total >= 1 &&
            t.correct == HitsFor(keys, hits, t.subtopic)
  {
    var n := |keys|;
    var init, inHits := keys[..n - 1], hits[..n - 1];
    var key, hit := keys[n - 1], hits[n - 1];
    var prev := Tallies(init, inHits);
    var r := Tallies(keys, hits);
    assert r == AddTally(prev, key, hit);
    if prev[i].subtopic == key {
      assert r[i] == Tally(key, prev[i].correct + (if hit then 1 else 0), prev[i].total + 1);
    } else {
      assert r[i] == prev[i];
    }
  }

  /** A tally the last question added counts that one question. */
  lemma TalliesCountAdded(keys: seq<string>, hits: seq<bool>, i: nat)
    requires |hits| == |keys| > 0
    requires |Tallies(keys[..|keys| - 1], hits[..|keys| - 1])| <= i < |Tallies(keys, hits)|
    ensures var t := Tallies(keys, hits)[i];
            t.total == Occurrences(keys, t.subtopic) && t.total >= 1 &&
            t.correct == HitsFor(keys, hits, t.subtopic)
  {
    var n := |keys|;
    var init, inHits := keys[..n - 1], hits[..n - 1];
    var key, hit := keys[n - 1], hits[n - 1];
    var prev := Tallies(init, inHits);
    var r := Tallies(keys, hits);
    assert r == AddTally(prev, key, hit);
    assert !Inherited(key);
    KeyNotTalliedIsNew(init, inHits, key);
    assert r == prev + [Tally(key, if hit then 1 else 0, 1)];
    OccurrencesAbsent(init, key);
    HitsAbsent(init, inHits, key);
  }

  /** A subtopic without a tally has not been asked about, or is a
      built-in name. */
  lemma KeyNotTalliedIsNew(keys: seq<string>, hits: seq<bool>, key: string)
    requires |hits| == |keys|
    requires forall j :: 0 <= j < |Tallies(keys, hits)| ==> Tallies(keys, hits)[j].subtopic != key
    ensures Inherited(key) || forall j :: 0 <= j < |keys| ==> keys[j] != key
  {
    if key in keys {
      TalliesCoverKeys(keys, hits, key);
    }
  }

  lemma {:induction false} HitsAbsent(keys: seq<string>, hits: seq<bool>, k: string)
    requires |hits| == |keys|
    requires forall j :: 0 <= j < |keys| ==> keys[j] != k
    ensures HitsFor(keys, hits, k) == 0
    decreases |keys|
  {
    if keys != [] {
      HitsAbsent(keys[..|keys| - 1], hits[..|keys| - 1], k);
    }
  }

  lemma {:induction false} OccurrencesAbsent(keys: seq<string>, k: string)
    requires forall j :: 0 <= j < |keys| ==> keys[j] != k
    ensures Occurrences(keys, k) == 0
    decreases |keys|
  {
    if keys != [] {
      OccurrencesAbsent(keys[..|keys| - 1], k);
    }
  }

  function TotalOf(ts: seq<Tally>): nat
    decreases |ts|
  {
    if ts == [] then 0 else ts[0].total + TotalOf(ts[1..])
  }

  lemma {:induction false} TotalOfAppend(ts: seq<Tally>, t: Tally)
    ensures TotalOf(ts + [t]) == TotalOf(ts) + t.total
    decreases |ts|
  {
    if ts == [] {
      assert ts + [t] == [t];
    } else {
      assert (ts + [t])[1..] == ts[1..] + [t];
      TotalOfAppend(ts[1..], t);
    }
  }

  lemma {:induction false} TotalOfUpdate(ts: seq<Tally>, i: nat, t: Tally)
    requires i < |ts|
    ensures TotalOf(ts[i := t]) == TotalOf(ts) - ts[i].total + t.total
    decreases |ts|
  {
    if i > 0 {
      assert ts[i := t][1..] == ts[1..][i - 1 := t];
      TotalOfUpdate(ts[1..], i - 1, t);
    } else {
      assert ts[i := t][1..] == ts[1..];
    }
  }

  predicate IsWeak(t: Tally)
  {
    10 * t.correct < 7 * t.total
  }

  /** `weakSubtopics`: the subtopics answered below 70%, in tally order. */
  function WeakSubtopics(ts: seq<Tally>): (r: seq<string>)
    ensures |r| <= |ts|
    ensures forall w :: w in r <==> exists i :: 0 <= i < |ts| && ts[i].subtopic == w && IsWeak(ts[i])
  {
    var weak := Seqs.Filter(IsWeak, ts);
    var r := seq(|weak|, i requires 0 <= i < |weak| => weak[i].subtopic);
    assert forall w :: w in r ==> exists i :: 0 <= i < |ts| && ts[i].subtopic == w && IsWeak(ts[i]) by {
      forall w | w in r
        ensures exists i :: 0 <= i < |ts| && ts[i].subtopic == w && IsWeak(ts[i])
      {
        var j :| 0 <= j < |r| && r[j] == w;
        assert weak[j] in ts;
      }
    }
    assert forall i :: 0 <= i < |ts| && IsWeak(ts[i]) ==> ts[i].subtopic in r by {
      forall i | 0 <= i < |ts| && IsWeak(ts[i])
        ensures ts[i].subtopic in r
      {
        assert ts[i] in weak;
        var j :| 0 <= j < |weak| && weak[j] == ts[i];
        assert r[j] == ts[i].subtopic;
      }
    }
    r
  }

  /** A subtopic is reported weak exactly when it was asked about, is not
      a built-in name, and fewer than 70% of its questions were answered
      correctly. */
  lemma WeakMeansBelowSeventyPercent(keys: seq<string>, hits: seq<bool>, w: string)
    requires |hits| == |keys|
    ensures w in WeakSubtopics(Tallies(keys, hits)) <==>
              !Inherited(w) && w in keys && 10 * HitsFor(keys, hits, w) < 7 * Occurrences(keys, w)
  {
    var ts := Tallies(keys, hits);
    if w in WeakSubtopics(ts) {
      var i :| 0 <= i < |ts| && ts[i].subtopic == w && IsWeak(ts[i]);
      TalliesCount(keys, hits, i);
      if w !in keys {
        OccurrencesAbsent(keys, w);
      }
    }
    if w in keys && !Inherited(w) {
      TalliesCoverKeys(keys, hits, w);
      var i :| 0 <= i < |ts| && ts[i].subtopic == w;
      TalliesCount(keys, hits, i);
    }
  }

  // ---------------------------------------------------------------------
  // The order of Object.keys
  // ---------------------------------------------------------------------

  /** A canonical array index: decimal digits without a leading zero (other
      than "0" itself), at most 2^32 - 2. `Object.keys` lists such keys
      first, in ascending numeric order, and the other keys after them in
      the order they were added. */
  predicate IsIndexKey(k: string)
  {
    |k| > 0 && Text.AllDigits(k) && (k[0] != '0' || k == "0") && Text.DecimalValue(k) <= 4294967294
  }

  predicate IndexTally(t: Tally) { IsIndexKey(t.subtopic) }
  predicate NamedTally(t: Tally) { !IsIndexKey(t.subtopic) }

  function IndexOf(t: Tally): nat
  {
    if IsIndexKey(t.subtopic) then Text.DecimalValue(t.subtopic) else 0
  }

  predicate SortedByIndex(ts: seq<Tally>)
  {
    forall i, j :: 0 <= i < j < |ts| ==> IndexOf(ts[i]) <= IndexOf(ts[j])
  }

  function InsertByIndex(t: Tally, s: seq<Tally>): (r: seq<Tally>)
    ensures |r| == |s| + 1
    decreases |s|
  {
    if s == [] || IndexOf(t) <= IndexOf(s[0]) then [t] + s
    else [s[0]] + InsertByIndex(t, s[1..])
  }

  lemma {:induction false} InsertByIndexPermutes(t: Tally, s: seq<Tally>)
    ensures multiset(InsertByIndex(t, s)) == multiset(s) + multiset{t}
    decreases |s|
  {
    if s != [] && IndexOf(t) > IndexOf(s[0]) {
      InsertByIndexPermutes(t, s[1..]);
      assert s == [s[0]] + s[1..];
    }
  }

  lemma {:induction false} InsertByIndexSorted(t: Tally, s: seq<Tally>)
    requires SortedByIndex(s)
    ensures SortedByIndex(InsertByIndex(t, s))
    ensures InsertByIndex(t, s)[0] == t || (s != [] && InsertByIndex(t, s)[0] == s[0])
    decreases |s|
  {
    if s != [] && IndexOf(t) > IndexOf(s[0]) {
      var rest := InsertByIndex(t, s[1..]);
      assert SortedByIndex(s[1..]);
      InsertByIndexSorted(t, s[1..]);
      assert IndexOf(rest[0]) >= IndexOf(s[0]);
      var r := [s[0]] + rest;
      forall i, j | 0 <= i < j < |r|
        ensures IndexOf(r[i]) <= IndexOf(r[j])
      {
        assert r[j] == rest[j - 1];
        if i > 0 {
          assert r[i] == rest[i - 1];
        } else if j > 1 {
          assert IndexOf(rest[0]) <= IndexOf(rest[j - 1]);
        }
      }
    }
  }

  function SortByIndex(ts: seq<Tally>): (r: seq<Tally>)
    ensures |r| == |ts|
    ensures SortedByIndex(r)
    decreases |ts|
  {
    if ts == [] then []
    else
      var rest := SortByIndex(ts[1..]);
      InsertByIndexSorted(ts[0], rest);
      InsertByIndex(ts[0], rest)
  }

  lemma {:induction false} SortByIndexPermutes(ts: seq<Tally>)
    ensures multiset(SortByIndex(ts)) == multiset(ts)
    decreases |ts|
  {
    if ts != [] {
      SortByIndexPermutes(ts[1..]);
      InsertByIndexPermutes(ts[0], SortByIndex(ts[1..]));
      assert ts == [ts[0]] + ts[1..];
    }
  }

  /** `Object.keys(subtopicPerformance)` as tallies: the array-index keys in
      ascending numeric order, then the other keys in insertion order. It
      reorders the tallies and nothing else. */
  function KeyOrder(ts: seq<Tally>): (r: seq<Tally>)
    ensures multiset(r) == multiset(ts)
    ensures var n := Seqs.Count(IndexTally, ts);
            n <= |r| && SortedByIndex(r[..n]) &&
            (forall i :: 0 <= i < n ==> IndexTally(r[i])) &&
            r[n..] == Seqs.Filter(NamedTally, ts)
  {
    var idx := Seqs.Filter(IndexTally, ts);
    var sorted := SortByIndex(idx);
    SortByIndexPermutes(idx);
    Seqs.FilterSplitPermutes(IndexTally, NamedTally, ts);
    assert forall i :: 0 <= i < |sorted| ==> IndexTally(sorted[i]) by {
      forall i | 0 <= i < |sorted|
        ensures IndexTally(sorted[i])
      {
        assert sorted[i] in multiset(idx);
      }
    }
    var r := sorted + Seqs.Filter(NamedTally, ts);
    assert r[..|sorted|] == sorted;
    r
  }

  /** Tallies with the same elements list the same weak subtopics. */
  lemma SameTalliesSameWeakSubtopics(a: seq<Tally>, b: seq<Tally>, w: string)
    requires forall t :: t in a <==> t in b
    ensures w in WeakSubtopics(a) <==> w in WeakSubtopics(b)
  {
    if w in WeakSubtopics(a) {
      var i :| 0 <= i < |a| && a[i].subtopic == w && IsWeak(a[i]);
      assert a[i] in b;
    }
    if w in WeakSubtopics(b) {
      var i :| 0 <= i < |b| && b[i].subtopic == w && IsWeak(b[i]);
      assert b[i] in a;
    }
  }

  /** The order of the keys changes nothing about which subtopics are
      weak. */
  lemma KeyOrderKeepsWeakSubtopics(ts: seq<Tally>, w: string)
    ensures w in WeakSubtopics(KeyOrder(ts)) <==> w in WeakSubtopics(ts)
  {
    var r := KeyOrder(ts);
    assert forall t :: t in r <==> t in multiset(r);
    assert forall t :: t in ts <==> t in multiset(ts);
    SameTalliesSameWeakSubtopics(r, ts, w);
  }

  // ---------------------------------------------------------------------
  // analyzeQuizPerformance
  // ---------------------------------------------------------------------

  /** `responses[i]?.isCorrect` */
  predicate AnsweredCorrectly(responses: seq<Json>, i: nat)
  {
    i < |responses| && !IsNullish(responses[i]) && Truthy(Get(responses[i], "isCorrect"))
  }

  predicate MarkedCorrect(r: Json) { Truthy(Get(r, "isCorrect")) }

  function Remedial(name: Json, description: Json, links: seq<Json>): Json
  {
    JObj(map["name" := name, "description" := description, "resourceLinks" := JArr(links)])
  }

  /** An entry of `remedialSubtopics` as returned: a name and a description,
      and at most two resource links. */
  predicate ShapedRemedial(x: Json)
  {
    Truthy(Get(x, "name")) && Truthy(Get(x, "description")) &&
    Get(x, "resourceLinks").JArr? && |Get(x, "resourceLinks").items| <= 2
  }

  /** The answer used when the model's analysis has the wrong shape. */
  function AnalysisFallback(topicName: string, correct: nat, total: nat): (r: Json)
    ensures HasString(r, "strengths") && HasString(r, "weaknesses")
    ensures Get(r, "resources") == JArr([])
    ensures Get(r, "remedialSubtopics").JArr?
    ensures |Get(r, "remedialSubtopics").items| > 0 <==> total > 0 && 10 * correct < 7 * total
    ensures forall i :: 0 <= i < |Get(r, "remedialSubtopics").items| ==>
              ShapedRemedial(Get(r, "remedialSubtopics").items[i])
    ensures Get(r, "strengths") != JStr("No specific strengths identified.") <==> 10 * correct > 7 * total
    ensures Get(r, "weaknesses") != JStr("No specific weaknesses identified.") <==> total > correct
  {
    var strengths :=
      if 10 * correct > 7 * total then
        "You performed well, correctly answering " + Text.IntToString(correct) + "/" +
        Text.IntToString(total) + " questions in " + topicName + "."
      else "No specific strengths identified.";
    var weaknesses :=
      if total > correct then
        "You struggled with " + Text.IntToString(total - correct) + " questions in " + topicName +
        ". Review core concepts to improve."
      else "No specific weaknesses identified.";
    var remedial :=
      if total > 0 && 10 * correct < 7 * total then
        [Remedial(JStr(topicName + " Basics"), JStr("Review core concepts of " + topicName + "."), [])]
      else [];
    assert strengths != "No specific strengths identified." <==> 10 * correct > 7 * total by {
      if 10 * correct > 7 * total {
        FirstCharDiffers("You performed well, correctly answering ",
          Text.IntToString(correct) + "/" + Text.IntToString(total) + " questions in " + topicName + ".",
          "No specific strengths identified.");
      }
    }
    assert weaknesses != "No specific weaknesses identified." <==> total > correct by {
      if total > correct {
        FirstCharDiffers("You struggled with ",
          Text.IntToString(total - correct) + " questions in " + topicName + ". Review core concepts to improve.",
          "No specific weaknesses identified.");
      }
    }
    JObj(map["strengths" := JStr(strengths), "weaknesses" := JStr(weaknesses),
             "resources" := JArr([]), "remedialSubtopics" := JArr(remedial)])
  }

  lemma FirstCharDiffers(a: string, b: string, c: string)
    requires |a| > 0 && |c| > 0 && a[0] != c[0]
    ensures a + b != c
  {
    assert (a + b)[0] == a[0];
  }

  /** The answer when anything throws. */
  function AnalysisOnError(): Json
  {
    JObj(map["strengths" := JStr("No specific strengths identified."),
             "weaknesses" := JStr("No specific weaknesses identified."),
             "resources" := JArr([]), "remedialSubtopics" := JArr([])])
  }

  predicate AnalysisShaped(p: Json)
  {
    HasString(p, "strengths") && HasString(p, "weaknesses") &&
    Get(p, "resources").JArr? && Get(p, "remedialSubtopics").JArr?
  }

  predicate NamedAndDescribed(st: Json)
  {
    Truthy(Get(st, "name")) && Truthy(Get(st, "description"))
  }

  /** The resources of the weak subtopics one after another. */
  function ConcatResources(weak: seq<string>, resourcesFor: Json -> seq<Json>): seq<Json>
    decreases |weak|
  {
    if weak == [] then [] else resourcesFor(JStr(weak[0])) + ConcatResources(weak[1..], resourcesFor)
  }

  /** The remedial subtopics that have a name and a description, each with
      the first two resources found for its name. */
  function EnrichRemedial(sts: seq<Json>, resourcesFor: Json -> seq<Json>): (r: seq<Json>)
    ensures |r| == Seqs.Count(NamedAndDescribed, sts)
    ensures forall i :: 0 <= i < |r| ==> ShapedRemedial(r[i])
  {
    var kept := Seqs.Filter(NamedAndDescribed, sts);
    seq(|kept|, i requires 0 <= i < |kept| =>
      Remedial(Get(kept[i], "name"), Get(kept[i], "description"),
               Seqs.Take(resourcesFor(Get(kept[i], "name")), 2)))
  }

  predicate AnyNullish(xs: seq<Json>)
  {
    exists i :: 0 <= i < |xs| && IsNullish(xs[i])
  }

  function SheetKeys(questions: seq<Json>): (keys: seq<string>)
    ensures |keys| == |questions|
  {
    seq(|questions|, i requires 0 <= i < |questions| => SubtopicKey(questions[i]))
  }

  function SheetHits(questions: seq<Json>, responses: seq<Json>): (hits: seq<bool>)
    ensures |hits| == |questions|
  {
    seq(|questions|, i requires 0 <= i < |questions| => AnsweredCorrectly(responses, i))
  }

  /** The per-subtopic tallies of a quiz sheet: question `i` counts for
      `questions[i].subtopic || 'General'`, and as correct when
      `responses[i]` is marked correct. */
  function SheetTallies(questions: seq<Json>, responses: seq<Json>): (r: seq<Tally>)
    ensures DistinctSubtopics(r) && OwnKeys(r)
    ensures TotalOf(r) + Seqs.Count(Inherited, SheetKeys(questions)) == |questions|
  {
    Tallies(SheetKeys(questions), SheetHits(questions, responses))
  }

  /** `weakSubtopics` of a quiz sheet, in `Object.keys` order. */
  function SheetWeakSubtopics(questions: seq<Json>, responses: seq<Json>): seq<string>
  {
    WeakSubtopics(KeyOrder(SheetTallies(questions, responses)))
  }

  /** The weak subtopics of a sheet are those asked about, other than
      built-in names, with fewer than 70% of their questions answered
      correctly. */
  lemma SheetWeakSubtopicsBelowSeventyPercent(questions: seq<Json>, responses: seq<Json>, w: string)
    ensures var keys, hits := SheetKeys(questions), SheetHits(questions, responses);
            w in SheetWeakSubtopics(questions, responses) <==>
              !Inherited(w) && w in keys && 10 * HitsFor(keys, hits, w) < 7 * Occurrences(keys, w)
  {
    KeyOrderKeepsWeakSubtopics(SheetTallies(questions, responses), w);
    WeakMeansBelowSeventyPercent(SheetKeys(questions), SheetHits(questions, responses), w);
  }

  /** The model's answer with `resources` replaced by the first four found
      for the weak subtopics and every usable remedial subtopic given its
      links. */
  function Enrich(p: Json, weak: seq<string>, resourcesFor: Json -> seq<Json>): (r: Json)
    requires p.JObj? && AnalysisShaped(p)
    ensures HasString(r, "strengths") && HasString(r, "weaknesses")
    ensures Get(r, "strengths") == Get(p, "strengths") && Get(r, "weaknesses") == Get(p, "weaknesses")
    ensures Get(r, "resources") == JArr(Seqs.Take(ConcatResources(weak, resourcesFor), 4))
    ensures Get(r, "remedialSubtopics") == JArr(EnrichRemedial(Get(p, "remedialSubtopics").items, resourcesFor))
  {
    var resources := Seqs.Take(ConcatResources(weak, resourcesFor), 4);
    var sts := Get(p, "remedialSubtopics").items;
    JObj(p.fields["resources" := JArr(resources)]["remedialSubtopics" := JArr(EnrichRemedial(sts, resourcesFor))])
  }

  /** `analyzeQuizPerformance`. */
  function Analyze(topicName: string, questions: seq<Json>, responses: seq<Json>, parsed: Option<Json>,
                   resourcesFor: Json -> seq<Json>): (r: Json)
    ensures HasString(r, "strengths") && HasString(r, "weaknesses")
    ensures Get(r, "resources").JArr? && |Get(r, "resources").items| <= 4
    ensures Get(r, "remedialSubtopics").JArr?
    ensures forall i :: 0 <= i < |Get(r, "remedialSubtopics").items| ==>
              ShapedRemedial(Get(r, "remedialSubtopics").items[i])
    ensures AnyNullish(responses) || AnyNullish(questions) ==> r == AnalysisOnError()
  {
    if AnyNullish(responses) || AnyNullish(questions) then AnalysisOnError()
    else
      var fallback := AnalysisFallback(topicName, Seqs.Count(MarkedCorrect, responses), |questions|);
      var p := if parsed.Some? then parsed.value else fallback;
      if IsNullish(p) then AnalysisOnError()
      else if !AnalysisShaped(p) then fallback
      else if AnyNullish(Get(p, "remedialSubtopics").items) then AnalysisOnError()
      else Enrich(p, SheetWeakSubtopics(questions, responses), resourcesFor)
  }

  /** A parsed answer that is `null`, or whose remedial list holds `null`,
      gives the error reply; one of the wrong shape gives the fallback as it
      is, without resources. */
  lemma ParsedAnalysisRefusals(topicName: string, questions: seq<Json>, responses: seq<Json>, p: Json,
                               resourcesFor: Json -> seq<Json>)
    requires !AnyNullish(responses) && !AnyNullish(questions)
    ensures var r := Analyze(topicName, questions, responses, Some(p), resourcesFor);
            (IsNullish(p) ==> r == AnalysisOnError()) &&
            (!IsNullish(p) && !AnalysisShaped(p) ==>
               r == AnalysisFallback(topicName, Seqs.Count(MarkedCorrect, responses), |questions|) &&
               Get(r, "resources") == JArr([])) &&
            (!IsNullish(p) && AnalysisShaped(p) && AnyNullish(Get(p, "remedialSubtopics").items) ==>
               r == AnalysisOnError())
  {
  }

  /** A parsed answer of the right shape keeps the model's strengths and
      weaknesses, and gets the resources of the sheet's weak subtopics. */
  lemma ParsedAnalysisIsEnriched(topicName: string, questions: seq<Json>, responses: seq<Json>, p: Json,
                                 resourcesFor: Json -> seq<Json>)
    requires !AnyNullish(responses) && !AnyNullish(questions)
    requires !IsNullish(p) && AnalysisShaped(p) && !AnyNullish(Get(p, "remedialSubtopics").items)
    ensures p.JObj?
    ensures var r := Analyze(topicName, questions, responses, Some(p), resourcesFor);
            r == Enrich(p, SheetWeakSubtopics(questions, responses), resourcesFor) &&
            Get(r, "strengths") == Get(p, "strengths") && Get(r, "weaknesses") == Get(p, "weaknesses") &&
            Get(r, "resources") == JArr(Seqs.Take(ConcatResources(SheetWeakSubtopics(questions, responses), resourcesFor), 4))
  {
  }

  /** When the model's text does not parse, the fallback's verdicts are
      kept, and a remedial subtopic is proposed exactly when the sheet is
      below 70%. */
  lemma UnparsedAnalysisUsesFallback(topicName: string, questions: seq<Json>, responses: seq<Json>,
                                     resourcesFor: Json -> seq<Json>)
    requires !AnyNullish(responses) && !AnyNullish(questions)
    ensures var r := Analyze(topicName, questions, responses, None, resourcesFor);
            var correct := Seqs.Count(MarkedCorrect, responses);
            var fallback := AnalysisFallback(topicName, correct, |questions|);
            Get(r, "strengths") == Get(fallback, "strengths") &&
            Get(r, "weaknesses") == Get(fallback, "weaknesses") &&
            (|Get(r, "remedialSubtopics").items| > 0 <==>
               |questions| > 0 && 10 * correct < 7 * |questions|)
  {
    var correct := Seqs.Count(MarkedCorrect, responses);
    var f := AnalysisFallback(topicName, correct, |questions|);
    var weak := SheetWeakSubtopics(questions, responses);
    UnparsedAnalysisIsEnrichedFallback(topicName, questions, responses, resourcesFor);
    FallbackPassesChecks(topicName, correct, |questions|);
    var r := Enrich(f, weak, resourcesFor);
    assert |Get(r, "remedialSubtopics").items| == |Get(f, "remedialSubtopics").items|;
  }

  /** Without a parsed answer the fallback goes through the enrichment. */
  lemma UnparsedAnalysisIsEnrichedFallback(topicName: string, questions: seq<Json>, responses: seq<Json>,
                                           resourcesFor: Json -> seq<Json>)
    requires !AnyNullish(responses) && !AnyNullish(questions)
    ensures var f := AnalysisFallback(topicName, Seqs.Count(MarkedCorrect, responses), |questions|);
            f.JObj? && AnalysisShaped(f) &&
            Analyze(topicName, questions, responses, None, resourcesFor) ==
              Enrich(f, SheetWeakSubtopics(questions, responses), resourcesFor)
  {
    var f := AnalysisFallback(topicName, Seqs.Count(MarkedCorrect, responses), |questions|);
    FallbackPassesChecks(topicName, Seqs.Count(MarkedCorrect, responses), |questions|);
    assert !IsNullish(f) && !AnyNullish(Get(f, "remedialSubtopics").items);
  }

  /** The fallback has the shape the checks want, and every remedial
      subtopic it proposes is kept by the enrichment. */
  lemma FallbackPassesChecks(topicName: string, correct: nat, total: nat)
    ensures var f := AnalysisFallback(topicName, correct, total);
            var sts := Get(f, "remedialSubtopics").items;
            f.JObj? && AnalysisShaped(f) && !AnyNullish(sts) &&
            Seqs.Count(NamedAndDescribed, sts) == |sts|
  {
    var sts := Get(AnalysisFallback(topicName, correct, total), "remedialSubtopics").items;
    if |sts| > 0 {
      assert sts == [sts[0]];
      assert NamedAndDescribed(sts[0]);
      assert Seqs.Filter(NamedAndDescribed, sts) == [sts[0]];
    } else {
      assert Seqs.Filter(NamedAndDescribed, sts) == [];
    }
  }
}

=== FILE: cbse.dfy ===
/** The CBSE course builder: the topics made from a course configuration,
    the Mermaid flowchart drawn over them, and the summary returned for
    every subject of a course, whether its learning path is new or was
    stored before.
 */
module Cbse {
  import opened Wrappers
  import opened Json
  import opened Schema
  import Text
  import Seqs

  // ---------------------------------------------------------------------
  // Ordering topics
  // ---------------------------------------------------------------------

  predicate SortedByOrder(ts: seq<Topic>)
  {
    forall i, j :: 0 <= i < j < |ts| ==> ts[i].order <= ts[j].order
  }

  /** Inserts `t` in front of the first topic whose order is not smaller,
      which keeps topics of equal order in their input sequence. */
  function InsertByOrder(t: Topic, s: seq<Topic>): (r: seq<Topic>)
    ensures |r| == |s| + 1
    decreases |s|
  {
    if s == [] || t.order <= s[0].order then [t] + s
    else [s[0]] + InsertByOrder(t, s[1..])
  }

  /** Inserting adds `t` and loses nothing. */
  lemma {:induction false} InsertByOrderPermutes(t: Topic, s: seq<Topic>)
    ensures multiset(InsertByOrder(t, s)) == multiset(s) + multiset{t}
    decreases |s|
  {
    if s != [] && t.order > s[0].order {
      InsertByOrderPermutes(t, s[1..]);
      assert s == [s[0]] + s[1..];
    }
  }

  /** Inserting into sorted topics keeps them sorted, and the first topic
      is either `t` or the one that was first. */
  lemma {:induction false} InsertByOrderSorted(t: Topic, s: seq<Topic>)
    requires SortedByOrder(s)
    ensures SortedByOrder(InsertByOrder(t, s))
    ensures InsertByOrder(t, s)[0] == t || (s != [] && InsertByOrder(t, s)[0] == s[0])
    decreases |s|
  {
    if s != [] && t.order > s[0].order {
      var rest := InsertByOrder(t, s[1..]);
      assert SortedByOrder(s[1..]);
      InsertByOrderSorted(t, s[1..]);
      assert rest[0].order >= s[0].order;
      var r := [s[0]] + rest;
      forall i, j | 0 <= i < j < |r|
        ensures r[i].order <= r[j].order
      {
        assert r[j] == rest[j - 1];
        if i > 0 {
          assert r[i] == rest[i - 1];
        } else if j > 1 {
          assert rest[0].order <= rest[j - 1].order;
        }
      }
    }
  }

  /** `topics.sort((a, b) => a.order - b.order)`, a stable sort. */
  function SortByOrder(ts: seq<Topic>): (r: seq<Topic>)
    ensures |r| == |ts|
    ensures SortedByOrder(r)
    decreases |ts|
  {
    if ts == [] then []
    else
      var rest := SortByOrder(ts[1..]);
      InsertByOrderSorted(ts[0], rest);
      InsertByOrder(ts[0], rest)
  }

  /** Sorting reorders the topics and nothing else. */
  lemma {:induction false} SortByOrderPermutes(ts: seq<Topic>)
    ensures multiset(SortByOrder(ts)) == multiset(ts)
    decreases |ts|
  {
    if ts != [] {
      SortByOrderPermutes(ts[1..]);
      InsertByOrderPermutes(ts[0], SortByOrder(ts[1..]));
      assert ts == [ts[0]] + ts[1..];
    }
  }

  /** Topics already in order are left exactly as they are. */
  lemma {:induction false} SortKeepsSortedTopics(ts: seq<Topic>)
    requires SortedByOrder(ts)
    ensures SortByOrder(ts) == ts
    decreases |ts|
  {
    if ts != [] {
      assert SortedByOrder(ts[1..]);
      SortKeepsSortedTopics(ts[1..]);
      assert ts == [ts[0]] + ts[1..];
    }
  }

  // ---------------------------------------------------------------------
  // Flowchart
  // ---------------------------------------------------------------------

  /** One line of the Mermaid text: a node `T{index}` or a chain edge. */
  datatype FlowLine = NodeLine(index: nat, caption: string) | EdgeLine(from: nat, to: nat)

  predicate IsNode(l: FlowLine) { l.NodeLine? }
  predicate IsEdge(l: FlowLine) { l.EdgeLine? }

  /** A node's caption: the topic name and its state in brackets. */
  function NodeLabel(t: Topic): (caption: string)
    ensures Text.StartsWith(caption, t.topicName)
    ensures Text.EndsWith(caption, "[Completed]") <==> t.completionStatus
    ensures Text.EndsWith(caption, "[Pending]") <==> !t.completionStatus
  {
    var state := if t.completionStatus then "[Completed]" else "[Pending]";
    var caption := t.topicName + " " + state;
    assert caption[|caption| - 2] == state[|state| - 2];
    assert caption[|t.topicName|..] == " " + state;
    caption
  }

  /** The lines drawn for the topic at `index`: its node, then the edge from
      its predecessor. */
  function StepLines(index: nat, t: Topic): seq<FlowLine>
  {
    [NodeLine(index, NodeLabel(t))] + (if index > 0 then [EdgeLine(index - 1, index)] else [])
  }

  /** The lines for topics that are already in order. */
  function FlowLines(ts: seq<Topic>): (ls: seq<FlowLine>)
    ensures |ls| == if ts == [] then 0 else 2 * |ts| - 1
    decreases |ts|
  {
    if ts == [] then [] else FlowLines(ts[..|ts| - 1]) + StepLines(|ts| - 1, ts[|ts| - 1])
  }

  /** One node per topic, numbered from 0 in topic order. */
  function ChainNodes(ts: seq<Topic>): (r: seq<FlowLine>)
    ensures |r| == |ts|
  {
    seq(|ts|, i requires 0 <= i < |ts| => NodeLine(i, NodeLabel(ts[i])))
  }

  /** The edges of a single chain through `n` nodes. */
  function ChainEdges(n: nat): (r: seq<FlowLine>)
    ensures |r| == if n == 0 then 0 else n - 1
  {
    if n == 0 then [] else seq(n - 1, i requires 0 <= i < n - 1 => EdgeLine(i, i + 1))
  }

  /** The node and the edge contributed by one topic. */
  lemma StepLinesFilter(index: nat, t: Topic)
    ensures Seqs.Filter(IsNode, StepLines(index, t)) == [NodeLine(index, NodeLabel(t))]
    ensures Seqs.Filter(IsEdge, StepLines(index, t)) == if index > 0 then [EdgeLine(index - 1, index)] else []
  {
    var node := NodeLine(index, NodeLabel(t));
    if index > 0 {
      var edge := EdgeLine(index - 1, index);
      assert StepLines(index, t) == [node] + [edge];
      Seqs.FilterAppend(IsNode, [node], [edge]);
      Seqs.FilterAppend(IsEdge, [node], [edge]);
    }
  }

  lemma ChainExtends(ts: seq<Topic>)
    requires ts != []
    ensures ChainNodes(ts) == ChainNodes(ts[..|ts| - 1]) + [NodeLine(|ts| - 1, NodeLabel(ts[|ts| - 1]))]
    ensures ChainEdges(|ts|) == ChainEdges(|ts| - 1) + if |ts| > 1 then [EdgeLine(|ts| - 2, |ts| - 1)] else []
  {
    var n := |ts|;
    var a := ChainNodes(ts);
    var b := ChainNodes(ts[..n - 1]) + [NodeLine(n - 1, NodeLabel(ts[n - 1]))];
    forall i | 0 <= i < n
      ensures a[i] == b[i]
    {
      if i < n - 1 {
        assert ts[..n - 1][i] == ts[i];
      }
    }
    assert a == b;
    if n > 1 {
      var c := ChainEdges(n);
      var d := ChainEdges(n - 1) + [EdgeLine(n - 2, n - 1)];
      forall i | 0 <= i < n - 1
        ensures c[i] == d[i]
      {
      }
      assert c == d;
    }
  }

  /** The flowchart of `n` topics has exactly the `n` nodes `T0 … T{n-1}`
      in order, and exactly the `n - 1` edges `T{i-1} --> T{i}` of one
      chain. */
  lemma {:induction false} FlowLinesAreChain(ts: seq<Topic>)
    ensures Seqs.Filter(IsNode, FlowLines(ts)) == ChainNodes(ts)
    ensures Seqs.Filter(IsEdge, FlowLines(ts)) == ChainEdges(|ts|)
    decreases |ts|
  {
    if ts != [] {
      var n := |ts|;
      var init := ts[..n - 1];
      var step := StepLines(n - 1, ts[n - 1]);
      assert FlowLines(ts) == FlowLines(init) + step;
      FlowLinesAreChain(init);
      Seqs.FilterAppend(IsNode, FlowLines(init), step);
      Seqs.FilterAppend(IsEdge, FlowLines(init), step);
      StepLinesFilter(n - 1, ts[n - 1]);
      ChainExtends(ts);
    }
  }

  function RenderLine(l: FlowLine): string
  {
    match l
    case NodeLine(i, caption) => "    T" + Text.NatToString(i) + "[\"" + caption + "\"];\n"
    case EdgeLine(a, b) => "    T" + Text.NatToString(a) + " --> T" + Text.NatToString(b) + ";\n"
  }

  function RenderLines(ls: seq<FlowLine>): (s: string)
    ensures ls == [] <==> s == ""
    decreases |ls|
  {
    if ls == [] then "" else RenderLine(ls[0]) + RenderLines(ls[1..])
  }

  /** `generateFlowchart`: the header, then the lines of the topics sorted
      by `order`. */
  function Flowchart(topics: seq<Topic>): (s: string)
    ensures Text.StartsWith(s, "graph TD;\n")
    ensures topics == [] <==> s == "graph TD;\n"
  {
    "graph TD;\n" + RenderLines(FlowLines(SortByOrder(topics)))
  }

  // ---------------------------------------------------------------------
  // Topics of a new course
  // ---------------------------------------------------------------------

  /** A resource of the course configuration; `details` stands for any
      field besides the title and the url. */
  datatype ChapterResource = ChapterResource(title: string, url: string, details: map<string, string>)

  datatype Chapter = Chapter(name: string, description: string, resources: seq<ChapterResource>)

  datatype Subject = Subject(name: string, chapters: seq<Chapter>)

  datatype Course = Course(name: string, subjects: seq<Subject>)

  predicate Whitelisted(r: ChapterResource)
  {
    r.title == "NCERT Book" || r.title == "Notes"
  }

  function Project(r: ChapterResource): Resource
  {
    Resource(r.title, r.url)
  }

  /** The resources a topic keeps: the NCERT book and the notes, in
      configuration order, reduced to their title and url. */
  function TopicResources(rs: seq<ChapterResource>): (r: seq<Resource>)
    ensures |r| == Seqs.Count(Whitelisted, rs)
    ensures forall i :: 0 <= i < |r| ==> r[i].title == "NCERT Book" || r[i].title == "Notes"
    ensures forall k :: 0 <= k < |rs| && Whitelisted(rs[k]) ==> Project(rs[k]) in r
    ensures forall x :: x in r ==> exists c :: c in rs && Whitelisted(c) && x == Project(c)
  {
    var kept := Seqs.Filter(Whitelisted, rs);
    var r := seq(|kept|, i requires 0 <= i < |kept| => Project(kept[i]));
    assert forall k :: 0 <= k < |rs| && Whitelisted(rs[k]) ==> Project(rs[k]) in r by {
      forall k | 0 <= k < |rs| && Whitelisted(rs[k])
        ensures Project(rs[k]) in r
      {
        var j :| 0 <= j < |kept| && kept[j] == rs[k];
        assert r[j] == Project(rs[k]);
      }
    }
    r
  }

  /** Whitelisting a sequence of resources is done entry by entry: the
      resources kept from two lists in a row are those kept from each. */
  lemma {:induction false} TopicResourcesAppend(a: seq<ChapterResource>, b: seq<ChapterResource>)
    ensures TopicResources(a + b) == TopicResources(a) + TopicResources(b)
  {
    var ka := Seqs.Filter(Whitelisted, a);
    var kb := Seqs.Filter(Whitelisted, b);
    Seqs.FilterAppend(Whitelisted, a, b);
    var l := TopicResources(a + b);
    var ra := TopicResources(a);
    var rb := TopicResources(b);
    assert |l| == |ka + kb| == |ra| + |rb|;
    forall i | 0 <= i < |l|
      ensures l[i] == (ra + rb)[i]
    {
      assert l[i] == Project((ka + kb)[i]);
      if i < |ka| {
        assert ra[i] == Project(ka[i]);
      } else {
        assert rb[i - |ka|] == Project(kb[i - |ka|]);
      }
    }
  }

  /** One new topic per chapter, numbered from 1. */
  function BuildTopics(chapters: seq<Chapter>): (ts: seq<Topic>)
    ensures |ts| == |chapters|
    ensures forall i :: 0 <= i < |ts| ==>
              ts[i] == NewTopic(chapters[i].name, chapters[i].description,
                                TopicResources(chapters[i].resources), 0, i + 1)
  {
    seq(|chapters|, i requires 0 <= i < |chapters| =>
      NewTopic(chapters[i].name, chapters[i].description, TopicResources(chapters[i].resources), 0, i + 1))
  }

  /** Built topics are in order and none of them is complete, so the
      flowchart draws them in chapter order, every node pending. */
  lemma BuiltTopicsAreOrderedAndPending(chapters: seq<Chapter>)
    ensures SortedByOrder(BuildTopics(chapters))
    ensures SortByOrder(BuildTopics(chapters)) == BuildTopics(chapters)
    ensures forall i :: 0 <= i < |chapters| ==>
              Text.EndsWith(NodeLabel(BuildTopics(chapters)[i]), "[Pending]")
  {
    SortKeepsSortedTopics(BuildTopics(chapters));
  }

  /** The learning path stored for a subject seen for the first time. */
  function NewCoursePath(courseName: string, chapters: seq<Chapter>): (p: LearningPath)
    ensures p.courseName == courseName && p.topics == BuildTopics(chapters)
    ensures p.courseDuration == 2 * |chapters|
    ensures p.courseCompletionStatus == 0 && p.courseScore == 0 && p.quizzes == []
    ensures p.difficultyLevel == Medium && p.points == Some(0) && p.streak == Some(0)
  {
    NewLearningPath(courseName, BuildTopics(chapters), "", "", "In Progress", 2 * |chapters|, Medium)
      .(points := Some(0), streak := Some(0))
  }

  // ---------------------------------------------------------------------
  // Summaries
  // ---------------------------------------------------------------------

  /** One entry of the response. `flowchart` is `None` when the path does
      not carry one. */
  datatype CourseSummary = CourseSummary(
    courseName: string,
    progress: int,
    points: int,
    quizPending: bool,
    firstIncompleteSubtopicIndex: int,
    flowchart: Option<string>)

  predicate QuizOpen(q: PathQuiz) { !q.completed }
  predicate TopicOpen(t: Topic) { !t.completionStatus }

  /** The summary of a stored path. `findIndex(...) || 0` turns neither
      -1 nor 0 into anything else, so a finished path reports -1. The
      LearningPath schema declares no flowchart, so a stored path has none. */
  function StoredSummary(p: LearningPath): (s: CourseSummary)
    ensures s.courseName == p.courseName && s.progress == p.courseCompletionStatus
    ensures s.points == p.points.GetOr(0)
    ensures s.quizPending <==> exists i :: 0 <= i < |p.quizzes| && !p.quizzes[i].completed
    ensures s.firstIncompleteSubtopicIndex == -1 <==>
              forall i :: 0 <= i < |p.topics| ==> p.topics[i].completionStatus
    ensures s.firstIncompleteSubtopicIndex != -1 ==>
              0 <= s.firstIncompleteSubtopicIndex < |p.topics| &&
              !p.topics[s.firstIncompleteSubtopicIndex].completionStatus &&
              forall i :: 0 <= i < s.firstIncompleteSubtopicIndex ==> p.topics[i].completionStatus
    ensures s.flowchart == None
  {
    var pending := Seqs.FindFrom(QuizOpen, p.quizzes, 0) != -1;
    var first := Seqs.FindFrom(TopicOpen, p.topics, 0);
    CourseSummary(p.courseName, p.courseCompletionStatus, p.points.GetOr(0), pending,
                  if first == 0 then 0 else first, None)
  }

  /** The summary of a path created by this request. */
  function FreshSummary(p: LearningPath): (s: CourseSummary)
    ensures s.courseName == p.courseName && s.flowchart == Some(Flowchart(p.topics))
  {
    CourseSummary(p.courseName, p.courseCompletionStatus, p.points.GetOr(0), false, 0, Some(Flowchart(p.topics)))
  }

  /** A freshly created path summarised as if it had been stored agrees with
      the fresh summary apart from the flowchart, except for a subject with
      no chapters, where the stored summary reports -1 instead of 0. */
  lemma FreshAndStoredSummariesAgree(courseName: string, chapters: seq<Chapter>)
    ensures var p := NewCoursePath(courseName, chapters);
            StoredSummary(p).(flowchart := None) == FreshSummary(p).(flowchart := None) <==> |chapters| > 0
  {
    var p := NewCoursePath(courseName, chapters);
    if |chapters| > 0 {
      assert TopicOpen(p.topics[0]);
    }
  }

  // ---------------------------------------------------------------------
  // generateCbseCourse
  // ---------------------------------------------------------------------

  function PathName(course: Course, s: Subject): string
  {
    course.name + " - " + s.name
  }

  /** The index of the first stored path with this name, or -1. */
  function FindPath(paths: seq<LearningPath>, name: string): (r: int)
    ensures r == -1 <==> forall i :: 0 <= i < |paths| ==> paths[i].courseName != name
    ensures r != -1 ==> 0 <= r < |paths| && paths[r].courseName == name
  {
    Seqs.FindFrom((p: LearningPath) => p.courseName == name, paths, 0)
  }

  /** The summaries returned, the paths created (each one also counted in
      the user's `totalCourses`) and the user's paths afterwards. */
  datatype CourseBuild = CourseBuild(summaries: seq<CourseSummary>, created: seq<LearningPath>,
                                     paths: seq<LearningPath>)

  /** What one subject contributes: its summary, and the path created for
      it when none of its name exists yet. */
  datatype SubjectOutcome = SubjectOutcome(summary: CourseSummary, created: seq<LearningPath>)

  function SubjectStep(course: Course, subject: Subject, paths: seq<LearningPath>): (o: SubjectOutcome)
    ensures o.summary.courseName == PathName(course, subject)
    ensures FindPath(paths, PathName(course, subject)) != -1 ==>
              o.created == [] && o.summary == StoredSummary(paths[FindPath(paths, PathName(course, subject))])
    ensures FindPath(paths, PathName(course, subject)) == -1 ==>
              o.created == [NewCoursePath(PathName(course, subject), subject.chapters)] &&
              o.summary == FreshSummary(o.created[0])
  {
    var name := PathName(course, subject);
    var i := FindPath(paths, name);
    if i != -1 then SubjectOutcome(StoredSummary(paths[i]), [])
    else
      var p := NewCoursePath(name, subject.chapters);
      SubjectOutcome(FreshSummary(p), [p])
  }

  /** The loop over the subjects from the first of `subjects`: a subject
      whose path exists is summarised, any other gets a new path. */
  function BuildSubjects(course: Course, subjects: seq<Subject>, paths: seq<LearningPath>): (b: CourseBuild)
    ensures |b.summaries| == |subjects| && |b.created| <= |subjects|
    ensures b.paths == paths + b.created
    decreases |subjects|
  {
    if subjects == [] then CourseBuild([], [], paths)
    else
      var o := SubjectStep(course, subjects[0], paths);
      var rest := BuildSubjects(course, subjects[1..], paths + o.created);
      var created := o.created + rest.created;
      Seqs.AppendAssoc(paths, o.created, rest.created);
      CourseBuild([o.summary] + rest.summaries, created, rest.paths)
  }

  /** A path found before more paths are appended is still the one found. */
  lemma FindPathAppend(paths: seq<LearningPath>, more: seq<LearningPath>, name: string)
    requires FindPath(paths, name) != -1
    ensures FindPath(paths + more, name) == FindPath(paths, name)
  {
    var i := FindPath(paths, name);
    assert (paths + more)[i] == paths[i];
    assert forall j :: 0 <= j < i ==> (paths + more)[j] == paths[j];
  }

  /** The first step of the loop, and the rest of it. */
  lemma BuildSubjectsUnfold(course: Course, subjects: seq<Subject>, paths: seq<LearningPath>)
    requires subjects != []
    ensures var o := SubjectStep(course, subjects[0], paths);
            var b := BuildSubjects(course, subjects, paths);
            var rest := BuildSubjects(course, subjects[1..], paths + o.created);
            b.summaries == [o.summary] + rest.summaries && b.paths == rest.paths
  {
  }

  /** A later summary is the one the tail of the loop produces. */
  lemma BuildSubjectsSummaryShift(course: Course, subjects: seq<Subject>, paths: seq<LearningPath>, k: nat)
    requires 0 < k < |subjects|
    ensures BuildSubjects(course, subjects, paths).summaries[k] ==
            BuildSubjects(course, subjects[1..], paths + SubjectStep(course, subjects[0], paths).created).summaries[k - 1]
  {
    BuildSubjectsUnfold(course, subjects, paths);
  }

  /** The paths after the loop are those after its tail. */
  lemma BuildSubjectsUnfoldPaths(course: Course, subjects: seq<Subject>, paths: seq<LearningPath>)
    requires subjects != []
    ensures BuildSubjects(course, subjects, paths).paths ==
            BuildSubjects(course, subjects[1..], paths + SubjectStep(course, subjects[0], paths).created).paths
  {
  }

  /** The `k`-th summary is the one of the `k`-th subject. */
  lemma {:induction false} BuildSubjectsNamesSummary(course: Course, subjects: seq<Subject>, paths: seq<LearningPath>,
                                                     k: nat)
    requires k < |subjects|
    ensures BuildSubjects(course, subjects, paths).summaries[k].courseName == PathName(course, subjects[k])
    decreases k
  {
    var o := SubjectStep(course, subjects[0], paths);
    if k > 0 {
      var tail := subjects[1..];
      var ext := paths + o.created;
      assert tail[k - 1] == subjects[k];
      BuildSubjectsNamesSummary(course, tail, ext, k - 1);
      BuildSubjectsSummaryShift(course, subjects, paths, k);
    } else {
      BuildSubjectsUnfold(course, subjects, paths);
    }
  }

  /** Every summary is the one of the subject at its position. */
  lemma BuildSubjectsNamesSummaries(course: Course, subjects: seq<Subject>, paths: seq<LearningPath>)
    ensures var b := BuildSubjects(course, subjects, paths);
            forall k :: 0 <= k < |subjects| ==> b.summaries[k].courseName == PathName(course, subjects[k])
  {
    forall k | 0 <= k < |subjects|
      ensures BuildSubjects(course, subjects, paths).summaries[k].courseName == PathName(course, subjects[k])
    {
      BuildSubjectsNamesSummary(course, subjects, paths, k);
    }
  }

  /** Some stored path carries this name. */
  predicate HasPath(paths: seq<LearningPath>, name: string)
  {
    exists i :: 0 <= i < |paths| && paths[i].courseName == name
  }

  lemma HasPathAppend(paths: seq<LearningPath>, more: seq<LearningPath>, name: string)
    requires HasPath(paths, name)
    ensures HasPath(paths + more, name)
  {
    var i :| 0 <= i < |paths| && paths[i].courseName == name;
    assert (paths + more)[i] == paths[i];
  }

  /** The first subject has a path of its name after the loop. */
  lemma BuildSubjectsCoversFirst(course: Course, subjects: seq<Subject>, paths: seq<LearningPath>)
    requires subjects != []
    ensures HasPath(BuildSubjects(course, subjects, paths).paths, PathName(course, subjects[0]))
  {
    var b := BuildSubjects(course, subjects, paths);
    var name := PathName(course, subjects[0]);
    var o := SubjectStep(course, subjects[0], paths);
    var extended := paths + o.created;
    var rest := BuildSubjects(course, subjects[1..], extended);
    BuildSubjectsUnfoldPaths(course, subjects, paths);
    var f := FindPath(paths, name);
    if f != -1 {
      assert paths[f].courseName == name;
      HasPathAppend(paths, b.created, name);
    } else {
      assert extended[|paths|].courseName == name;
      HasPathAppend(extended, rest.created, name);
    }
  }

  /** After the loop the `k`-th subject has a path of its name. */
  lemma {:induction false} BuildSubjectsCoversSubject(course: Course, subjects: seq<Subject>, paths: seq<LearningPath>,
                                                      k: nat)
    requires k < |subjects|
    ensures HasPath(BuildSubjects(course, subjects, paths).paths, PathName(course, subjects[k]))
    decreases k
  {
    if k == 0 {
      BuildSubjectsCoversFirst(course, subjects, paths);
    } else {
      var o := SubjectStep(course, subjects[0], paths);
      var tail := subjects[1..];
      var ext := paths + o.created;
      assert tail[k - 1] == subjects[k];
      BuildSubjectsCoversSubject(course, tail, ext, k - 1);
      assert HasPath(BuildSubjects(course, tail, ext).paths, PathName(course, subjects[k]));
      BuildSubjectsUnfoldPaths(course, subjects, paths);
    }
  }

  /** After the loop every subject has a path of its name. */
  lemma BuildSubjectsCoversSubjects(course: Course, subjects: seq<Subject>, paths: seq<LearningPath>)
    ensures var b := BuildSubjects(course, subjects, paths);
            forall k :: 0 <= k < |subjects| ==> HasPath(b.paths, PathName(course, subjects[k]))
  {
    forall k | 0 <= k < |subjects|
      ensures HasPath(BuildSubjects(course, subjects, paths).paths, PathName(course, subjects[k]))
    {
      BuildSubjectsCoversSubject(course, subjects, paths, k);
    }
  }

  /** A subject whose path was stored before is summarised from that
      stored path. */
  lemma {:induction false} BuildSubjectsReusesStored(course: Course, subjects: seq<Subject>, paths: seq<LearningPath>,
                                                     k: nat)
    requires k < |subjects| && FindPath(paths, PathName(course, subjects[k])) != -1
    ensures BuildSubjects(course, subjects, paths).summaries[k] ==
            StoredSummary(paths[FindPath(paths, PathName(course, subjects[k]))])
    decreases k
  {
    var o := SubjectStep(course, subjects[0], paths);
    if k > 0 {
      var tail := subjects[1..];
      var ext := paths + o.created;
      var name := PathName(course, subjects[k]);
      assert tail[k - 1] == subjects[k];
      var f := FindPath(paths, name);
      FindPathAppend(paths, o.created, name);
      assert ext[f] == paths[f];
      BuildSubjectsReusesStored(course, tail, ext, k - 1);
      BuildSubjectsSummaryShift(course, subjects, paths, k);
    } else {
      BuildSubjectsUnfold(course, subjects, paths);
    }
  }

  /** `NotACourse` is the 500 reply when `coursesConfig[courseId]` finds a
      built-in of `Object.prototype`: the loop over its missing `subjects`
      throws. `SaveFailed` is the 500 reply of a request whose new path
      cannot be saved; its message is how Mongoose's validation error
      begins. */
  datatype CourseError = CourseIdRequired | InvalidCourseId | NotACourse | SaveFailed

  function CourseErrorMessage(e: CourseError): string
  {
    match e
    case CourseIdRequired => "Course ID is required"
    case InvalidCourseId => "Invalid course ID"
    case NotACourse => "course.subjects is not iterable"
    case SaveFailed => "LearningPath validation failed"
  }

  /** `coursesConfig[courseId]` looks up the key `String(courseId)`. */
  function CourseKey(courseId: Json): string
  {
    ToText(courseId)
  }

  /** `generateCbseCourse` for an authenticated user whose stored paths are
      `paths`. */
  function GenerateCourse(courseId: Json, config: map<string, Course>, paths: seq<LearningPath>)
    : (r: Result<CourseBuild, CourseError>)
    ensures r == Err(CourseIdRequired) <==> !Truthy(courseId)
    ensures r == Err(InvalidCourseId) <==>
              Truthy(courseId) && CourseKey(courseId) !in config && !Inherited(CourseKey(courseId))
    ensures r == Err(NotACourse) <==>
              Truthy(courseId) && CourseKey(courseId) !in config && Inherited(CourseKey(courseId))
    ensures r.Ok? <==> Truthy(courseId) && CourseKey(courseId) in config
    ensures r.Ok? ==>
              var course := config[CourseKey(courseId)];
              |r.value.summaries| == |course.subjects| && r.value.paths == paths + r.value.created &&
              forall k :: 0 <= k < |course.subjects| ==> r.value.summaries[k].courseName == PathName(course, course.subjects[k])
  {
    if !Truthy(courseId) then Err(CourseIdRequired)
    else if CourseKey(courseId) !in config then
      if Inherited(CourseKey(courseId)) then Err(NotACourse) else Err(InvalidCourseId)
    else
      var course := config[CourseKey(courseId)];
      BuildSubjectsNamesSummaries(course, course.subjects, paths);
      Ok(BuildSubjects(course, course.subjects, paths))
  }

  /** Asking again for a course creates nothing: every subject's path now
      exists and is summarised instead. */
  lemma {:induction false} BuildSubjectsIsIdempotent(course: Course, subjects: seq<Subject>, paths: seq<LearningPath>)
    requires forall k :: 0 <= k < |subjects| ==> HasPath(paths, PathName(course, subjects[k]))
    ensures BuildSubjects(course, subjects, paths).created == []
    ensures BuildSubjects(course, subjects, paths).paths == paths
    decreases |subjects|
  {
    if subjects != [] {
      BuildSubjectsIsIdempotent(course, subjects[1..], paths);
    }
  }

  /** A second request for the same course adds no path and counts no
      course, and reports every subject from its stored path. */
  lemma SecondRequestCreatesNothing(courseId: Json, config: map<string, Course>, paths: seq<LearningPath>)
    requires GenerateCourse(courseId, config, paths).Ok?
    ensures var after := GenerateCourse(courseId, config, paths).value.paths;
            GenerateCourse(courseId, config, after).Ok? &&
            GenerateCourse(courseId, config, after).value.created == [] &&
            GenerateCourse(courseId, config, after).value.paths == after
  {
    var course := config[CourseKey(courseId)];
    var after := GenerateCourse(courseId, config, paths).value.paths;
    BuildSubjectsCoversSubjects(course, course.subjects, paths);
    BuildSubjectsIsIdempotent(course, course.subjects, after);
  }

  // ---------------------------------------------------------------------
  // Saving a new path, as written
  // ---------------------------------------------------------------------

  /** The path built for a new subject is one the schema refuses: it is
      built with an empty `courseStrength` and `courseWeakness`, which the
      schema requires. */
  lemma NewCoursePathIsRefused(courseName: string, chapters: seq<Chapter>)
    ensures !PathAccepted(NewCoursePath(courseName, chapters))
  {
  }

  /** The loop as written: the first subject without a stored path makes
      `save()` throw, which ends the request with a server error before any
      path is stored. A save the schema accepted would fail too, reading the
      undeclared `gamification` of the saved document. Without such a
      subject the loop agrees with `BuildSubjects` and creates nothing. */
  function BuildSubjectsAsWritten(course: Course, subjects: seq<Subject>, paths: seq<LearningPath>)
    : (r: Result<CourseBuild, CourseError>)
    ensures r.Err? <==> exists k :: 0 <= k < |subjects| && FindPath(paths, PathName(course, subjects[k])) == -1
    ensures r.Err? ==> r.error == SaveFailed
    ensures r.Ok? ==> r.value == BuildSubjects(course, subjects, paths) && r.value.created == []
    decreases |subjects|
  {
    if subjects == [] then Ok(CourseBuild([], [], paths))
    else
      var i := FindPath(paths, PathName(course, subjects[0]));
      if i == -1 then Err(SaveFailed)
      else
        var rest := BuildSubjectsAsWritten(course, subjects[1..], paths);
        BuildSubjectsAsWrittenStep(course, subjects, paths);
        if rest.Err? then rest
        else Ok(CourseBuild([StoredSummary(paths[i])] + rest.value.summaries, [], paths))
  }

  /** The subjects after the first, and what the intended loop does with
      a first subject that has a stored path. */
  lemma BuildSubjectsAsWrittenStep(course: Course, subjects: seq<Subject>, paths: seq<LearningPath>)
    requires |subjects| > 0 && FindPath(paths, PathName(course, subjects[0])) != -1
    ensures forall k :: 0 <= k < |subjects| - 1 ==> subjects[1..][k] == subjects[k + 1]
    ensures var i := FindPath(paths, PathName(course, subjects[0]));
            var b := BuildSubjects(course, subjects[1..], paths);
            b.created == [] ==>
              BuildSubjects(course, subjects, paths) ==
                CourseBuild([StoredSummary(paths[i])] + b.summaries, [], paths)
  {
    assert paths + [] == paths;
  }

  /** `generateCbseCourse` as written: the id checks of `GenerateCourse`,
      then the loop that fails on the first subject needing a new path. */
  function GenerateCourseAsWritten(courseId: Json, config: map<string, Course>, paths: seq<LearningPath>)
    : (r: Result<CourseBuild, CourseError>)
    ensures GenerateCourse(courseId, config, paths).Err? ==> r == GenerateCourse(courseId, config, paths)
    ensures GenerateCourse(courseId, config, paths).Ok? ==>
              var course := config[CourseKey(courseId)];
              (r == Err(SaveFailed) <==>
                 exists k :: 0 <= k < |course.subjects| && !HasPath(paths, PathName(course, course.subjects[k])))
    ensures r.Ok? ==> r == GenerateCourse(courseId, config, paths) && r.value.created == []
  {
    if !Truthy(courseId) then Err(CourseIdRequired)
    else if CourseKey(courseId) !in config then
      if Inherited(CourseKey(courseId)) then Err(NotACourse) else Err(InvalidCourseId)
    else
      var course := config[CourseKey(courseId)];
      BuildSubjectsAsWritten(course, course.subjects, paths)
  }

  /** As written, a user's first request for a course with subjects gets a
      server error and stores nothing. */
  lemma FirstRequestFails(courseId: Json, config: map<string, Course>)
    requires GenerateCourse(courseId, config, []).Ok?
    requires |config[CourseKey(courseId)].subjects| > 0
    ensures GenerateCourseAsWritten(courseId, config, []) == Err(SaveFailed)
  {
  }

  /** With the path saved as intended, the first request succeeds and
      leaves every subject of the course with a stored path. */
  lemma FirstRequestStoresEveryPath(courseId: Json, config: map<string, Course>)
    requires GenerateCourse(courseId, config, []).Ok?
    requires |config[CourseKey(courseId)].subjects| > 0
    ensures var b := GenerateCourse(courseId, config, []).value;
            var course := config[CourseKey(courseId)];
            b.created != [] &&
            forall k :: 0 <= k < |course.subjects| ==> HasPath(b.paths, PathName(course, course.subjects[k]))
  {
    var course := config[CourseKey(courseId)];
    BuildSubjectsCoversSubjects(course, course.subjects, []);
  }
}

=== FILE: grading.dfy ===
/** Grading of a submitted quiz and the results derived from it: the two
    `submitQuiz` handlers (the quiz controller's and the learning
    controller's), the 70% pass rule, the daily-quiz time bonus, the course
    completion percentage and the leaderboard ranks.

    The database is given: the handlers receive the document a lookup
    returned (`None` when there was none) instead of querying a store.
 */
module Grading {
  import opened Wrappers
  import opened Json
  import opened Schema
  import Text
  import Seqs

  // ---------------------------------------------------------------------
  // One answer
  // ---------------------------------------------------------------------

  /** `response.selectedOption === question.correctAnswer`: strict equality,
      so only a string equal to the answer is correct. */
  predicate IsCorrect(q: Question, response: Json)
  {
    Get(response, "selectedOption") == JStr(q.correctAnswer)
  }

  function MarksObtained(q: Question, response: Json): int
  {
    if IsCorrect(q, response) then q.marks else 0
  }

  /** The feedback line; an empty explanation falls back to a fixed hint. */
  function Feedback(q: Question, correct: bool): (f: string)
    ensures f == "Correct!" <==> correct
    ensures !correct ==> Text.StartsWith(f, "Incorrect. ")
    ensures !correct && q.explanation != "" ==> Text.EndsWith(f, q.explanation)
  {
    if correct then "Correct!"
    else "Incorrect. " + (if q.explanation != "" then q.explanation else "Please review the topic.")
  }

  // ---------------------------------------------------------------------
  // Grading a response list
  // ---------------------------------------------------------------------

  /** Why `responses.map` throws at an index: there is no question there, or
      the response is `null`/`undefined` so reading `selectedOption` fails. */
  datatype GradeError = InvalidQuestionIndex(index: nat) | NullishResponse(index: nat)

  /** The message of the thrown error for a missing question. */
  function IndexErrorMessage(i: nat): (m: string)
    ensures Text.StartsWith(m, "Invalid question index: ")
    ensures Text.AllDigits(m[24..]) && Text.DecimalValue(m[24..]) == i
  {
    Text.NatToStringRoundTrip(i);
    "Invalid question index: " + Text.NatToString(i)
  }

  /** Response `k` makes the map throw. The question is looked up first. */
  predicate BadAt(qs: seq<Question>, rs: seq<Json>, k: nat)
    requires k < |rs|
  {
    k >= |qs| || IsNullish(rs[k])
  }

  function ErrorAt(qs: seq<Question>, rs: seq<Json>, k: nat): GradeError
    requires k < |rs|
  {
    if k >= |qs| then InvalidQuestionIndex(k) else NullishResponse(k)
  }

  /** `responses.map(...)` from index `i` on, each response turned into a
      record by `build`. The map stops at the first response that throws. */
  function GradeFrom<R>(qs: seq<Question>, rs: seq<Json>, build: (Question, Json) -> R, i: nat)
    : (r: Result<seq<R>, GradeError>)
    requires i <= |rs|
    ensures r.Ok? <==> forall k :: i <= k < |rs| ==> !BadAt(qs, rs, k)
    ensures r.Ok? ==> (
              |r.value| == |rs| - i &&
              forall k :: i <= k < |rs| ==> k < |qs| && r.value[k - i] == build(qs[k], rs[k]))
    ensures r.Ok? && i < |rs| ==> |rs| <= |qs|
    ensures r.Err? ==> (
              i <= r.error.index < |rs| && BadAt(qs, rs, r.error.index) &&
              r.error == ErrorAt(qs, rs, r.error.index) &&
              forall k :: i <= k < r.error.index ==> !BadAt(qs, rs, k))
    decreases |rs| - i
  {
    if i == |rs| then Ok([])
    else if BadAt(qs, rs, i) then Err(ErrorAt(qs, rs, i))
    else
      match GradeFrom(qs, rs, build, i + 1)
      case Ok(rest) =>
        var out := [build(qs[i], rs[i])] + rest;
        assert forall j :: 1 <= j < |out| ==> out[j] == rest[j - 1];
        Ok(out)
      case Err(e) => Err(e)
  }

  /** `quiz.questions.reduce((sum, q) => sum + q.marks, 0)` */
  function TotalPossible(qs: seq<Question>): int
  {
    if |qs| == 0 then 0 else TotalPossible(qs[..|qs| - 1]) + qs[|qs| - 1].marks
  }

  /** The running `totalMarks` after every response has been graded. */
  function TotalObtained(qs: seq<Question>, rs: seq<Json>): int
    requires |rs| <= |qs|
  {
    if |rs| == 0 then 0
    else TotalObtained(qs, rs[..|rs| - 1]) + MarksObtained(qs[|rs| - 1], rs[|rs| - 1])
  }

  predicate NonNegativeMarks(qs: seq<Question>)
  {
    forall k :: 0 <= k < |qs| ==> qs[k].marks >= 0
  }

  lemma {:induction false} PossiblePrefixBound(qs: seq<Question>, n: nat)
    requires n <= |qs| && NonNegativeMarks(qs)
    ensures 0 <= TotalPossible(qs[..n]) <= TotalPossible(qs)
    decreases |qs|
  {
    if n == |qs| {
      assert qs[..n] == qs;
      if |qs| > 0 {
        PossiblePrefixBound(qs[..|qs| - 1], |qs| - 1);
        assert qs[..|qs| - 1][..|qs| - 1] == qs[..|qs| - 1];
      }
    } else {
      var init := qs[..|qs| - 1];
      PossiblePrefixBound(init, n);
      assert init[..n] == qs[..n];
    }
  }

  /** Every obtained mark is a mark of an answered question. */
  lemma {:induction false} ObtainedWithinAnswered(qs: seq<Question>, rs: seq<Json>)
    requires |rs| <= |qs| && NonNegativeMarks(qs)
    ensures 0 <= TotalObtained(qs, rs) <= TotalPossible(qs[..|rs|])
  {
    if |rs| > 0 {
      var n := |rs| - 1;
      ObtainedWithinAnswered(qs, rs[..n]);
      assert qs[..|rs|][..n] == qs[..n];
    }
  }

  /** The score lies between 0 and the total of all marks. */
  lemma ScoreWithinTotal(qs: seq<Question>, rs: seq<Json>)
    requires |rs| <= |qs| && NonNegativeMarks(qs)
    ensures 0 <= TotalObtained(qs, rs) <= TotalPossible(qs)
  {
    ObtainedWithinAnswered(qs, rs);
    PossiblePrefixBound(qs, |rs|);
  }

  /** Answering every question correctly earns every mark. */
  lemma {:induction false} AllCorrectEarnsTotal(qs: seq<Question>, rs: seq<Json>)
    requires |rs| == |qs|
    requires forall k :: 0 <= k < |rs| ==> IsCorrect(qs[k], rs[k])
    ensures TotalObtained(qs, rs) == TotalPossible(qs)
  {
    if |rs| > 0 {
      var n := |rs| - 1;
      AllCorrectEarnsTotal(qs[..n], rs[..n]);
      ObtainedOnlyReadsAnswered(qs, qs[..n], rs[..n]);
    }
  }

  /** The score depends only on the questions that were answered. */
  lemma {:induction false} ObtainedOnlyReadsAnswered(qs: seq<Question>, qs': seq<Question>, rs: seq<Json>)
    requires |rs| <= |qs| && |rs| <= |qs'|
    requires qs[..|rs|] == qs'[..|rs|]
    ensures TotalObtained(qs, rs) == TotalObtained(qs', rs)
  {
    if |rs| > 0 {
      var n := |rs| - 1;
      assert qs[..n] == qs[..|rs|][..n] && qs'[..n] == qs'[..|rs|][..n];
      assert qs[n] == qs[..|rs|][n] && qs'[n] == qs'[..|rs|][n];
      ObtainedOnlyReadsAnswered(qs, qs', rs[..n]);
    }
  }

  /** A wrong or missing answer earns nothing. */
  lemma {:induction false} NoneCorrectEarnsNothing(qs: seq<Question>, rs: seq<Json>)
    requires |rs| <= |qs|
    requires forall k :: 0 <= k < |rs| ==> !IsCorrect(qs[k], rs[k])
    ensures TotalObtained(qs, rs) == 0
  {
    if |rs| > 0 {
      NoneCorrectEarnsNothing(qs, rs[..|rs| - 1]);
    }
  }

  // ---------------------------------------------------------------------
  // The pass rule
  // ---------------------------------------------------------------------

  /** `totalMarks >= totalPossibleMarks * 0.7 ? 'Pass' : 'Fail'`, in exact
      arithmetic. */
  function ResultFor(score: int, total: int): (r: QuizResult)
    ensures r != Pending
    ensures r == Pass <==> (score as real) >= 0.7 * (total as real)
  {
    if 10 * score >= 7 * total then Pass else Fail
  }

  /** A perfect answer sheet passes. */
  lemma PerfectScorePasses(qs: seq<Question>, rs: seq<Json>)
    requires |rs| == |qs| && NonNegativeMarks(qs)
    requires forall k :: 0 <= k < |rs| ==> IsCorrect(qs[k], rs[k])
    ensures ResultFor(TotalObtained(qs, rs), TotalPossible(qs)) == Pass
  {
    AllCorrectEarnsTotal(qs, rs);
    PossiblePrefixBound(qs, 0);
  }

  /** Scoring higher never turns a pass into a fail. */
  lemma PassIsMonotone(s1: int, s2: int, total: int)
    requires s1 <= s2 && ResultFor(s1, total) == Pass
    ensures ResultFor(s2, total) == Pass
  {
  }

  // ---------------------------------------------------------------------
  // quizController.submitQuiz
  // ---------------------------------------------------------------------

  datatype QuizModel = LearningPathQuizModel | CustomQuizModel | DailyQuizModel

  function ModelName(m: QuizModel): string
  {
    match m
    case LearningPathQuizModel => "LearningPathQuiz"
    case CustomQuizModel => "CustomQuiz"
    case DailyQuizModel => "DailyQuiz"
  }

  /** What `quizModels[quizModel]` finds in the object literal of the three
      models: one of them, a truthy built-in of `Object.prototype`, or
      nothing. */
  datatype ModelLookup = Registered(model: QuizModel) | BuiltIn | Unknown

  /** `quizModels[quizModel]`: the literal is indexed by `String(quizModel)`,
      so `["CustomQuiz"]` finds the CustomQuiz model too. */
  function ModelNamed(j: Json): (r: ModelLookup)
    ensures r.Registered? ==> ToText(j) == ModelName(r.model)
    ensures r.Unknown? <==> (forall m: QuizModel :: ToText(j) != ModelName(m)) && !Inherited(ToText(j))
    ensures r.BuiltIn? <==> Inherited(ToText(j))
  {
    var key := ToText(j);
    if key == "LearningPathQuiz" then Registered(LearningPathQuizModel)
    else if key == "CustomQuiz" then Registered(CustomQuizModel)
    else if key == "DailyQuiz" then Registered(DailyQuizModel)
    else if Inherited(key) then BuiltIn
    else Unknown
  }

  datatype SubmitError =
    | FieldsRequired
    | InvalidQuizModel
    | NotAModel
    | QuizNotFound
    | GradingFailed(reason: GradeError)
    | SaveRejected

  /** The `error` text of the response body. A failed save reports the
      store's validation message, which is not modelled. */
  function SubmitErrorMessage(e: SubmitError): string
  {
    match e
    case FieldsRequired => "quizId, quizModel, and responses array are required"
    case InvalidQuizModel => "Invalid quizModel"
    case NotAModel => "QuizModel.findById is not a function"
    case QuizNotFound => "Quiz not found or unauthorized"
    case GradingFailed(InvalidQuestionIndex(i)) => IndexErrorMessage(i)
    case GradingFailed(NullishResponse(_)) => "Cannot read properties of null"
    case SaveRejected => "Validation failed"
  }

  /** The stored record for one graded response. */
  function GradedResponse(q: Question, response: Json): StoredResponse
  {
    var correct := IsCorrect(q, response);
    StoredResponse(q.question, Get(response, "selectedOption"), correct,
                   MarksObtained(q, response), Get(response, "responseTime"),
                   Feedback(q, correct))
  }

  /** The sum of `marksObtained` over stored responses. */
  function ScoreOf(ps: seq<StoredResponse>): int
  {
    if |ps| == 0 then 0 else ScoreOf(ps[..|ps| - 1]) + ps[|ps| - 1].marksObtained
  }

  /** The stored score agrees with the stored responses. */
  lemma {:induction false} ScoreOfGraded(qs: seq<Question>, rs: seq<Json>, ps: seq<StoredResponse>)
    requires |rs| <= |qs| && |ps| == |rs|
    requires forall k :: 0 <= k < |ps| ==> ps[k] == GradedResponse(qs[k], rs[k])
    ensures ScoreOf(ps) == TotalObtained(qs, rs)
  {
    if |ps| > 0 {
      var n := |ps| - 1;
      ScoreOfGraded(qs, rs[..n], ps[..n]);
    }
  }

  /** What a successful submission produces: the updated quiz, the marks it
      could have earned, the points credited to the user's metrics, and
      whether the learning path holding the quiz is credited. */
  datatype Submitted = Submitted(model: QuizModel, quiz: LearningPathQuiz, totalPossible: int,
                                 userPoints: int, creditsPath: bool)

  /** The strict `quizModel === ...` tests that follow the save. */
  predicate EarnsPoints(body: Json)
  {
    Get(body, "quizModel") == JStr("CustomQuiz") || Get(body, "quizModel") == JStr("DailyQuiz")
  }

  predicate SubmitFieldsPresent(body: Json)
  {
    Truthy(Get(body, "quizId")) && Truthy(Get(body, "quizModel")) && Get(body, "responses").JArr?
  }

  /** The grading core of `submitQuiz`. `found` is what `findById` returned
      for the named model and id. A LearningPathQuiz document casts each
      response's `selectedOption` and `responseTime` and is validated
      against its schema when it is saved; a failed cast or validation is
      `SaveRejected`. */
  function SubmitQuiz(body: Json, userId: string, found: Option<LearningPathQuiz>)
    : (r: Result<Submitted, SubmitError>)
    ensures r == Err(FieldsRequired) <==> !SubmitFieldsPresent(body)
    ensures r == Err(InvalidQuizModel) <==>
              SubmitFieldsPresent(body) && ModelNamed(Get(body, "quizModel")).Unknown?
    ensures r == Err(NotAModel) <==>
              SubmitFieldsPresent(body) && ModelNamed(Get(body, "quizModel")).BuiltIn?
    ensures r == Err(QuizNotFound) <==>
              SubmitFieldsPresent(body) && ModelNamed(Get(body, "quizModel")).Registered? &&
              (found.None? || found.value.userId != Some(userId))
    ensures r.Err? && r.error.GradingFailed? ==>
              found.Some? && var rs := Get(body, "responses").items;
              var k := r.error.reason.index;
              k < |rs| && BadAt(found.value.questions, rs, k) &&
              forall j :: 0 <= j < k ==> !BadAt(found.value.questions, rs, j)
    ensures r.Ok? ==>
              found.Some? && found.value.userId == Some(userId) &&
              var rs := Get(body, "responses").items;
              var qs := found.value.questions;
              var q := r.value.quiz;
              ModelNamed(Get(body, "quizModel")) == Registered(r.value.model) &&
              |rs| <= |qs| && q.questions == qs && q.topicName == found.value.topicName &&
              |q.responses| == |rs| &&
              (forall k :: 0 <= k < |rs| ==>
                 (q.responses[k].isCorrect <==> Get(rs[k], "selectedOption") == JStr(qs[k].correctAnswer))) &&
              q.quizScore == TotalObtained(qs, rs) &&
              r.value.totalPossible == TotalPossible(qs) &&
              (q.quizResult == Pass <==> 10 * q.quizScore >= 7 * TotalPossible(qs)) &&
              r.value.userPoints == (if EarnsPoints(body) then 10 * q.quizScore else 0) &&
              (r.value.creditsPath <==> Get(body, "quizModel") == JStr("LearningPathQuiz")) &&
              (forall k :: 0 <= k < |rs| ==> StoredAs(r.value.model, GradedResponse(qs[k], rs[k]), q.responses[k]))
    ensures r.Ok? && r.value.model == LearningPathQuizModel ==> ValidLearningPathQuiz(r.value.quiz)
  {
    if !SubmitFieldsPresent(body) then Err(FieldsRequired)
    else if ModelNamed(Get(body, "quizModel")).Unknown? then Err(InvalidQuizModel)
    else if ModelNamed(Get(body, "quizModel")).BuiltIn? then Err(NotAModel)
    else if found.None? || found.value.userId != Some(userId) then Err(QuizNotFound)
    else
      var model := ModelNamed(Get(body, "quizModel")).model;
      var quiz := found.value;
      var rs := Get(body, "responses").items;
      match GradeFrom(quiz.questions, rs, GradedResponse, 0)
      case Err(e) => Err(GradingFailed(e))
      case Ok(ps) => SaveSubmission(body, model, quiz, rs, ps)
  }

  /** What follows a successful grading: the save, then the points earned
      and whether the learning path is credited. */
  function SaveSubmission(body: Json, model: QuizModel, quiz: LearningPathQuiz, rs: seq<Json>,
                          ps: seq<StoredResponse>): (r: Result<Submitted, SubmitError>)
    requires |rs| <= |quiz.questions| && |ps| == |rs|
    requires forall k :: 0 <= k < |ps| ==> ps[k] == GradedResponse(quiz.questions[k], rs[k])
    ensures r.Err? ==> r.error == SaveRejected
    ensures model != LearningPathQuizModel ==> r.Ok?
    ensures r.Ok? ==>
              var qs := quiz.questions;
              var q := r.value.quiz;
              r.value.model == model &&
              q.questions == qs && q.topicName == quiz.topicName && q.userId == quiz.userId &&
              |q.responses| == |rs| &&
              (forall k :: 0 <= k < |rs| ==>
                 (q.responses[k].isCorrect <==> Get(rs[k], "selectedOption") == JStr(qs[k].correctAnswer))) &&
              q.quizScore == TotalObtained(qs, rs) &&
              r.value.totalPossible == TotalPossible(qs) &&
              (q.quizResult == Pass <==> 10 * q.quizScore >= 7 * TotalPossible(qs)) &&
              r.value.userPoints == (if EarnsPoints(body) then 10 * q.quizScore else 0) &&
              (r.value.creditsPath <==> Get(body, "quizModel") == JStr("LearningPathQuiz")) &&
              (forall k :: 0 <= k < |rs| ==> StoredAs(model, GradedResponse(qs[k], rs[k]), q.responses[k]))
    ensures r.Ok? && model == LearningPathQuizModel ==> ValidLearningPathQuiz(r.value.quiz)
  {
    ScoreOfGraded(quiz.questions, rs, ps);
    var score := ScoreOf(ps);
    var total := TotalPossible(quiz.questions);
    match SaveGraded(model, quiz, ps, score, ResultFor(score, total))
    case None => Err(SaveRejected)
    case Some(graded) =>
      Ok(Submitted(model, graded, total, if EarnsPoints(body) then 10 * score else 0,
                   Get(body, "quizModel") == JStr("LearningPathQuiz")))
  }

  /** `stored` is what saving the graded response `p` to a quiz of `model`
      stores: the cast response for a LearningPathQuiz, `p` itself otherwise. */
  predicate StoredAs(model: QuizModel, p: StoredResponse, stored: StoredResponse)
  {
    if model == LearningPathQuizModel then CastResponse(p) == Some(stored) else stored == p
  }

  /** The save of a graded quiz, `None` when it is refused. A LearningPathQuiz
      casts its responses and is validated against its schema; the other
      models store the responses as graded. */
  function SaveGraded(model: QuizModel, quiz: LearningPathQuiz, ps: seq<StoredResponse>,
                      score: int, result: QuizResult): (r: Option<LearningPathQuiz>)
    ensures r.Some? ==>
              r.value.userId == quiz.userId && r.value.topicName == quiz.topicName &&
              r.value.questions == quiz.questions &&
              r.value.quizScore == score && r.value.quizResult == result &&
              |r.value.responses| == |ps| &&
              forall k :: 0 <= k < |ps| ==>
                r.value.responses[k].isCorrect == ps[k].isCorrect && StoredAs(model, ps[k], r.value.responses[k])
    ensures model != LearningPathQuizModel ==> r.Some?
    ensures model == LearningPathQuizModel && r.Some? ==> ValidLearningPathQuiz(r.value)
    ensures model == LearningPathQuizModel && ValidLearningPathQuiz(quiz) && score >= 0 ==>
              (r.None? <==> exists k :: 0 <= k < |ps| && !SavableResponse(ps[k]))
  {
    if model != LearningPathQuizModel then
      Some(quiz.(responses := ps, quizScore := score, quizResult := result))
    else
      match CastResponses(ps)
      case None => None
      case Some(cs) =>
        var graded := quiz.(responses := cs, quizScore := score, quizResult := result);
        if ValidLearningPathQuiz(graded) then Some(graded) else None
  }

  /** Submitting to a valid quiz document stores a score between 0 and the
      total of its marks. */
  lemma SubmitKeepsScoreInRange(body: Json, userId: string, quiz: LearningPathQuiz)
    requires ValidLearningPathQuiz(quiz)
    requires SubmitQuiz(body, userId, Some(quiz)).Ok?
    ensures 0 <= SubmitQuiz(body, userId, Some(quiz)).value.quiz.quizScore <= TotalPossible(quiz.questions)
  {
    var rs := Get(body, "responses").items;
    ScoreWithinTotal(quiz.questions, rs);
  }

  /** Once the responses to a learning-path quiz that satisfies its schema
      are graded, the save is refused exactly when some response's
      `selectedOption` or `responseTime` fails its cast, or its cast
      response time is negative. */
  lemma SaveRejectedExactlyForUnsavableResponse(body: Json, userId: string, quiz: LearningPathQuiz)
    requires ValidLearningPathQuiz(quiz) && quiz.userId == Some(userId)
    requires SubmitFieldsPresent(body)
    requires ModelNamed(Get(body, "quizModel")) == Registered(LearningPathQuizModel)
    requires var rs := Get(body, "responses").items;
             |rs| <= |quiz.questions| && forall k :: 0 <= k < |rs| ==> !BadAt(quiz.questions, rs, k)
    ensures var rs := Get(body, "responses").items;
            SubmitQuiz(body, userId, Some(quiz)) == Err(SaveRejected) <==>
            exists k :: 0 <= k < |rs| && !SavableResponse(GradedResponse(quiz.questions[k], rs[k]))
  {
    var rs := Get(body, "responses").items;
    var qs := quiz.questions;
    var ps := GradeFrom(qs, rs, GradedResponse, 0).value;
    ScoreOfGraded(qs, rs, ps);
    ScoreWithinTotal(qs, rs);
    var saved := SaveGraded(LearningPathQuizModel, quiz, ps, ScoreOf(ps), ResultFor(ScoreOf(ps), TotalPossible(qs)));
    SubmitRejectsWhenSaveRefused(body, userId, quiz);
    assert SubmitQuiz(body, userId, Some(quiz)) == Err(SaveRejected) <==> saved.None?;
    assert saved.None? <==> exists k :: 0 <= k < |ps| && !SavableResponse(ps[k]);
    if saved.None? {
      var k :| 0 <= k < |ps| && !SavableResponse(ps[k]);
      assert ps[k] == GradedResponse(qs[k], rs[k]);
    } else {
      forall k | 0 <= k < |rs|
        ensures SavableResponse(GradedResponse(qs[k], rs[k]))
      {
        assert ps[k] == GradedResponse(qs[k], rs[k]);
      }
    }
  }

  /** Once every response is graded, a submission to a LearningPathQuiz
      answers SaveRejected exactly when its save is refused. */
  lemma SubmitRejectsWhenSaveRefused(body: Json, userId: string, quiz: LearningPathQuiz)
    requires quiz.userId == Some(userId) && SubmitFieldsPresent(body)
    requires ModelNamed(Get(body, "quizModel")) == Registered(LearningPathQuizModel)
    requires var rs := Get(body, "responses").items;
             |rs| <= |quiz.questions| && forall k :: 0 <= k < |rs| ==> !BadAt(quiz.questions, rs, k)
    ensures var ps := GradeFrom(quiz.questions, Get(body, "responses").items, GradedResponse, 0);
            var score := ScoreOf(ps.value);
            ps.Ok? &&
            (SubmitQuiz(body, userId, Some(quiz)) == Err(SaveRejected) <==>
             SaveGraded(LearningPathQuizModel, quiz, ps.value, score,
                        ResultFor(score, TotalPossible(quiz.questions))).None?)
  {
  }

  /** A model name sent as a one-element array selects that model, but the
      strict comparisons after the save see no name: the user earns no
      points and no learning path is credited. */
  lemma ArrayNamedModelEarnsNothing(body: Json, userId: string, found: Option<LearningPathQuiz>, m: QuizModel)
    requires Get(body, "quizModel") == JArr([JStr(ModelName(m))])
    requires SubmitQuiz(body, userId, found).Ok?
    ensures var r := SubmitQuiz(body, userId, found).value;
            r.model == m && r.userPoints == 0 && !r.creditsPath
  {
    var x := JStr(ModelName(m));
    assert JoinItems([x]) == ToText(x);
    assert ToText(JArr([x])) == ModelName(m);
  }

  /** A built-in name such as "constructor" passes the `!QuizModel` test,
      and the request fails when `findById` is called on the built-in. */
  lemma BuiltInModelNameFails(body: Json, userId: string, found: Option<LearningPathQuiz>, name: string)
    requires SubmitFieldsPresent(body) && Inherited(name) && Get(body, "quizModel") == JStr(name)
    ensures SubmitQuiz(body, userId, found) == Err(NotAModel)
  {
  }

  // ---------------------------------------------------------------------
  // Effects on the learning path (LearningPathQuiz submissions)
  // ---------------------------------------------------------------------

  /** `Math.round((completed / topics.length) * 100)`; `None` stands for the
      NaN of an empty topic list. */
  function CompletionPercent(topics: seq<Topic>): (r: Option<int>)
    ensures r.None? <==> |topics| == 0
    ensures r.Some? ==>
              var c := Seqs.Count((t: Topic) => t.completionStatus, topics);
              var n := |topics|;
              2 * n * r.value <= 200 * c + n < 2 * n * (r.value + 1) &&
              0 <= r.value <= 100 &&
              (r.value == 100 <==> 200 * c >= 199 * n)
  {
    var c := Seqs.Count((t: Topic) => t.completionStatus, topics);
    var n := |topics|;
    if n == 0 then None
    else
      var r := (200 * c + n) / (2 * n);
      RoundingBounds(c, n, r);
      Some(r)
  }

  /** Facts about rounding `100 * c / n` half up, for `c <= n`. */
  lemma RoundingBounds(c: nat, n: nat, r: int)
    requires n > 0 && c <= n && r == (200 * c + n) / (2 * n)
    ensures 2 * n * r <= 200 * c + n < 2 * n * (r + 1)
    ensures 0 <= r <= 100
    ensures r == 100 <==> 200 * c >= 199 * n
  {
    var a := 200 * c + n;
    var b := 2 * n;
    var m := a % b;
    assert a == b * r + m && 0 <= m < b;
    assert b * (r + 1) == b * r + b;
    assert b * r < b * 101;
    MulLessCancel(b, r, 101);
    assert b * -1 < b * r;
    MulLessCancel(b, -1, r);
    if 200 * c >= 199 * n {
      assert b * 99 < b * r;
      MulLessCancel(b, 99, r);
    }
  }

  lemma MulLessCancel(b: int, x: int, y: int)
    requires b > 0 && b * x < b * y
    ensures x < y
  {
  }

  /** A course whose topics are all completed is 100% complete. */
  lemma {:induction false} AllCompletedIsComplete(topics: seq<Topic>)
    requires |topics| > 0
    requires forall i :: 0 <= i < |topics| ==> topics[i].completionStatus
    ensures CompletionPercent(topics) == Some(100)
  {
    Seqs.CountAll((t: Topic) => t.completionStatus, topics);
  }

  /** Marks the first quiz entry with this id as completed
      (`'quizzes.$.completed': true`). */
  function MarkQuizCompleted(quizzes: seq<PathQuiz>, quizId: string): (r: seq<PathQuiz>)
    ensures |r| == |quizzes|
    ensures forall k :: 0 <= k < |r| ==> r[k].quizId == quizzes[k].quizId
    ensures forall k :: 0 <= k < |r| && r[k] != quizzes[k] ==>
              r[k].completed && quizzes[k].quizId == quizId &&
              forall j :: 0 <= j < k ==> quizzes[j].quizId != quizId
    ensures forall k :: (0 <= k < |r| && quizzes[k].quizId == quizId &&
              forall j :: 0 <= j < k ==> quizzes[j].quizId != quizId) ==> r[k].completed
  {
    var k := Seqs.FindFrom((q: PathQuiz) => q.quizId == quizId, quizzes, 0);
    if k == -1 then quizzes else quizzes[k := quizzes[k].(completed := true)]
  }

  /** The path after a graded LearningPathQuiz submission, and whether the
      user's completed-course count is incremented. */
  datatype PathCredit = PathCredit(path: LearningPath, courseCompleted: bool)

  /** The updates of the submission on the learning path that links the quiz:
      the quiz entry is completed, the score and points are credited, the
      completion percentage is recomputed, and reaching 100 dates the course
      and counts it as completed. */
  function CreditPath(path: LearningPath, quizId: string, score: int, now: int): (c: PathCredit)
    ensures c.path.topics == path.topics && c.path.courseName == path.courseName
    ensures c.path.quizzes == MarkQuizCompleted(path.quizzes, quizId)
    ensures c.path.courseScore == path.courseScore + score
    ensures c.path.points == Some(path.points.GetOr(0) + 10 * score)
    ensures c.courseCompleted <==> CompletionPercent(path.topics) == Some(100)
    ensures c.courseCompleted ==> c.path.courseCompletionDate == Some(now)
    ensures !c.courseCompleted ==> c.path.courseCompletionDate == path.courseCompletionDate
    ensures c.path.courseCompletionStatus ==
              (if |path.topics| == 0 then path.courseCompletionStatus else CompletionPercent(path.topics).value)
  {
    var credited := path.(quizzes := MarkQuizCompleted(path.quizzes, quizId),
                          courseScore := path.courseScore + score,
                          points := Some(path.points.GetOr(0) + 10 * score));
    match CompletionPercent(path.topics)
    case None => PathCredit(credited, false)
    case Some(p) =>
      if p == 100 then
        PathCredit(credited.(courseCompletionStatus := 100, courseCompletionDate := Some(now)), true)
      else PathCredit(credited.(courseCompletionStatus := p), false)
  }

  // ---------------------------------------------------------------------
  // Daily quiz time bonus and leaderboard
  // ---------------------------------------------------------------------

  /** The bonus for finishing a daily quiz `hours` after it was created:
      10 within six hours, then falling by 10/6 an hour down to 0. */
  function DailyBonus(hours: real): (b: real)
    ensures 0.0 <= b <= 10.0
    ensures b == 10.0 <==> hours <= 6.0
    ensures b == 0.0 <==> hours >= 12.0
    ensures 6.0 < hours < 12.0 ==> b + (hours - 6.0) * 10.0 / 6.0 == 10.0
  {
    if hours <= 6.0 then 10.0
    else
      var falling := 10.0 - (hours - 6.0) * 10.0 / 6.0;
      if falling > 0.0 then falling else 0.0
  }

  /** A later submission never earns a larger bonus. */
  lemma DailyBonusMonotone(h1: real, h2: real)
    requires h1 <= h2
    ensures DailyBonus(h2) <= DailyBonus(h1)
  {
  }

  /** A finished daily-quiz submission as the leaderboard query returns it,
      already ordered by score (descending) then completion time. */
  datatype Submission = Submission(username: Option<string>, leaderboardScore: real,
                                   quizScore: int, completedTime: int)

  datatype BoardEntry = BoardEntry(rank: int, username: string, leaderboardScore: real,
                                   quizScore: int, completedTime: int)

  /** `submission.userId?.username || 'Anonymous'` */
  function DisplayName(u: Option<string>): (n: string)
    ensures n != ""
    ensures u.Some? && u.value != "" ==> n == u.value
  {
    if u.Some? && u.value != "" then u.value else "Anonymous"
  }

  /** `getLeaderboard`: the first ten submissions, ranked 1, 2, ... in
      query order. Without a daily quiz for today the request fails. */
  function Leaderboard(dailyQuizExists: bool, subs: seq<Submission>): (r: Result<seq<BoardEntry>, string>)
    ensures r.Err? <==> !dailyQuizExists
    ensures r.Err? ==> r.error == "No daily quiz available"
    ensures r.Ok? ==> |r.value| == (if |subs| < 10 then |subs| else 10)
    ensures r.Ok? ==> forall i :: 0 <= i < |r.value| ==>
              r.value[i].rank == i + 1 &&
              r.value[i].username == DisplayName(subs[i].username) &&
              r.value[i].leaderboardScore == subs[i].leaderboardScore &&
              r.value[i].quizScore == subs[i].quizScore &&
              r.value[i].completedTime == subs[i].completedTime
  {
    if !dailyQuizExists then Err("No daily quiz available")
    else Ok(RankFrom(Seqs.Take(subs, 10), 0))
  }

  function RankFrom(subs: seq<Submission>, i: nat): (r: seq<BoardEntry>)
    requires i <= |subs|
    ensures |r| == |subs| - i
    ensures forall k :: 0 <= k < |r| ==>
              r[k] == BoardEntry(i + k + 1, DisplayName(subs[i + k].username),
                                 subs[i + k].leaderboardScore, subs[i + k].quizScore,
                                 subs[i + k].completedTime)
    decreases |subs| - i
  {
    if i == |subs| then []
    else
      [BoardEntry(i + 1, DisplayName(subs[i].username), subs[i].leaderboardScore,
                  subs[i].quizScore, subs[i].completedTime)] + RankFrom(subs, i + 1)
  }

  /** Submissions ordered as the query sorts them. */
  predicate BoardOrdered(scores: seq<(real, int)>)
  {
    forall i, j :: 0 <= i < j < |scores| ==>
      scores[i].0 > scores[j].0 || (scores[i].0 == scores[j].0 && scores[i].1 <= scores[j].1)
  }

  /** Ranks follow the query order: a better rank never has a lower score. */
  lemma LeaderboardRanksFollowScores(subs: seq<Submission>)
    requires BoardOrdered(seq(|subs|, i requires 0 <= i < |subs| => (subs[i].leaderboardScore, subs[i].completedTime)))
    ensures var b := Leaderboard(true, subs).value;
            forall i, j :: 0 <= i < j < |b| ==>
              b[i].rank < b[j].rank && b[i].leaderboardScore >= b[j].leaderboardScore
  {
    var key := seq(|subs|, i requires 0 <= i < |subs| => (subs[i].leaderboardScore, subs[i].completedTime));
    var b := Leaderboard(true, subs).value;
    forall i, j | 0 <= i < j < |b|
      ensures b[i].rank < b[j].rank && b[i].leaderboardScore >= b[j].leaderboardScore
    {
      assert key[i].0 == subs[i].leaderboardScore && key[j].0 == subs[j].leaderboardScore;
    }
  }

  // ---------------------------------------------------------------------
  // learningController.submitQuiz
  // ---------------------------------------------------------------------

  /** The own properties that `{ ...response }` copies; only object responses
      are modelled as having any. */
  function SpreadFields(j: Json): map<string, Json>
  {
    if j.JObj? then j.fields else map[]
  }

  /** `{ ...response, isCorrect, marksObtained, feedback }` */
  function SpreadResponse(q: Question, response: Json): (r: Json)
    ensures r.JObj?
    ensures forall k :: (k in SpreadFields(response) && k != "isCorrect" && k != "marksObtained" &&
              k != "feedback") ==> k in r.fields && r.fields[k] == SpreadFields(response)[k]
    ensures forall k :: k in r.fields ==>
              k in SpreadFields(response) || k == "isCorrect" || k == "marksObtained" || k == "feedback"
    ensures Get(r, "isCorrect") == JBool(IsCorrect(q, response))
    ensures Get(r, "marksObtained") == JNum(MarksObtained(q, response))
    ensures Get(r, "feedback") == JStr(Feedback(q, IsCorrect(q, response)))
  {
    var correct := IsCorrect(q, response);
    JObj(SpreadFields(response)["isCorrect" := JBool(correct)]
                               ["marksObtained" := JNum(MarksObtained(q, response))]
                               ["feedback" := JStr(Feedback(q, correct))])
  }

  /** `quiz.questions.length * 0.7 * (quiz.questions[0]?.marks || 1)`, the
      learning controller's pass mark, in exact arithmetic. */
  predicate PassesFirstQuestionRule(score: int, qs: seq<Question>)
  {
    var m := if |qs| > 0 && qs[0].marks != 0 then qs[0].marks else 1;
    10 * score >= 7 * |qs| * m
  }

  /** When every question carries the same marks, the learning controller's
      pass mark is the quiz controller's. */
  lemma EqualMarksRulesAgree(score: int, qs: seq<Question>, m: int)
    requires m >= 1 && forall k :: 0 <= k < |qs| ==> qs[k].marks == m
    ensures PassesFirstQuestionRule(score, qs) <==> ResultFor(score, TotalPossible(qs)) == Pass
  {
    EqualMarksTotal(qs, m);
  }

  lemma {:induction false} EqualMarksTotal(qs: seq<Question>, m: int)
    requires forall k :: 0 <= k < |qs| ==> qs[k].marks == m
    ensures TotalPossible(qs) == |qs| * m
  {
    if |qs| > 0 {
      EqualMarksTotal(qs[..|qs| - 1], m);
    }
  }

  /** With marks 3 and 1, a perfect sheet scores 4 but the first-question
      rule asks for 2 * 0.7 * 3 = 4.2, so it fails. */
  lemma FirstQuestionRuleFailsPerfectSheet()
    ensures var qs := [Question("a", ["a", "b", "c", "d"], "a", "MCQ", 3, ""),
                       Question("b", ["a", "b", "c", "d"], "b", "MCQ", 1, "")];
            var rs := [JObj(map["selectedOption" := JStr("a")]), JObj(map["selectedOption" := JStr("b")])];
            (forall k :: 0 <= k < 2 ==> ValidQuestion(qs[k]) && IsCorrect(qs[k], rs[k])) &&
            TotalObtained(qs, rs) == TotalPossible(qs) == 4 &&
            !PassesFirstQuestionRule(TotalObtained(qs, rs), qs)
  {
    var qs := [Question("a", ["a", "b", "c", "d"], "a", "MCQ", 3, ""),
               Question("b", ["a", "b", "c", "d"], "b", "MCQ", 1, "")];
    var rs := [JObj(map["selectedOption" := JStr("a")]), JObj(map["selectedOption" := JStr("b")])];
    assert IsCorrect(qs[0], rs[0]) && IsCorrect(qs[1], rs[1]);
    assert rs[..1] == [rs[0]] && qs[..1] == [qs[0]];
    assert TotalObtained(qs, rs[..1]) == 3;
  }

  datatype LearningSubmitError =
    | ResponsesRequired
    | QuizMissing
    | LearningGradingFailed(reason: GradeError)

  function LearningSubmitErrorMessage(e: LearningSubmitError): string
  {
    match e
    case ResponsesRequired => "quizId and responses array are required"
    case QuizMissing => "Quiz not found"
    case LearningGradingFailed(InvalidQuestionIndex(i)) => IndexErrorMessage(i)
    case LearningGradingFailed(NullishResponse(_)) => "Cannot read properties of null"
  }

  /** The update the learning controller writes. */
  datatype LearningGraded = LearningGraded(responses: seq<Json>, quizScore: int, quizResult: QuizResult)

  predicate LearningFieldsPresent(body: Json)
  {
    Truthy(Get(body, "quizId")) && Get(body, "responses").JArr?
  }

  /** The learning controller's `submitQuiz`: the same per-answer grading,
      each response kept with the grading fields added, and the
      first-question pass mark. `found` holds the questions of the quiz the
      lookup returned. */
  function LearningSubmitQuiz(body: Json, found: Option<seq<Question>>)
    : (r: Result<LearningGraded, LearningSubmitError>)
    ensures r == Err(ResponsesRequired) <==> !LearningFieldsPresent(body)
    ensures r == Err(QuizMissing) <==> LearningFieldsPresent(body) && found.None?
    ensures r.Err? && r.error.LearningGradingFailed? ==>
              found.Some? && var rs := Get(body, "responses").items;
              var k := r.error.reason.index;
              k < |rs| && BadAt(found.value, rs, k) && forall j :: 0 <= j < k ==> !BadAt(found.value, rs, j)
    ensures r.Ok? ==>
              found.Some? && var rs := Get(body, "responses").items;
              |rs| <= |found.value| && |r.value.responses| == |rs| &&
              (forall k :: 0 <= k < |rs| ==> r.value.responses[k] == SpreadResponse(found.value[k], rs[k])) &&
              r.value.quizScore == TotalObtained(found.value, rs) &&
              (r.value.quizResult == Pass <==> PassesFirstQuestionRule(r.value.quizScore, found.value)) &&
              r.value.quizResult != Pending
  {
    if !LearningFieldsPresent(body) then Err(ResponsesRequired)
    else if found.None? then Err(QuizMissing)
    else
      var qs := found.value;
      var rs := Get(body, "responses").items;
      match GradeFrom(qs, rs, SpreadResponse, 0)
      case Err(e) => Err(LearningGradingFailed(e))
      case Ok(ps) =>
        var score := TotalObtained(qs, rs);
        Ok(LearningGraded(ps, score, if PassesFirstQuestionRule(score, qs) then Pass else Fail))
  }

  /** The learning controller's `submitQuiz` with the pass mark it evidently
      intends: 70% of the marks the quiz offers, as the quiz controller
      computes it. Everything else is as written. */
  function LearningSubmitQuizCorrected(body: Json, found: Option<seq<Question>>)
    : (r: Result<LearningGraded, LearningSubmitError>)
    ensures r.Err? <==> LearningSubmitQuiz(body, found).Err?
    ensures r.Err? ==> r == LearningSubmitQuiz(body, found)
    ensures r.Ok? ==>
              found.Some? &&
              r.value.responses == LearningSubmitQuiz(body, found).value.responses &&
              r.value.quizScore == LearningSubmitQuiz(body, found).value.quizScore &&
              r.value.quizResult == ResultFor(r.value.quizScore, TotalPossible(found.value))
  {
    match LearningSubmitQuiz(body, found)
    case Err(e) => Err(e)
    case Ok(g) => Ok(g.(quizResult := ResultFor(g.quizScore, TotalPossible(found.value))))
  }

  /** With the corrected pass mark, a sheet that answers every question of
      the quiz correctly passes, whatever the marks of its questions. */
  lemma CorrectedLearningPerfectSheetPasses(body: Json, qs: seq<Question>)
    requires NonNegativeMarks(qs)
    requires LearningSubmitQuizCorrected(body, Some(qs)).Ok?
    requires |Get(body, "responses").items| == |qs|
    requires forall k :: 0 <= k < |qs| ==> IsCorrect(qs[k], Get(body, "responses").items[k])
    ensures LearningSubmitQuizCorrected(body, Some(qs)).value.quizResult == Pass
  {
    PerfectScorePasses(qs, Get(body, "responses").items);
  }
}

=== FILE: json.dfy ===
/** JSON values as JavaScript sees them after `JSON.parse` or in a request
    body, with the `typeof`, truthiness and property-access rules that the
    controllers and sanitisers use to inspect them.
 */
module Json {
  import opened Wrappers
  import Text

  /** `Undefined` is what a missing property reads as. Numbers carry integers
      only: fractional JSON numbers are not modelled. */
  datatype Json =
    | Undefined
    | Null
    | JBool(b: bool)
    | JNum(n: int)
    | JStr(s: string)
    | JArr(items: seq<Json>)
    | JObj(fields: map<string, Json>)

  /** Reading a property of `null` or `undefined` throws a TypeError. */
  predicate IsNullish(j: Json)
  {
    j.Undefined? || j.Null?
  }

  /** `j[key]` on a value that is not nullish. */
  function Get(j: Json, key: string): Json
  {
    if j.JObj? && key in j.fields then j.fields[key] else Undefined
  }

  /** JavaScript truthiness. */
  predicate Truthy(j: Json)
  {
    match j
    case Undefined => false
    case Null => false
    case JBool(b) => b
    case JNum(n) => n != 0
    case JStr(s) => s != ""
    case JArr(_) => true
    case JObj(_) => true
  }

  predicate IsString(j: Json) { j.JStr? }
  predicate IsNumber(j: Json) { j.JNum? }
  predicate IsArray(j: Json) { j.JArr? }

  /** `typeof j[key] === 'string'`, for a non-nullish `j`. */
  predicate HasString(j: Json, key: string)
  {
    Get(j, key).JStr?
  }

  /** The names `Object.prototype` provides. Looking one of them up on a
      plain object literal that lacks it as an own key finds the built-in
      (a function, or for `__proto__` the prototype itself), which is
      truthy. */
  predicate Inherited(k: string)
  {
    k in {"constructor", "__defineGetter__", "__defineSetter__", "hasOwnProperty",
          "__lookupGetter__", "__lookupSetter__", "isPrototypeOf", "propertyIsEnumerable",
          "toString", "valueOf", "__proto__", "toLocaleString"}
  }

  /** `String(v)`: the text a value becomes as a property key, in a
      template or before `Number` reads an array. */
  function ToText(v: Json): string
    decreases v
  {
    match v
    case Undefined => "undefined"
    case Null => "null"
    case JBool(b) => if b then "true" else "false"
    case JNum(n) => Text.IntToString(n)
    case JStr(s) => s
    case JArr(items) => JoinItems(items)
    case JObj(_) => "[object Object]"
  }

  /** `Array.prototype.join(',')`, where `null` and `undefined` entries
      print as nothing. */
  function JoinItems(items: seq<Json>): string
    decreases items
  {
    if items == [] then ""
    else
      var head := if IsNullish(items[0]) then "" else ToText(items[0]);
      if |items| == 1 then head else head + "," + JoinItems(items[1..])
  }

  /** `Number(s)` for a string: optional surrounding white space around
      decimal digits, with white space alone reading as 0; signs,
      fractions, exponents and hexadecimal are read as NaN (`None`). */
  function StringToNumber(s: string): (r: Option<int>)
    ensures r.Some? ==> r.value >= 0
    ensures r.Some? <==> Text.IsBlank(s) || Text.AllDigits(Text.Trim(s))
  {
    var t := Text.Trim(s);
    if t == "" then Some(0)
    else if Text.AllDigits(t) then Some(Text.DecimalValue(t))
    else None
  }

  /** `Number(j)` as used by `isNaN` and `<=`; `None` stands for NaN.
      An array is read through its text, so `[5]` reads as 5 and `[]` as 0;
      any other object reads as NaN. */
  function ToNumber(j: Json): Option<int>
  {
    match j
    case Undefined => None
    case Null => Some(0)
    case JBool(b) => Some(if b then 1 else 0)
    case JNum(n) => Some(n)
    case JStr(s) => StringToNumber(s)
    case JArr(items) => StringToNumber(JoinItems(items))
    case JObj(_) => None
  }

  /** An array holding one string or one non-negative number reads as that
      element does. */
  lemma SingletonArrayReadsAsItsElement(x: Json)
    requires x.JStr? || (x.JNum? && x.n >= 0)
    ensures ToNumber(JArr([x])) == ToNumber(x)
  {
    if x.JNum? {
      var t := Text.NatToString(x.n);
      assert JoinItems([x]) == ToText(x) == t;
      assert Text.IsDigit(t[0]) && Text.IsDigit(t[|t| - 1]);
      Text.TrimmedAlready(t);
      Text.NatToStringRoundTrip(x.n);
      assert StringToNumber(t) == Some(x.n);
    } else {
      assert JoinItems([x]) == x.s;
    }
  }
}

=== FILE: learnflow.dfy ===
/** The learning-path page: marking the current topic complete, deciding
    between a quiz and the next topic, and choosing where to go after a
    quiz.

    The page sends its edited topic list to the server and then acts on the
    topic list the server answers with; that answer is a parameter here.
    Topics are JSON values, so that a missing or `null` topic has the
    behaviour the page gives it.
 */
module LearnFlow {
  import opened Wrappers
  import opened Json
  import Seqs
  import Grading
  import QuizSession

  predicate Completed(t: Json)
  {
    Truthy(Get(t, "completionStatus"))
  }

  predicate AnyNullish(ts: seq<Json>)
  {
    exists i :: 0 <= i < |ts| && IsNullish(ts[i])
  }

  // ---------------------------------------------------------------------
  // markSubtopicComplete
  // ---------------------------------------------------------------------

  /** `{ ...topic, completionStatus: true, completionDate: now }` */
  function MarkedTopic(topic: Json, now: Json): (r: Json)
    ensures Completed(r)
    ensures Get(r, "completionStatus") == JBool(true) && Get(r, "completionDate") == now
    ensures forall k :: k != "completionStatus" && k != "completionDate" ==>
              Get(r, k) == if topic.JObj? then Get(topic, k) else Undefined
  {
    JObj(Grading.SpreadFields(topic)["completionStatus" := JBool(true)]["completionDate" := now])
  }

  /** The topic list the page sends: the current topic marked, everything
      else as it was. A current index past the end grows the array; its
      holes are sent as `null`. */
  function CompletionPayload(topics: seq<Json>, current: nat, now: Json): (r: seq<Json>)
    ensures |r| == if current < |topics| then |topics| else current + 1
    ensures forall k :: 0 <= k < |topics| && k != current ==> r[k] == topics[k]
    ensures forall k :: |topics| <= k < current ==> r[k] == Null
    ensures r[current] == MarkedTopic(if current < |topics| then topics[current] else Undefined, now)
  {
    if current < |topics| then topics[current := MarkedTopic(topics[current], now)]
    else topics + seq(current - |topics|, k => Null) + [MarkedTopic(Undefined, now)]
  }

  /** When the server stores the list as sent, marking an unfinished topic
      completes exactly one more topic, and marking a finished one none. */
  lemma EchoedCompletionCountsOnce(topics: seq<Json>, current: nat, now: Json)
    requires current < |topics|
    ensures var after := CompletionPayload(topics, current, now);
            Seqs.Count(Completed, after) ==
              Seqs.Count(Completed, topics) + (if Completed(topics[current]) then 0 else 1)
  {
    var after := CompletionPayload(topics, current, now);
    var pre := topics[..current];
    var post := topics[current + 1..];
    assert topics == pre + [topics[current]] + post;
    assert after == pre + [after[current]] + post;
    Seqs.CountAppend(Completed, pre + [topics[current]], post);
    Seqs.CountAppend(Completed, pre, [topics[current]]);
    Seqs.CountAppend(Completed, pre + [after[current]], post);
    Seqs.CountAppend(Completed, pre, [after[current]]);
  }

  /** Scanning for an unfinished topic from `from` on: `findIndex` touches
      each topic in turn, so a `null` topic met before an unfinished one
      throws. */
  datatype Scan = Found(index: nat) | NotFound | Threw

  function FirstIncompleteFrom(ts: seq<Json>, from: nat): (r: Scan)
    ensures r.Found? ==>
              from <= r.index < |ts| && !IsNullish(ts[r.index]) && !Completed(ts[r.index]) &&
              forall k :: from <= k < r.index ==> !IsNullish(ts[k]) && Completed(ts[k])
    ensures r.NotFound? ==> forall k :: from <= k < |ts| ==> !IsNullish(ts[k]) && Completed(ts[k])
    ensures r.Threw? ==> exists k :: from <= k < |ts| && IsNullish(ts[k])
    decreases |ts| - from
  {
    if from >= |ts| then NotFound
    else if IsNullish(ts[from]) then Threw
    else if !Completed(ts[from]) then Found(from)
    else FirstIncompleteFrom(ts, from + 1)
  }

  /** What the page does once the server has stored the completion. */
  datatype Step = TakeQuiz(subtopicNames: seq<Json>) | MoveTo(index: nat) | Failed

  /** The names of the last (at most three) of the given topics, in order. */
  function LastThreeNames(done: seq<Json>): (r: seq<Json>)
    ensures |r| == (if |done| < 3 then |done| else 3)
    ensures forall k :: 0 <= k < |r| ==> r[k] == Get(done[|done| - |r| + k], "topicName")
  {
    var last := Seqs.LastN(done, 3);
    var names := TopicNames(last);
    forall k | 0 <= k < |names|
      ensures names[k] == Get(done[|done| - |names| + k], "topicName")
    {
      assert last[k] == done[|done| - |last| + k];
    }
    names
  }

  /** The names of the last (at most three) completed topics. */
  function QuizSubtopics(updated: seq<Json>): seq<Json>
  {
    LastThreeNames(Seqs.Filter(Completed, updated))
  }

  /** The next topic after a completion that does not lead to a quiz: the
      first unfinished topic after the current one, or the one after it. */
  function NextTopic(updated: seq<Json>, current: nat): (r: nat)
    requires !AnyNullish(updated)
    ensures current < r
    ensures (r < |updated| && !Completed(updated[r]) &&
             forall k :: current < k < r ==> Completed(updated[k])) ||
            (r == current + 1 && forall k :: current < k < |updated| ==> Completed(updated[k]))
  {
    match FirstIncompleteFrom(updated, current + 1)
    case Found(j) => j
    case _ => current + 1
  }

  /** A quiz after every third completed topic and after the last one;
      otherwise the next topic. Reading a field of a `null` topic throws. */
  function AfterCompletion(updated: seq<Json>, current: nat): (r: Step)
    ensures r.Failed? <==> AnyNullish(updated)
    ensures r.TakeQuiz? <==>
              !AnyNullish(updated) &&
              (Seqs.Count(Completed, updated) % 3 == 0 || Seqs.Count(Completed, updated) == |updated|)
    ensures r.TakeQuiz? ==> r.subtopicNames == QuizSubtopics(updated)
    ensures r.MoveTo? ==> r.index == NextTopic(updated, current)
  {
    if AnyNullish(updated) then Failed
    else
      var c := Seqs.Count(Completed, updated);
      if c % 3 == 0 || c == |updated| then TakeQuiz(QuizSubtopics(updated))
      else MoveTo(NextTopic(updated, current))
  }

  /** Completing the last unfinished topic of a path always leads to a
      quiz. */
  lemma {:induction false} FinishingThePathTriggersQuiz(updated: seq<Json>, current: nat)
    requires forall i :: 0 <= i < |updated| ==> Completed(updated[i])
    ensures AfterCompletion(updated, current).TakeQuiz?
  {
    Seqs.CountAll(Completed, updated);
  }

  /** `ts.map(t => t.topicName)` */
  function TopicNames(ts: seq<Json>): (r: seq<Json>)
    ensures |r| == |ts|
    ensures forall k :: 0 <= k < |ts| ==> r[k] == Get(ts[k], "topicName")
  {
    if |ts| == 0 then [] else [Get(ts[0], "topicName")] + TopicNames(ts[1..])
  }

  /** Every subtopic sent to the quiz is the name of a completed topic of
      the path. */
  lemma QuizNamesCompletedTopics(updated: seq<Json>, current: nat, k: nat)
    requires AfterCompletion(updated, current).TakeQuiz?
    requires k < |AfterCompletion(updated, current).subtopicNames|
    ensures exists i :: 0 <= i < |updated| && Completed(updated[i]) &&
              AfterCompletion(updated, current).subtopicNames[k] == Get(updated[i], "topicName")
  {
    var done := Seqs.Filter(Completed, updated);
    var names := LastThreeNames(done);
    var t := done[|done| - |names| + k];
    assert t in done;
    var i :| 0 <= i < |updated| && updated[i] == t;
    assert Completed(updated[i]);
  }

  // ---------------------------------------------------------------------
  // After a quiz
  // ---------------------------------------------------------------------

  /** The topic shown after a quiz: the first unfinished topic after the
      current one, else the next one if there is one, else the current one
      (also when a `null` topic makes the scan throw). */
  function AfterQuiz(updated: seq<Json>, current: nat): (r: nat)
    ensures current <= r
    ensures r == current || r < |updated|
    ensures r > current + 1 ==> !Completed(updated[r]) && forall k :: current < k < r ==> Completed(updated[k])
    ensures !AnyNullish(updated) && current + 1 < |updated| ==> r > current
  {
    match FirstIncompleteFrom(updated, current + 1)
    case Found(j) => j
    case NotFound => if current + 1 < |updated| then current + 1 else current
    case Threw => current
  }

  /** Without `null` topics the page lands on an unfinished topic whenever
      one follows the current one. */
  lemma AfterQuizFindsUnfinished(updated: seq<Json>, current: nat, j: nat)
    requires !AnyNullish(updated)
    requires current < j < |updated| && !Completed(updated[j])
    ensures var r := AfterQuiz(updated, current);
            current < r <= j && !Completed(updated[r])
  {
    assert !IsNullish(updated[j]);
  }

  // ---------------------------------------------------------------------
  // Starting a quiz
  // ---------------------------------------------------------------------

  /** `new Array(quiz.questions.length).fill(null)`. Reading the length of a
      `null` list throws; a negative length is a range error; a value that
      is not a number makes a one-element array. */
  function StartResponses(questions: Json): (r: Option<seq<QuizSession.Slot>>)
    ensures questions.JArr? ==> r == Some(QuizSession.NullResponses(|questions.items|))
    ensures IsNullish(questions) ==> r.None?
    ensures r.Some? ==> forall i :: 0 <= i < |r.value| ==> r.value[i] == QuizSession.Value(Null)
  {
    var length := match questions
      case JArr(items) => JNum(|items|)
      case JStr(s) => JNum(|s|)
      case JObj(_) => Get(questions, "length")
      case _ => Undefined;
    if IsNullish(questions) then None
    else match length
      case JNum(n) => if n >= 0 then Some(QuizSession.NullResponses(n)) else None
      case _ => Some(QuizSession.NullResponses(1))
  }
}

=== FILE: llm.dfy ===
/** Sanitising the text a language model returns before it is trusted:
    `cleanJsonResponse` (defined identically in both AI service files) and
    the shape check applied to every generated quiz question.

    `JSON.parse` itself is abstract: its result is an `Option<Json>`, with
    `None` for text that does not parse.
 */
module LlmOutput {
  import opened Wrappers
  import opened Json
  import Text
  import Seqs

  // ---------------------------------------------------------------------
  // cleanJsonResponse
  // ---------------------------------------------------------------------

  /** The first index at or after `from` where `needle` occurs, or -1. */
  function FindText(s: string, needle: string, from: nat): (r: int)
    ensures r == -1 <==> forall i :: from <= i <= |s| ==> !Text.OccursAt(s, needle, i)
    ensures r != -1 ==> from <= r <= |s| && Text.OccursAt(s, needle, r) &&
                        forall i :: from <= i < r ==> !Text.OccursAt(s, needle, i)
    decreases |s| - from
  {
    if from > |s| then -1
    else if Text.OccursAt(s, needle, from) then from
    else FindText(s, needle, from + 1)
  }

  /** The end of the run of white space starting at `i`. */
  function SpaceRunEnd(s: string, i: nat): (r: nat)
    requires i <= |s|
    ensures i <= r <= |s|
    ensures forall k :: i <= k < r ==> Text.IsSpace(s[k])
    ensures r == |s| || !Text.IsSpace(s[r])
    decreases |s| - i
  {
    if i == |s| || !Text.IsSpace(s[i]) then i else SpaceRunEnd(s, i + 1)
  }

  /** `replace(/```json\s*\n?/, '')`: the first opening fence and the white
      space after it are removed. */
  function StripOpeningFence(s: string): (r: string)
    ensures FindText(s, "```json", 0) == -1 ==> r == s
    ensures FindText(s, "```json", 0) != -1 ==>
              var i := FindText(s, "```json", 0);
              r == s[..i] + s[SpaceRunEnd(s, i + 7)..]
  {
    var i := FindText(s, "```json", 0);
    if i == -1 then s else s[..i] + s[SpaceRunEnd(s, i + 7)..]
  }

  /** A closing fence at `i`: three backquotes followed by nothing but white
      space up to the end. */
  predicate ClosingFenceAt(s: string, i: nat)
  {
    Text.OccursAt(s, "```", i) && forall k :: i + 3 <= k < |s| ==> Text.IsSpace(s[k])
  }

  function FindClosingFence(s: string, from: nat): (r: int)
    ensures r == -1 <==> forall i :: from <= i <= |s| ==> !ClosingFenceAt(s, i)
    ensures r != -1 ==> from <= r <= |s| - 3 && ClosingFenceAt(s, r) &&
                        forall i :: from <= i < r ==> !ClosingFenceAt(s, i)
    decreases |s| - from
  {
    if from > |s| then -1
    else if ClosingFenceAt(s, from) then from
    else FindClosingFence(s, from + 1)
  }

  /** `replace(/```\s*$/, '')`: a closing fence at the end is removed with
      the white space after it. */
  function StripClosingFence(s: string): (r: string)
    ensures FindClosingFence(s, 0) == -1 ==> r == s
    ensures FindClosingFence(s, 0) != -1 ==> r == s[..FindClosingFence(s, 0)]
  {
    var i := FindClosingFence(s, 0);
    if i == -1 then s else s[..i]
  }

  predicate NotNewline(c: char) { c != '\n' }

  /** `replace(/\n/g, '')` */
  function RemoveNewlines(s: string): (r: string)
    ensures forall k :: 0 <= k < |r| ==> r[k] != '\n'
    ensures |r| <= |s|
  {
    Seqs.Filter(NotNewline, s)
  }

  /** `cleanJsonResponse`: fences stripped, the text trimmed and every line
      break removed. */
  function CleanJson(raw: string): (r: string)
    ensures forall k :: 0 <= k < |r| ==> r[k] != '\n'
    ensures |r| > 0 ==> !Text.IsSpace(r[0]) && !Text.IsSpace(r[|r| - 1])
  {
    var t := Text.Trim(StripClosingFence(StripOpeningFence(raw)));
    TrimmedTextKeepsEnds(t);
    RemoveNewlines(t)
  }

  lemma TrimmedTextKeepsEnds(t: string)
    requires |t| > 0 ==> !Text.IsSpace(t[0]) && !Text.IsSpace(t[|t| - 1])
    ensures var r := RemoveNewlines(t);
            |r| > 0 ==> !Text.IsSpace(r[0]) && !Text.IsSpace(r[|r| - 1])
  {
    if |RemoveNewlines(t)| > 0 {
      RemovingNewlinesKeepsEnds(t);
    }
  }

  /** A trimmed text has no white space at its ends, so dropping its line
      breaks leaves its first and last characters in place. */
  lemma RemovingNewlinesKeepsEnds(t: string)
    requires |t| > 0 ==> !Text.IsSpace(t[0]) && !Text.IsSpace(t[|t| - 1])
    requires |RemoveNewlines(t)| > 0
    ensures RemoveNewlines(t)[0] == t[0]
    ensures RemoveNewlines(t)[|RemoveNewlines(t)| - 1] == t[|t| - 1]
  {
    assert |t| > 0;
    assert t == [t[0]] + t[1..];
    assert t == t[..|t| - 1] + [t[|t| - 1]];
    Seqs.FilterAppend(NotNewline, t[..|t| - 1], [t[|t| - 1]]);
  }

  /** A payload with no line break and no white space at its ends, wrapped
      in a ```json fence the way the model usually answers, comes back
      exactly. */
  lemma CleanJsonUnwrapsFence(payload: string)
    requires forall k :: 0 <= k < |payload| ==> payload[k] != '\n'
    requires |payload| > 0 ==> !Text.IsSpace(payload[0]) && !Text.IsSpace(payload[|payload| - 1])
    ensures CleanJson("```json\n" + payload + "\n```") == payload
  {
    var raw := "```json\n" + payload + "\n```";
    OpeningFenceStripped(payload);
    if |payload| == 0 {
      assert StripOpeningFence(raw) == "```";
      assert FindClosingFence("```", 0) == 0;
      assert StripClosingFence("```") == "";
    } else {
      ClosingFenceStripped(payload);
      TrimDropsFinalNewline(payload);
      Seqs.FilterAllPass(NotNewline, payload);
    }
  }

  /** The opening fence goes with the line break after it. */
  lemma OpeningFenceStripped(payload: string)
    requires |payload| > 0 ==> !Text.IsSpace(payload[0])
    ensures StripOpeningFence("```json\n" + payload + "\n```") ==
              if |payload| == 0 then "```" else payload + "\n```"
  {
    var raw := "```json\n" + payload + "\n```";
    assert raw[..7] == "```json";
    assert FindText(raw, "```json", 0) == 0;
    if |payload| == 0 {
      assert raw[8] == '\n' && raw[9] == '`';
      assert SpaceRunEnd(raw, 7) == 9;
      assert raw[9..] == "```";
    } else {
      assert raw[8] == payload[0];
      assert SpaceRunEnd(raw, 7) == 8;
      assert raw[8..] == payload + "\n```";
    }
  }

  /** The closing fence at the very end goes; the line break before it
      stays. */
  lemma ClosingFenceStripped(payload: string)
    ensures StripClosingFence(payload + "\n```") == payload + "\n"
  {
    var u := payload + "\n```";
    var n := |payload| + 1;
    assert u[n..n + 3] == "```";
    assert ClosingFenceAt(u, n);
    assert u[|u| - 1] == '`';
    forall i | 0 <= i < n
      ensures !ClosingFenceAt(u, i)
    {
      assert i + 3 <= |u| - 1;
    }
    assert FindClosingFence(u, 0) == n;
    assert u[..n] == payload + "\n";
  }

  /** Trimming a text with no white space at its ends after a line break
      was added gives the text back. */
  lemma TrimDropsFinalNewline(p: string)
    requires |p| > 0 ==> !Text.IsSpace(p[0]) && !Text.IsSpace(p[|p| - 1])
    ensures Text.Trim(p + "\n") == p
  {
    var s := p + "\n";
    if |p| == 0 {
      assert Text.TrimStart(s) == Text.TrimStart(s[1..]);
      assert s[1..] == "";
    } else {
      assert s[0] == p[0];
      assert Text.TrimStart(s) == s;
      assert s[..|s| - 1] == p;
      assert Text.TrimEnd(s) == Text.TrimEnd(p);
    }
  }

  // ---------------------------------------------------------------------
  // Generated questions
  // ---------------------------------------------------------------------

  /** The shape a generated question must have to be kept: string question,
      exactly four options that include the string `correctAnswer`, type
      'MCQ', numeric marks, a string explanation and, where the caller
      demands one, a string subtopic. */
  predicate WellFormedQuestion(q: Json, needsSubtopic: bool)
  {
    HasString(q, "question") &&
    Get(q, "options").JArr? && |Get(q, "options").items| == 4 &&
    HasString(q, "correctAnswer") &&
    Get(q, "correctAnswer") in Get(q, "options").items &&
    Get(q, "questionType") == JStr("MCQ") &&
    Get(q, "marks").JNum? &&
    HasString(q, "aiGeneratedExplanation") &&
    (needsSubtopic ==> HasString(q, "subtopic"))
  }

  /** The filter over generated questions. Reading a field of a `null`
      entry throws, which gives `None`. */
  function FilterQuestions(qs: seq<Json>, needsSubtopic: bool): (r: Option<seq<Json>>)
    ensures r.None? <==> exists i :: 0 <= i < |qs| && IsNullish(qs[i])
    ensures r.Some? ==> forall i :: 0 <= i < |r.value| ==> WellFormedQuestion(r.value[i], needsSubtopic)
    ensures r.Some? ==> forall q :: q in qs && WellFormedQuestion(q, needsSubtopic) ==> q in r.value
    ensures r.Some? ==> forall q :: q in r.value ==> q in qs
  {
    if exists i :: 0 <= i < |qs| && IsNullish(qs[i]) then None
    else Some(Seqs.Filter((q: Json) => WellFormedQuestion(q, needsSubtopic), qs))
  }

  /** The kept questions are the parsed ones with the malformed ones taken
      out, in their original order. */
  lemma FilterQuestionsKeepsOrder(qs: seq<Json>, needsSubtopic: bool)
    requires FilterQuestions(qs, needsSubtopic).Some?
    ensures Seqs.IsSubsequence(FilterQuestions(qs, needsSubtopic).value, qs)
  {
    Seqs.FilterIsSubsequence((q: Json) => WellFormedQuestion(q, needsSubtopic), qs);
  }

  /** A question that also names its subtopic passes the stricter check
      exactly when it passes the looser one. */
  lemma SubtopicCheckIsStricter(q: Json)
    ensures WellFormedQuestion(q, true) ==> WellFormedQuestion(q, false)
    ensures HasString(q, "subtopic") ==> (WellFormedQuestion(q, true) <==> WellFormedQuestion(q, false))
  {
  }
}

=== FILE: onboarding.dfy ===
/** The onboarding wizard: a welcome step, three questions (difficulty,
    learning style, daily study time) and a summary step that saves the
    answers as the user's preferences.

    The wizard is a pure state machine over the step and the three answers.
    Only the step is kept in browser storage; the answers live in the page
    and are lost on a reload.
 */
module Onboarding {
  import opened Wrappers
  import opened Json
  import Text
  import Schema
  import Profile

  /** `steps.length`: welcome, three questions, summary. */
  const StepCount: int := 5
  const LastStep: int := StepCount - 1

  const DifficultyOptions: seq<string> := ["Easy", "Medium", "Hard"]
  const StyleOptions: seq<string> := ["Visual", "Auditory", "Reading/Writing", "Kinesthetic"]
  const TimeOptions: seq<string> := ["15 mins", "30 mins", "60 mins", "90 mins", "120+ mins"]

  /** The page state; an empty string is an unanswered question. */
  datatype Wizard = Wizard(step: int, difficultyLevel: string, learningStyle: string, studyTime: string)

  function Initial(): Wizard
  {
    Wizard(0, "", "", "")
  }

  /** What a user can do: press a button shown on the current step. */
  datatype Event =
    | GetStarted
    | ChooseDifficulty(i: nat)
    | ChooseStyle(i: nat)
    | ChooseTime(i: nat)
    | Continue

  /** The buttons the current step shows: "Get Started" on the welcome step,
      one button per option on each question step, and "Continue" on the
      question steps only. */
  predicate Shown(w: Wizard, e: Event)
  {
    match e
    case GetStarted => w.step == 0
    case ChooseDifficulty(i) => w.step == 1 && i < |DifficultyOptions|
    case ChooseStyle(i) => w.step == 2 && i < |StyleOptions|
    case ChooseTime(i) => w.step == 3 && i < |TimeOptions|
    case Continue => 0 < w.step < LastStep
  }

  /** `handleNext`: the warning shown when the current question is
      unanswered. */
  function ContinueWarning(w: Wizard): (r: Option<string>)
    ensures r.Some? <==>
              (w.step == 1 && w.difficultyLevel == "") ||
              (w.step == 2 && w.learningStyle == "") ||
              (w.step == 3 && w.studyTime == "")
  {
    if w.step == 1 && w.difficultyLevel == "" then Some("Please select a difficulty level")
    else if w.step == 2 && w.learningStyle == "" then Some("Please select a learning style")
    else if w.step == 3 && w.studyTime == "" then Some("Please select your daily study time")
    else None
  }

  /** The state after an event; an event whose button is not on screen
      cannot happen and changes nothing. */
  function Apply(w: Wizard, e: Event): (r: Wizard)
    ensures !Shown(w, e) ==> r == w
    ensures e.Continue? && Shown(w, e) ==>
              r == (if ContinueWarning(w).Some? then w else w.(step := w.step + 1))
    ensures e.GetStarted? && Shown(w, e) ==> r == w.(step := 1)
    ensures e.ChooseDifficulty? && Shown(w, e) ==> r == w.(difficultyLevel := DifficultyOptions[e.i])
    ensures e.ChooseStyle? && Shown(w, e) ==> r == w.(learningStyle := StyleOptions[e.i])
    ensures e.ChooseTime? && Shown(w, e) ==> r == w.(studyTime := TimeOptions[e.i])
  {
    if !Shown(w, e) then w
    else match e
      case GetStarted => w.(step := 1)
      case ChooseDifficulty(i) => w.(difficultyLevel := DifficultyOptions[i])
      case ChooseStyle(i) => w.(learningStyle := StyleOptions[i])
      case ChooseTime(i) => w.(studyTime := TimeOptions[i])
      case Continue => if ContinueWarning(w).Some? then w else w.(step := w.step + 1)
  }

  function Run(w: Wizard, es: seq<Event>): Wizard
    decreases |es|
  {
    if |es| == 0 then w else Run(Apply(w, es[0]), es[1..])
  }

  /** What a wizard reached through its buttons looks like: a step of the
      list, answers from the option lists, and every question before the
      current step answered. */
  predicate Consistent(w: Wizard)
  {
    0 <= w.step <= LastStep &&
    (w.difficultyLevel == "" || w.difficultyLevel in DifficultyOptions) &&
    (w.learningStyle == "" || w.learningStyle in StyleOptions) &&
    (w.studyTime == "" || w.studyTime in TimeOptions) &&
    (w.step >= 2 ==> w.difficultyLevel != "") &&
    (w.step >= 3 ==> w.learningStyle != "") &&
    (w.step >= 4 ==> w.studyTime != "")
  }

  /** Every button keeps the wizard consistent. */
  lemma ApplyKeepsConsistent(w: Wizard, e: Event)
    requires Consistent(w)
    ensures Consistent(Apply(w, e))
  {
  }

  lemma {:induction false} RunKeepsConsistent(w: Wizard, es: seq<Event>)
    requires Consistent(w)
    ensures Consistent(Run(w, es))
    decreases |es|
  {
    if |es| > 0 {
      ApplyKeepsConsistent(w, es[0]);
      RunKeepsConsistent(Apply(w, es[0]), es[1..]);
    }
  }

  /** From a fresh page, the summary step is reached only with all three
      questions answered. */
  lemma FreshWizardAnswersEverything(es: seq<Event>)
    ensures var w := Run(Initial(), es);
            w.step == LastStep ==>
              w.difficultyLevel in DifficultyOptions && w.learningStyle in StyleOptions &&
              w.studyTime in TimeOptions
  {
    RunKeepsConsistent(Initial(), es);
  }

  // ---------------------------------------------------------------------
  // Progress indicator
  // ---------------------------------------------------------------------

  /** The indicator and the Continue button are shown on the question steps. */
  predicate ControlsShown(w: Wizard)
  {
    0 < w.step < StepCount - 1
  }

  /** Circle `i` (1 to 3) is filled once its question is reached. */
  predicate CircleFilled(w: Wizard, i: int)
  {
    w.step >= i
  }

  /** Connector `i` (1 or 2, after circle `i`) is filled once its question
      is passed. */
  predicate ConnectorFilled(w: Wizard, i: int)
  {
    w.step > i
  }

  /** The indicator shows exactly the current question as the last filled
      circle: circles up to the step are filled, connectors before it. */
  lemma IndicatorShowsStep(w: Wizard)
    requires ControlsShown(w)
    ensures forall i :: 1 <= i <= 3 ==> (CircleFilled(w, i) <==> i <= w.step)
    ensures forall i :: 1 <= i <= 2 ==> (ConnectorFilled(w, i) <==> CircleFilled(w, i + 1))
    ensures Shown(w, Continue)
  {
  }

  // ---------------------------------------------------------------------
  // handleComplete
  // ---------------------------------------------------------------------

  /** The preferences request: the three answers as sent, or the error shown
      without a session token. */
  function CompleteRequest(w: Wizard, token: Option<string>): (r: Result<(Json, Json, Json), string>)
    ensures r.Err? <==> token.None? || token.value == ""
    ensures r.Err? ==> r.error == "No authentication token found"
    ensures r.Ok? ==> r.value == (JStr(w.difficultyLevel), JStr(w.learningStyle), JStr(w.studyTime))
  {
    if token.None? || token.value == "" then Err("No authentication token found")
    else Ok((JStr(w.difficultyLevel), JStr(w.learningStyle), JStr(w.studyTime)))
  }

  /** The daily minutes each study-time option is stored as. */
  function OptionMinutes(t: string): nat
  {
    if t == "15 mins" then 15
    else if t == "30 mins" then 30
    else if t == "60 mins" then 60
    else if t == "90 mins" then 90
    else 120
  }

  /** Every study-time option has the number of minutes in front, which is
      what the server reads from it. */
  lemma TimeOptionsReadAsMinutes(t: string)
    requires t in TimeOptions
    ensures Profile.FirstDigitRun(t) == Some(OptionMinutes(t))
  {
    assert Text.NatToString(15) == "15";
    assert Text.NatToString(30) == "30";
    assert Text.NatToString(60) == "60";
    assert Text.NatToString(90) == "90";
    assert Text.NatToString(120) == "120";
    if t == "120+ mins" {
      assert t == "" + Text.NatToString(120) + "+ mins";
      Profile.FirstDigitRunReadsNumber("", 120, "+ mins");
    } else {
      var n := OptionMinutes(t);
      assert t == "" + Text.NatToString(n) + " mins";
      Profile.FirstDigitRunReadsNumber("", n, " mins");
    }
  }

  /** Every difficulty and style option is one the server's schema knows. */
  lemma OptionsMatchSchema()
    ensures forall d :: d in DifficultyOptions ==> Schema.ParseDifficulty(d).Some?
    ensures forall l :: l in StyleOptions ==> Schema.ParseStyle(l).Some?
  {
  }

  /** A consistent wizard on its summary step sends answers the server
      accepts: the only error left is an unknown user, and the stored study
      time is the option's number of minutes. */
  lemma ConsistentSummaryIsAccepted(w: Wizard, token: string, store: seq<Schema.User>, email: string)
    requires Consistent(w) && w.step == LastStep && token != ""
    ensures CompleteRequest(w, Some(token)).Ok?
    ensures var (d, l, t) := CompleteRequest(w, Some(token)).value;
            var r := Profile.SavePreferences(store, email, d, l, t);
            (r.Ok? || r == Err(Profile.UserNotFound)) &&
            (r.Ok? ==> r.value[Profile.FindUser(store, email)].learningPreferences.dailyStudyTime ==
                         Some(OptionMinutes(w.studyTime) as int))
  {
    OptionsMatchSchema();
    TimeOptionsReadAsMinutes(w.studyTime);
    Profile.ValidAnswersAreSaved(store, email, w.difficultyLevel, w.learningStyle, w.studyTime);
  }

  // ---------------------------------------------------------------------
  // Resuming after a reload
  // ---------------------------------------------------------------------

  /** The page as it mounts: the stored step (already read as an integer)
      with empty answers, since only the step is stored. */
  function Resume(saved: Option<int>): (r: Wizard)
    ensures r.difficultyLevel == "" && r.learningStyle == "" && r.studyTime == ""
    ensures saved.None? ==> r == Initial()
  {
    match saved
    case None => Initial()
    case Some(s) => Wizard(s, "", "", "")
  }

  /** A reload on the summary step leaves a wizard whose answers are all
      empty, and the server refuses what it sends. */
  lemma ResumedSummaryIsRefused(token: string, store: seq<Schema.User>, email: string)
    requires token != ""
    ensures !Consistent(Resume(Some(LastStep)))
    ensures var (d, l, t) := CompleteRequest(Resume(Some(LastStep)), Some(token)).value;
            Profile.SavePreferences(store, email, d, l, t) == Err(Profile.AllFieldsRequired)
  {
  }

  /** Resuming without skipping an unanswered question: a stored step past
      the first question falls back to it, and one outside the list to the
      welcome step. */
  function ResumeChecked(saved: Option<int>): (r: Wizard)
    ensures Consistent(r)
    ensures r.step <= 1
    ensures saved.Some? && 0 <= saved.value <= 1 ==> r == Resume(saved)
  {
    match saved
    case None => Initial()
    case Some(s) =>
      if 0 <= s <= 1 then Wizard(s, "", "", "")
      else if 1 < s < StepCount then Wizard(1, "", "", "")
      else Initial()
  }

  /** After a checked resume, whatever the user does, the summary step is
      reached only with all three answers. */
  lemma CheckedResumeAnswersEverything(saved: Option<int>, es: seq<Event>)
    ensures var w := Run(ResumeChecked(saved), es);
            w.step == LastStep ==>
              w.difficultyLevel in DifficultyOptions && w.learningStyle in StyleOptions &&
              w.studyTime in TimeOptions
  {
    RunKeepsConsistent(ResumeChecked(saved), es);
  }
}

=== FILE: profile.dfy ===
/** The profile controller's request validation: `editProfile`,
    `changePassword` and `savePreferences`, over a user store given as a
    sequence. The caller's identity is the email address carried by the
    verified token.

    Hashing is abstract: `matches` is the verdict of comparing the current
    password with the stored hash, and `newHash` the hash of the new
    password.
 */
module Profile {
  import opened Wrappers
  import opened Json
  import opened Schema
  import Text
  import Seqs

  datatype ProfileError =
    | NameEmailRequired
    | EmailInUse
    | InvalidDifficulty
    | InvalidLearningStyle
    | InvalidDailyStudyTime
    | UserNotFound
    | PasswordsRequired
    | PasswordTooShort
    | WrongPassword
    | AllFieldsRequired
    | InvalidStudyTimeFormat
    | ServerError

  /** The `error` text of the 4xx/5xx response body. */
  function ErrorMessage(e: ProfileError): string
  {
    match e
    case NameEmailRequired => "Name and email are required"
    case EmailInUse => "Email already in use"
    case InvalidDifficulty => "Invalid difficulty level"
    case InvalidLearningStyle => "Invalid learning style"
    case InvalidDailyStudyTime => "Invalid daily study time"
    case UserNotFound => "User not found"
    case PasswordsRequired => "Both passwords are required"
    case PasswordTooShort => "New password must be at least 8 characters"
    case WrongPassword => "Current password is incorrect"
    case AllFieldsRequired => "All fields are required"
    case InvalidStudyTimeFormat => "Invalid study time format"
    case ServerError => "Server error"
  }

  /** `User.findOne({ email })`: the index of the first user with this
      address, or -1. */
  function FindUser(store: seq<User>, email: string): (r: int)
    ensures r == -1 <==> forall i :: 0 <= i < |store| ==> store[i].email != email
    ensures r != -1 ==> 0 <= r < |store| && store[r].email == email
  {
    Seqs.FindFrom((u: User) => u.email == email, store, 0)
  }

  /** Membership of a request value in `['Easy', 'Medium', 'Hard']`. */
  function DifficultyOf(j: Json): (r: Option<Difficulty>)
    ensures r.Some? <==> exists d: Difficulty :: j == JStr(DifficultyName(d))
    ensures r.Some? ==> j == JStr(DifficultyName(r.value))
  {
    if j.JStr? then
      var r := ParseDifficulty(j.s);
      if r.Some? then r
      else
        assert forall d: Difficulty :: j != JStr(DifficultyName(d));
        None
    else None
  }

  /** Membership of a request value in the four learning styles. */
  function StyleOf(j: Json): (r: Option<LearningStyle>)
    ensures r.Some? <==> exists l: LearningStyle :: j == JStr(StyleName(l))
    ensures r.Some? ==> j == JStr(StyleName(r.value))
  {
    if j.JStr? then
      var r := ParseStyle(j.s);
      if r.Some? then r
      else
        assert forall l: LearningStyle :: j != JStr(StyleName(l));
        None
    else None
  }

  // ---------------------------------------------------------------------
  // editProfile
  // ---------------------------------------------------------------------

  /** The body of an edit request. An empty name or email stands for a
      missing (falsy) one. */
  datatype EditRequest = EditRequest(name: string, email: string, preferredDifficulty: Json,
                                     preferredLearningStyle: Json, dailyStudyTime: Json)

  /** `dailyStudyTime && (isNaN(dailyStudyTime) || dailyStudyTime <= 0)` */
  predicate BadStudyTime(j: Json)
  {
    Truthy(j) && (ToNumber(j).None? || ToNumber(j).value <= 0)
  }

  /** `parseInt(dailyStudyTime)` for a value that passed the study-time test.
      `parseInt` reads the value's text: for a number, a string of digits or
      an array whose text is one, that is the number `Number` read; `None`
      is the NaN that `parseInt(true)` gives. */
  function ParseIntOf(j: Json): (r: Option<int>)
    requires Truthy(j) && !BadStudyTime(j)
    ensures r.Some? ==> r == ToNumber(j) && r.value > 0
    ensures r.None? <==> j.JBool?
  {
    if j.JBool? then None else ToNumber(j)
  }

  /** The `learningPreferences` object an edit writes: exactly the supplied
      (truthy) fields. `None` when the study time cannot be stored. */
  function PreferencesUpdate(req: EditRequest): (r: Option<Preferences>)
    requires !BadStudyTime(req.dailyStudyTime)
    requires !Truthy(req.preferredDifficulty) || DifficultyOf(req.preferredDifficulty).Some?
    requires !Truthy(req.preferredLearningStyle) || StyleOf(req.preferredLearningStyle).Some?
    ensures r.None? <==> req.dailyStudyTime == JBool(true)
    ensures r.Some? ==> (r.value.preferredDifficulty.Some? <==> Truthy(req.preferredDifficulty))
    ensures r.Some? ==> (r.value.preferredLearningStyle.Some? <==> Truthy(req.preferredLearningStyle))
    ensures r.Some? ==> (r.value.dailyStudyTime.Some? <==> Truthy(req.dailyStudyTime))
    ensures r.Some? && r.value.preferredDifficulty.Some? ==>
              req.preferredDifficulty == JStr(DifficultyName(r.value.preferredDifficulty.value))
    ensures r.Some? && r.value.preferredLearningStyle.Some? ==>
              req.preferredLearningStyle == JStr(StyleName(r.value.preferredLearningStyle.value))
    ensures r.Some? && r.value.dailyStudyTime.Some? ==>
              r.value.dailyStudyTime == ToNumber(req.dailyStudyTime) && r.value.dailyStudyTime.value > 0
  {
    var d := if Truthy(req.preferredDifficulty) then DifficultyOf(req.preferredDifficulty) else None;
    var l := if Truthy(req.preferredLearningStyle) then StyleOf(req.preferredLearningStyle) else None;
    if !Truthy(req.dailyStudyTime) then Some(Preferences(d, l, None))
    else
      match ParseIntOf(req.dailyStudyTime)
      case None => None
      case Some(t) => Some(Preferences(d, l, Some(t)))
  }

  predicate AnyPreference(req: EditRequest)
  {
    Truthy(req.preferredDifficulty) || Truthy(req.preferredLearningStyle) || Truthy(req.dailyStudyTime)
  }

  /** The name and email pass: both present, and the email is the caller's
      own or belongs to nobody. */
  predicate IdentityAccepted(store: seq<User>, tokenEmail: string, req: EditRequest)
  {
    req.name != "" && req.email != "" &&
    (req.email == tokenEmail || forall i :: 0 <= i < |store| ==> store[i].email != req.email)
  }

  /** The checks of `editProfile` in the order the handler makes them. */
  function EditCheck(store: seq<User>, tokenEmail: string, req: EditRequest): Option<ProfileError>
  {
    if req.name == "" || req.email == "" then Some(NameEmailRequired)
    else if req.email != tokenEmail && FindUser(store, req.email) != -1 then Some(EmailInUse)
    else if AnyPreference(req) && Truthy(req.preferredDifficulty) && DifficultyOf(req.preferredDifficulty).None? then
      Some(InvalidDifficulty)
    else if AnyPreference(req) && Truthy(req.preferredLearningStyle) && StyleOf(req.preferredLearningStyle).None? then
      Some(InvalidLearningStyle)
    else if AnyPreference(req) && BadStudyTime(req.dailyStudyTime) then Some(InvalidDailyStudyTime)
    else None
  }

  /** `editProfile`: the validated name, email and preferences are written
      to the caller's user record. */
  function EditProfile(store: seq<User>, tokenEmail: string, req: EditRequest): (r: Result<seq<User>, ProfileError>)
    ensures r == Err(NameEmailRequired) <==> req.name == "" || req.email == ""
    ensures r == Err(EmailInUse) <==>
              req.name != "" && req.email != "" && req.email != tokenEmail &&
              exists i :: 0 <= i < |store| && store[i].email == req.email
    ensures r == Err(InvalidDifficulty) <==>
              IdentityAccepted(store, tokenEmail, req) &&
              Truthy(req.preferredDifficulty) && DifficultyOf(req.preferredDifficulty).None?
    ensures r == Err(InvalidLearningStyle) <==>
              IdentityAccepted(store, tokenEmail, req) &&
              (!Truthy(req.preferredDifficulty) || DifficultyOf(req.preferredDifficulty).Some?) &&
              Truthy(req.preferredLearningStyle) && StyleOf(req.preferredLearningStyle).None?
    ensures r == Err(InvalidDailyStudyTime) <==>
              IdentityAccepted(store, tokenEmail, req) &&
              (!Truthy(req.preferredDifficulty) || DifficultyOf(req.preferredDifficulty).Some?) &&
              (!Truthy(req.preferredLearningStyle) || StyleOf(req.preferredLearningStyle).Some?) &&
              AnyPreference(req) && BadStudyTime(req.dailyStudyTime)
    ensures r == Err(ServerError) <==>
              EditCheck(store, tokenEmail, req).None? && req.dailyStudyTime == JBool(true)
    ensures r == Err(UserNotFound) <==>
              EditCheck(store, tokenEmail, req).None? && req.dailyStudyTime != JBool(true) &&
              forall i :: 0 <= i < |store| ==> store[i].email != tokenEmail
    ensures r.Ok? <==>
              EditCheck(store, tokenEmail, req).None? && FindUser(store, tokenEmail) != -1 &&
              (AnyPreference(req) ==> PreferencesUpdate(req).Some?)
    ensures r.Ok? ==>
              var m := FindUser(store, tokenEmail);
              0 <= m < |store| && |r.value| == |store| &&
              (forall i :: 0 <= i < |store| && i != m ==> r.value[i] == store[i]) &&
              r.value[m].name == req.name && r.value[m].email == req.email &&
              r.value[m].password == store[m].password &&
              (!AnyPreference(req) ==> r.value[m].learningPreferences == store[m].learningPreferences) &&
              (AnyPreference(req) ==>
                 (r.value[m].learningPreferences.preferredDifficulty.Some? <==> Truthy(req.preferredDifficulty)) &&
                 (r.value[m].learningPreferences.preferredLearningStyle.Some? <==> Truthy(req.preferredLearningStyle)) &&
                 (r.value[m].learningPreferences.dailyStudyTime.Some? <==> Truthy(req.dailyStudyTime)) &&
                 r.value[m].learningPreferences == PreferencesUpdate(req).value &&
                 (Truthy(req.dailyStudyTime) ==>
                    r.value[m].learningPreferences.dailyStudyTime == ToNumber(req.dailyStudyTime)))
  {
    match EditCheck(store, tokenEmail, req)
    case Some(e) => Err(e)
    case None =>
      var m := FindUser(store, tokenEmail);
      if AnyPreference(req) && PreferencesUpdate(req).None? then Err(ServerError)
      else if m == -1 then Err(UserNotFound)
      else
        var prefs := if AnyPreference(req) then PreferencesUpdate(req).value else store[m].learningPreferences;
        Ok(store[m := store[m].(name := req.name, email := req.email, learningPreferences := prefs)])
  }

  /** A study time sent as a one-element array, such as `[5]`, passes the
      check as its element would and is stored as that number. */
  lemma SingletonStudyTimeIsStored(store: seq<User>, tokenEmail: string, req: EditRequest, n: nat)
    requires n > 0 && req.dailyStudyTime == JArr([JNum(n)])
    ensures EditProfile(store, tokenEmail, req) != Err(InvalidDailyStudyTime)
    ensures EditProfile(store, tokenEmail, req).Ok? ==>
              EditProfile(store, tokenEmail, req).value[FindUser(store, tokenEmail)].learningPreferences.dailyStudyTime == Some(n)
  {
    SingletonArrayReadsAsItsElement(JNum(n));
  }

  /** An accepted edit never gives two users the same email address. */
  lemma EditKeepsEmailsUnique(store: seq<User>, tokenEmail: string, req: EditRequest)
    requires UniqueEmails(store)
    requires EditProfile(store, tokenEmail, req).Ok?
    ensures UniqueEmails(EditProfile(store, tokenEmail, req).value)
  {
    var s := EditProfile(store, tokenEmail, req).value;
    var m := FindUser(store, tokenEmail);
    forall i, j | 0 <= i < |s| && 0 <= j < |s| && i != j
      ensures s[i].email != s[j].email
    {
      if i != m && j != m {
      } else if req.email == tokenEmail {
      } else {
        assert FindUser(store, req.email) == -1;
      }
    }
  }

  // ---------------------------------------------------------------------
  // changePassword
  // ---------------------------------------------------------------------

  /** `newPassword.length` as `< 8` reads it: strings and arrays have a
      length, an object's `length` member is read as a number, and every
      other value reads as `undefined`, which is NaN and never below 8. */
  function LengthOf(j: Json): (r: Option<int>)
    ensures j.JStr? ==> r == Some(|j.s|)
    ensures j.JArr? ==> r == Some(|j.items|)
    ensures j.JObj? ==> r == ToNumber(Get(j, "length"))
    ensures !j.JStr? && !j.JArr? && !j.JObj? ==> r.None?
  {
    match j
    case JStr(s) => Some(|s|)
    case JArr(items) => Some(|items|)
    case JObj(_) => ToNumber(Get(j, "length"))
    case _ => None
  }

  /** An object whose `length` member is below 8, such as `{"length": 3}`,
      is refused as too short, as a short string is. */
  lemma ShortLengthMemberIsRefused(currentPassword: Json, n: nat)
    requires Truthy(currentPassword) && n < 8
    ensures PasswordPrecheck(currentPassword, JObj(map["length" := JNum(n)])) == Some(PasswordTooShort)
  {
  }

  /** The checks `changePassword` makes before it looks the user up. */
  function PasswordPrecheck(currentPassword: Json, newPassword: Json): (r: Option<ProfileError>)
    ensures r == Some(PasswordsRequired) <==> !Truthy(currentPassword) || !Truthy(newPassword)
    ensures r == Some(PasswordTooShort) <==>
              Truthy(currentPassword) && Truthy(newPassword) &&
              LengthOf(newPassword).Some? && LengthOf(newPassword).value < 8
    ensures r.None? || r == Some(PasswordsRequired) || r == Some(PasswordTooShort)
  {
    if !Truthy(currentPassword) || !Truthy(newPassword) then Some(PasswordsRequired)
    else if LengthOf(newPassword).Some? && LengthOf(newPassword).value < 8 then Some(PasswordTooShort)
    else None
  }

  /** `changePassword`. Hashing a value that is not a string throws, which
      the handler reports as a server error. */
  function ChangePassword(store: seq<User>, tokenEmail: string, currentPassword: Json, newPassword: Json,
                          matches: bool, newHash: string): (r: Result<seq<User>, ProfileError>)
    ensures PasswordPrecheck(currentPassword, newPassword).Some? ==>
              r == Err(PasswordPrecheck(currentPassword, newPassword).value)
    ensures r == Err(UserNotFound) <==>
              PasswordPrecheck(currentPassword, newPassword).None? && FindUser(store, tokenEmail) == -1
    ensures r == Err(WrongPassword) <==>
              PasswordPrecheck(currentPassword, newPassword).None? && FindUser(store, tokenEmail) != -1 &&
              currentPassword.JStr? && !matches
    ensures r == Err(ServerError) <==>
              PasswordPrecheck(currentPassword, newPassword).None? && FindUser(store, tokenEmail) != -1 &&
              (!currentPassword.JStr? || (matches && !newPassword.JStr?))
    ensures r.Ok? <==>
              PasswordPrecheck(currentPassword, newPassword).None? && FindUser(store, tokenEmail) != -1 &&
              currentPassword.JStr? && newPassword.JStr? && matches
    ensures r.Ok? ==>
              var m := FindUser(store, tokenEmail);
              matches && newPassword.JStr? && |newPassword.s| >= 8 && currentPassword.JStr? &&
              0 <= m < |store| && r.value == store[m := store[m].(password := newHash)]
  {
    match PasswordPrecheck(currentPassword, newPassword)
    case Some(e) => Err(e)
    case None =>
      var m := FindUser(store, tokenEmail);
      if m == -1 then Err(UserNotFound)
      else if !currentPassword.JStr? then Err(ServerError)
      else if !matches then Err(WrongPassword)
      else if !newPassword.JStr? then Err(ServerError)
      else Ok(store[m := store[m].(password := newHash)])
  }

  /** A missing or short new password is refused whatever the store holds:
      the length test comes before the user lookup. */
  lemma ShortPasswordRefusedBeforeLookup(s1: seq<User>, s2: seq<User>, e1: string, e2: string,
                                         current: Json, newPassword: string, m1: bool, m2: bool,
                                         h1: string, h2: string)
    requires Truthy(current) && 0 < |newPassword| < 8
    ensures ChangePassword(s1, e1, current, JStr(newPassword), m1, h1) == Err(PasswordTooShort)
    ensures ChangePassword(s1, e1, current, JStr(newPassword), m1, h1) ==
            ChangePassword(s2, e2, current, JStr(newPassword), m2, h2)
  {
  }

  // ---------------------------------------------------------------------
  // savePreferences
  // ---------------------------------------------------------------------

  /** The first index at or after `i` that does not hold a digit. */
  function RunEnd(s: string, i: nat): (r: nat)
    requires i <= |s|
    ensures i <= r <= |s|
    ensures forall k :: i <= k < r ==> Text.IsDigit(s[k])
    ensures r == |s| || !Text.IsDigit(s[r])
    decreases |s| - i
  {
    if i == |s| || !Text.IsDigit(s[i]) then i else RunEnd(s, i + 1)
  }

  /** `studyTime.match(/(\d+)/)` followed by `parseInt` of the group: the
      value of the first maximal run of digits, or `None` without a digit. */
  function FirstDigitRun(s: string): (r: Option<nat>)
    ensures r.None? <==> forall k :: 0 <= k < |s| ==> !Text.IsDigit(s[k])
    ensures r.Some? ==>
              exists i, j :: 0 <= i < j <= |s| && Text.AllDigits(s[i..j]) &&
                             (forall k :: 0 <= k < i ==> !Text.IsDigit(s[k])) &&
                             (j == |s| || !Text.IsDigit(s[j])) &&
                             r.value == Text.DecimalValue(s[i..j])
  {
    var i := Seqs.FindFrom(Text.IsDigit, s, 0);
    if i == -1 then None
    else
      var j := RunEnd(s, i);
      Some(Text.DecimalValue(s[i..j]))
  }

  /** A number written between digit-free text and text that does not start
      with a digit is read back exactly. */
  lemma FirstDigitRunReadsNumber(pre: string, n: nat, post: string)
    requires forall k :: 0 <= k < |pre| ==> !Text.IsDigit(pre[k])
    requires |post| == 0 || !Text.IsDigit(post[0])
    ensures FirstDigitRun(pre + Text.NatToString(n) + post) == Some(n)
  {
    var d := Text.NatToString(n);
    var s := pre + d + post;
    assert s[|pre|] == d[0];
    assert forall k :: |pre| <= k < |pre| + |d| ==> s[k] == d[k - |pre|];
    var i := Seqs.FindFrom(Text.IsDigit, s, 0);
    assert i == |pre|;
    var j := RunEnd(s, i);
    if |post| > 0 {
      assert s[|pre| + |d|] == post[0];
    }
    assert j == |pre| + |d|;
    assert s[i..j] == d;
    Text.NatToStringRoundTrip(n);
  }

  /** `savePreferences`: all three fields are required, the two enumerations
      are checked, and the first run of digits of the study time is stored. */
  function SavePreferences(store: seq<User>, tokenEmail: string, difficultyLevel: Json,
                           learningStyle: Json, studyTime: Json): (r: Result<seq<User>, ProfileError>)
    ensures r == Err(AllFieldsRequired) <==>
              !Truthy(difficultyLevel) || !Truthy(learningStyle) || !Truthy(studyTime)
    ensures r == Err(InvalidDifficulty) <==>
              Truthy(difficultyLevel) && Truthy(learningStyle) && Truthy(studyTime) &&
              DifficultyOf(difficultyLevel).None?
    ensures r == Err(InvalidLearningStyle) <==>
              Truthy(difficultyLevel) && Truthy(learningStyle) && Truthy(studyTime) &&
              DifficultyOf(difficultyLevel).Some? && StyleOf(learningStyle).None?
    ensures r == Err(ServerError) <==>
              Truthy(difficultyLevel) && Truthy(learningStyle) && Truthy(studyTime) &&
              DifficultyOf(difficultyLevel).Some? && StyleOf(learningStyle).Some? && !studyTime.JStr?
    ensures r == Err(InvalidStudyTimeFormat) <==>
              Truthy(difficultyLevel) && Truthy(learningStyle) && Truthy(studyTime) &&
              DifficultyOf(difficultyLevel).Some? && StyleOf(learningStyle).Some? &&
              studyTime.JStr? && FirstDigitRun(studyTime.s).None?
    ensures r == Err(UserNotFound) <==>
              Truthy(difficultyLevel) && Truthy(learningStyle) && Truthy(studyTime) &&
              DifficultyOf(difficultyLevel).Some? && StyleOf(learningStyle).Some? &&
              studyTime.JStr? && FirstDigitRun(studyTime.s).Some? && FindUser(store, tokenEmail) == -1
    ensures r.Ok? <==>
              Truthy(difficultyLevel) && Truthy(learningStyle) && Truthy(studyTime) &&
              DifficultyOf(difficultyLevel).Some? && StyleOf(learningStyle).Some? &&
              studyTime.JStr? && FirstDigitRun(studyTime.s).Some? && FindUser(store, tokenEmail) != -1
    ensures r.Ok? ==>
              var m := FindUser(store, tokenEmail);
              0 <= m < |store| && studyTime.JStr? && FirstDigitRun(studyTime.s).Some? &&
              r.value == store[m := store[m].(learningPreferences :=
                Preferences(DifficultyOf(difficultyLevel), StyleOf(learningStyle),
                            Some(FirstDigitRun(studyTime.s).value as int)))] &&
              DifficultyOf(difficultyLevel).Some? && StyleOf(learningStyle).Some?
  {
    if !Truthy(difficultyLevel) || !Truthy(learningStyle) || !Truthy(studyTime) then Err(AllFieldsRequired)
    else if DifficultyOf(difficultyLevel).None? then Err(InvalidDifficulty)
    else if StyleOf(learningStyle).None? then Err(InvalidLearningStyle)
    else if !studyTime.JStr? then Err(ServerError)
    else
      match FirstDigitRun(studyTime.s)
      case None => Err(InvalidStudyTimeFormat)
      case Some(t) =>
        var m := FindUser(store, tokenEmail);
        if m == -1 then Err(UserNotFound)
        else
          Ok(store[m := store[m].(learningPreferences :=
                Preferences(DifficultyOf(difficultyLevel), StyleOf(learningStyle), Some(t as int)))])
  }

  /** Three valid answers, the study time holding a number, are saved
      unless the caller's account is gone; the number is what is stored. */
  lemma ValidAnswersAreSaved(store: seq<User>, tokenEmail: string, d: string, l: string, t: string)
    requires ParseDifficulty(d).Some? && ParseStyle(l).Some? && FirstDigitRun(t).Some?
    ensures var r := SavePreferences(store, tokenEmail, JStr(d), JStr(l), JStr(t));
            (r.Ok? || r == Err(UserNotFound)) &&
            (r.Ok? ==> r.value[FindUser(store, tokenEmail)].learningPreferences.dailyStudyTime ==
                         Some(FirstDigitRun(t).value as int))
  {
    assert DifficultyOf(JStr(d)).Some?;
    assert StyleOf(JStr(l)).Some?;
    assert d != "" && l != "" && t != "";
  }

  /** Saving preferences never changes an email address, so it keeps them unique. */
  lemma SavePreferencesKeepsEmails(store: seq<User>, tokenEmail: string, d: Json, l: Json, t: Json)
    requires SavePreferences(store, tokenEmail, d, l, t).Ok?
    ensures var s := SavePreferences(store, tokenEmail, d, l, t).value;
            |s| == |store| && forall i :: 0 <= i < |s| ==> s[i].email == store[i].email
  {
  }
}

=== FILE: profile_page.dfy ===
/** The profile page's client-side checks: the edit form and the password
    form. Each check yields the map of field errors the page shows; an
    empty map lets the request go out.
 */
module ProfilePage {
  import opened Wrappers
  import opened Json
  import Text
  import Profile

  // ---------------------------------------------------------------------
  // handleEditProfile
  // ---------------------------------------------------------------------

  /** The raw values of the edit form's fields. */
  datatype EditForm = EditForm(name: string, email: string, preferredDifficulty: string,
                               preferredLearningStyle: string, dailyStudyTime: string)

  /** `dailyStudyTime && (isNaN(dailyStudyTime) || dailyStudyTime <= 0)` on
      the trimmed field. */
  predicate BadTime(t: string)
  {
    t != "" && (ToNumber(JStr(t)).None? || ToNumber(JStr(t)).value <= 0)
  }

  /** The field errors of the edit form. Name, email and study time are
      checked after trimming. */
  function EditErrors(f: EditForm): (r: map<string, string>)
    ensures "name" in r <==> Text.Trim(f.name) == ""
    ensures "email" in r <==> Text.Trim(f.email) == ""
    ensures "dailyStudyTime" in r <==> BadTime(Text.Trim(f.dailyStudyTime))
    ensures r.Keys <= {"name", "email", "dailyStudyTime"}
    ensures "name" in r ==> r["name"] == "Name is required"
    ensures "email" in r ==> r["email"] == "Email is required"
    ensures "dailyStudyTime" in r ==> r["dailyStudyTime"] == "Study time must be a positive number"
  {
    var e0: map<string, string> := map[];
    var e1 := if Text.Trim(f.name) == "" then e0["name" := "Name is required"] else e0;
    var e2 := if Text.Trim(f.email) == "" then e1["email" := "Email is required"] else e1;
    if BadTime(Text.Trim(f.dailyStudyTime)) then e2["dailyStudyTime" := "Study time must be a positive number"]
    else e2
  }

  /** `x || undefined` for a select's value. */
  function OrUndefined(s: string): (r: Json)
    ensures r == Undefined <==> s == ""
    ensures s != "" ==> r == JStr(s)
  {
    if s == "" then Undefined else JStr(s)
  }

  /** The request body the page sends when the form has no error, or the
      errors it shows. */
  function SubmitEdit(f: EditForm): (r: Result<Profile.EditRequest, map<string, string>>)
    ensures r.Err? <==> |EditErrors(f)| > 0
    ensures r.Err? ==> r.error == EditErrors(f)
    ensures r.Ok? ==>
              r.value.name == Text.Trim(f.name) && r.value.name != "" &&
              r.value.email == Text.Trim(f.email) && r.value.email != "" &&
              r.value.preferredDifficulty == OrUndefined(f.preferredDifficulty) &&
              r.value.preferredLearningStyle == OrUndefined(f.preferredLearningStyle)
    ensures r.Ok? && Text.Trim(f.dailyStudyTime) == "" ==> r.value.dailyStudyTime == Undefined
    ensures r.Ok? && Text.Trim(f.dailyStudyTime) != "" ==>
              r.value.dailyStudyTime.JNum? && r.value.dailyStudyTime.n > 0 &&
              Some(r.value.dailyStudyTime.n) == ToNumber(JStr(Text.Trim(f.dailyStudyTime)))
  {
    var errors := EditErrors(f);
    if |errors| > 0 then Err(errors)
    else
      assert "name" !in errors && "email" !in errors && "dailyStudyTime" !in errors;
      var t := Text.Trim(f.dailyStudyTime);
      var time := if t == "" then Undefined else JNum(ParseIntDigits(t));
      Ok(Profile.EditRequest(Text.Trim(f.name), Text.Trim(f.email), OrUndefined(f.preferredDifficulty),
                             OrUndefined(f.preferredLearningStyle), time))
  }

  /** `parseInt` of a trimmed field that passed the page's test: it holds a
      positive decimal number. */
  function ParseIntDigits(t: string): (r: int)
    requires t != "" && !BadTime(t)
    ensures Some(r) == ToNumber(JStr(t)) && r > 0
  {
    ToNumber(JStr(t)).value
  }

  /** A request the page lets out passes the server's study-time check and
      its required-field check, and the server stores the number the user
      typed. */
  lemma AcceptedEditPassesServerChecks(f: EditForm)
    requires SubmitEdit(f).Ok?
    ensures var req := SubmitEdit(f).value;
            !Profile.BadStudyTime(req.dailyStudyTime) && req.name != "" && req.email != "" &&
            (Text.Trim(f.dailyStudyTime) != "" ==>
               Profile.ParseIntOf(req.dailyStudyTime) == ToNumber(JStr(Text.Trim(f.dailyStudyTime))))
  {
    var req := SubmitEdit(f).value;
    var t := Text.Trim(f.dailyStudyTime);
    if t != "" {
      var k := ParseIntDigits(t);
      assert req.dailyStudyTime == JNum(k);
      assert ToNumber(JNum(k)) == Some(k) && k > 0;
      assert !Profile.BadStudyTime(JNum(k));
      assert Profile.ParseIntOf(JNum(k)) == Some(k);
    } else {
      assert req.dailyStudyTime == Undefined;
    }
  }

  // ---------------------------------------------------------------------
  // validatePassword
  // ---------------------------------------------------------------------

  /** The field errors of the password form. */
  function PasswordErrors(currentPassword: string, newPassword: string, confirmPassword: string): (r: map<string, string>)
    ensures "currentPassword" in r <==> currentPassword == ""
    ensures "newPassword" in r <==> |newPassword| < 8
    ensures "confirmPassword" in r <==> newPassword != confirmPassword
    ensures r.Keys <= {"currentPassword", "newPassword", "confirmPassword"}
    ensures "currentPassword" in r ==> r["currentPassword"] == "Current password is required"
    ensures "newPassword" in r ==>
              r["newPassword"] == (if newPassword == "" then "New password is required"
                                   else "Password must be at least 8 characters")
    ensures "confirmPassword" in r ==> r["confirmPassword"] == "Passwords do not match"
  {
    var e0: map<string, string> := map[];
    var e1 := if currentPassword == "" then e0["currentPassword" := "Current password is required"] else e0;
    var e2 := if newPassword == "" then e1["newPassword" := "New password is required"]
              else if |newPassword| < 8 then e1["newPassword" := "Password must be at least 8 characters"]
              else e1;
    if newPassword != confirmPassword then e2["confirmPassword" := "Passwords do not match"] else e2
  }

  /** The form is valid exactly when the current password is given, the new
      one has at least eight characters and the confirmation repeats it. */
  lemma PasswordFormValid(currentPassword: string, newPassword: string, confirmPassword: string)
    ensures |PasswordErrors(currentPassword, newPassword, confirmPassword)| == 0 <==>
              currentPassword != "" && |newPassword| >= 8 && newPassword == confirmPassword
  {
    var r := PasswordErrors(currentPassword, newPassword, confirmPassword);
    if currentPassword == "" {
      assert "currentPassword" in r;
    } else if |newPassword| < 8 {
      assert "newPassword" in r;
    } else if newPassword != confirmPassword {
      assert "confirmPassword" in r;
    } else {
      assert r.Keys == {};
    }
  }

  /** A password form the page accepts passes the server's own checks
      before the user lookup. */
  lemma ValidPasswordFormPassesServerPrecheck(currentPassword: string, newPassword: string, confirmPassword: string)
    requires |PasswordErrors(currentPassword, newPassword, confirmPassword)| == 0
    ensures Profile.PasswordPrecheck(JStr(currentPassword), JStr(newPassword)).None?
  {
    PasswordFormValid(currentPassword, newPassword, confirmPassword);
  }
}

=== FILE: quiz_ai.dfy ===
/** The second, stricter AI service used by the learning-path and smart-quiz
    routes: an adaptive path, a quiz without subtopics and an analysis with
    curated fallback resources.

    Unlike the main AI service it rethrows: reading a field of a `null`
    answer is an `Err`. A model answer is taken already parsed
    (`None` for text that does not parse).
 */
module QuizAi {
  import opened Wrappers
  import opened Json
  import opened LlmOutput
  import AiService
  import Seqs

  /** The service rethrows what went wrong, prefixed by the operation. */
  datatype AiFailure = AdaptivePathFailed | QuizFailed

  function FailureMessage(f: AiFailure): string
  {
    match f
    case AdaptivePathFailed => "Failed to generate adaptive path: "
    case QuizFailed => "Failed to generate quiz: "
  }

  // ---------------------------------------------------------------------
  // generateAdaptivePath
  // ---------------------------------------------------------------------

  function AdaptiveFallback(): Json
  {
    JObj(map["topics" := JArr([]), "strength" := JStr("Unknown"), "weakness" := JStr("Unknown"),
             "duration" := JNum(10)])
  }

  /** Topics, a strength, a weakness and a numeric duration. */
  predicate PathShaped(p: Json)
  {
    Get(p, "topics").JArr? && HasString(p, "strength") && HasString(p, "weakness") &&
    Get(p, "duration").JNum?
  }

  /** `generateAdaptivePath`: the parsed answer when it has the path shape,
      the fallback otherwise; a `null` answer throws. */
  function AdaptivePath(parsed: Option<Json>): (r: Result<Json, AiFailure>)
    ensures r.Err? <==> parsed.Some? && IsNullish(parsed.value)
    ensures r.Err? ==> r.error == AdaptivePathFailed
    ensures r.Ok? ==> PathShaped(r.value)
    ensures r.Ok? && parsed.Some? && PathShaped(parsed.value) ==> r.value == parsed.value
    ensures r.Ok? && !(parsed.Some? && PathShaped(parsed.value)) ==> r.value == AdaptiveFallback()
  {
    var p := parsed.GetOr(AdaptiveFallback());
    if IsNullish(p) then Err(AdaptivePathFailed)
    else if PathShaped(p) then Ok(p)
    else Ok(AdaptiveFallback())
  }

  /** The fallback passes the shape check, and an accepted path fed back in
      is accepted unchanged: the check admits exactly the paths it returns. */
  lemma AdaptivePathIsStable(parsed: Option<Json>)
    ensures PathShaped(AdaptiveFallback()) && !IsNullish(AdaptiveFallback())
    ensures AdaptivePath(parsed).Ok? ==> AdaptivePath(Some(AdaptivePath(parsed).value)) == AdaptivePath(parsed)
    ensures forall p :: AdaptivePath(Some(p)) == Ok(p) <==> PathShaped(p)
  {
  }

  // ---------------------------------------------------------------------
  // generateSmartQuiz
  // ---------------------------------------------------------------------

  function QuizFallback(numQuestions: Json): Json
  {
    JObj(map["questions" := JArr([]), "duration" := numQuestions])
  }

  predicate QuizShaped(p: Json)
  {
    Get(p, "questions").JArr? && Get(p, "duration").JNum?
  }

  /** `generateSmartQuiz`: malformed questions are dropped and may leave the
      quiz empty; a `null` answer or question throws. */
  function SmartQuiz(numQuestions: Json, parsed: Option<Json>): (r: Result<Json, AiFailure>)
    ensures r.Err? <==>
              parsed.Some? &&
              (IsNullish(parsed.value) ||
               (QuizShaped(parsed.value) && AnyNullishItem(Get(parsed.value, "questions").items)))
    ensures r.Err? ==> r.error == QuizFailed
    ensures r.Ok? && parsed.Some? && !QuizShaped(parsed.value) ==> r.value == QuizFallback(numQuestions)
    ensures r.Ok? && parsed.Some? && QuizShaped(parsed.value) ==>
              r.value == JObj(parsed.value.fields["questions" :=
                                JArr(FilterQuestions(Get(parsed.value, "questions").items, false).value)])
    ensures r.Ok? ==> Get(r.value, "questions").JArr?
    ensures r.Ok? ==> forall i :: 0 <= i < |Get(r.value, "questions").items| ==>
                        WellFormedQuestion(Get(r.value, "questions").items[i], false)
  {
    var p := parsed.GetOr(QuizFallback(numQuestions));
    if IsNullish(p) then Err(QuizFailed)
    else if !QuizShaped(p) then Ok(QuizFallback(numQuestions))
    else
      match FilterQuestions(Get(p, "questions").items, false)
      case None => Err(QuizFailed)
      case Some(kept) => Ok(JObj(p.fields["questions" := JArr(kept)]))
  }

  predicate AnyNullishItem(xs: seq<Json>)
  {
    exists i :: 0 <= i < |xs| && IsNullish(xs[i])
  }

  /** An answer that does not parse gives the empty quiz, whatever the
      requested number of questions. */
  lemma UnparsableQuizIsEmpty(numQuestions: Json)
    ensures SmartQuiz(numQuestions, None) == Ok(QuizFallback(numQuestions))
  {
    var f := QuizFallback(numQuestions);
    if QuizShaped(f) {
      assert FilterQuestions([], false) == Some([]);
      assert f.fields["questions" := JArr([])] == f.fields;
    }
  }

  /** Every question the main service keeps from an answer it accepts, this
      service keeps too: it only drops the subtopic requirement. */
  lemma QuizServicesAgree(topicName: string, difficultyLevel: string, numQuestions: Json, parsed: Option<Json>)
    requires AiService.QuizAccepted(parsed)
    ensures SmartQuiz(numQuestions, parsed).Ok?
    ensures var strict := Get(AiService.SmartQuiz(topicName, difficultyLevel, numQuestions, parsed), "questions").items;
            var loose := Get(SmartQuiz(numQuestions, parsed).value, "questions").items;
            forall q :: q in strict ==> q in loose
  {
    var qs := Get(parsed.value, "questions").items;
    var strict := FilterQuestions(qs, true).value;
    var loose := FilterQuestions(qs, false).value;
    forall q | q in strict
      ensures q in loose
    {
      SubtopicCheckIsStricter(q);
    }
  }

  // ---------------------------------------------------------------------
  // analyzeQuizPerformance
  // ---------------------------------------------------------------------

  /** The answer when the model's analysis is unusable; the error path
      returns the same object. */
  function AnalysisFallback(): Json
  {
    JObj(map["strengths" := JStr("No specific strengths identified."),
             "weaknesses" := JStr("No specific weaknesses identified."),
             "resources" := JArr([])])
  }

  function Link(title: string, url: string): (r: Json)
    ensures StringLink(r) && Get(r, "title") == JStr(title) && Get(r, "url") == JStr(url)
  {
    JObj(map["title" := JStr(title), "url" := JStr(url)])
  }

  predicate StringLink(r: Json)
  {
    HasString(r, "title") && HasString(r, "url")
  }

  /** The curated resources for the five common topics. */
  function TopicResources(topicName: string): (r: Option<seq<Json>>)
    ensures r.Some? <==> topicName in {"Mathematics", "Science", "Programming", "History", "Literature"}
    ensures r.Some? ==> |r.value| == 2 && StringLink(r.value[0]) && StringLink(r.value[1])
  {
    if topicName == "Mathematics" then
      Some([Link("Khan Academy Algebra", "https://www.khanacademy.org/math/algebra"),
            Link("Math Antics YouTube", "https://www.youtube.com/@Mathantics")])
    else if topicName == "Science" then
      Some([Link("Crash Course Physics", "https://www.youtube.com/playlist?list=PL8dPuuaLjXtN0ge7yDk_UA0ldZJdhwkoV"),
            Link("SciShow", "https://www.youtube.com/@scishow")])
    else if topicName == "Programming" then
      Some([Link("MDN Web Docs JavaScript", "https://developer.mozilla.org/en-US/docs/Web/JavaScript"),
            Link("freeCodeCamp JavaScript Tutorial", "https://www.youtube.com/watch?v=PkZNo7MFNFg")])
    else if topicName == "History" then
      Some([Link("History.com", "https://www.history.com"),
            Link("Crash Course World History", "https://www.youtube.com/playlist?list=PLBDA2E52FB1EF80C9")])
    else if topicName == "Literature" then
      Some([Link("SparkNotes", "https://www.sparknotes.com"),
            Link("Thug Notes YouTube", "https://www.youtube.com/@WisecrackEDU")])
    else None
  }

  /** Strings for the verdicts and a resource list of string links. */
  predicate AnalysisAccepted(p: Json)
  {
    HasString(p, "strengths") && HasString(p, "weaknesses") && Get(p, "resources").JArr? &&
    forall i :: 0 <= i < |Get(p, "resources").items| ==> StringLink(Get(p, "resources").items[i])
  }

  /** The object the checks run on: the parsed answer, or the fallback when
      the text does not parse. */
  function Used(parsed: Option<Json>): Json
  {
    parsed.GetOr(AnalysisFallback())
  }

  /** `analyzeQuizPerformance`: an accepted answer is kept, with the curated
      resources of a common topic put in when it recommends none. */
  function Analyze(topicName: string, parsed: Option<Json>): (r: Json)
    ensures AnalysisAccepted(r)
    ensures !AnalysisAccepted(Used(parsed)) ==> r == AnalysisFallback()
    ensures AnalysisAccepted(Used(parsed)) ==>
              Get(r, "strengths") == Get(Used(parsed), "strengths") &&
              Get(r, "weaknesses") == Get(Used(parsed), "weaknesses")
    ensures AnalysisAccepted(Used(parsed)) && |Get(Used(parsed), "resources").items| > 0 ==>
              r == Used(parsed)
    ensures AnalysisAccepted(Used(parsed)) && |Get(Used(parsed), "resources").items| == 0 ==>
              Get(r, "resources") == JArr(TopicResources(topicName).GetOr([]))
  {
    var p := Used(parsed);
    if !AnalysisAccepted(p) then AnalysisFallback()
    else if |Get(p, "resources").items| == 0 && TopicResources(topicName).Some? then
      WithCuratedResources(p, TopicResources(topicName).value)
    else p
  }

  /** The accepted answer with its empty resource list replaced by two
      curated links. */
  function WithCuratedResources(p: Json, links: seq<Json>): (r: Json)
    requires AnalysisAccepted(p)
    requires |links| == 2 && StringLink(links[0]) && StringLink(links[1])
    ensures AnalysisAccepted(r)
    ensures Get(r, "strengths") == Get(p, "strengths") && Get(r, "weaknesses") == Get(p, "weaknesses")
    ensures Get(r, "resources") == JArr(links)
  {
    assert links == [links[0], links[1]];
    JObj(p.fields["resources" := JArr(links)])
  }

  /** An answer that does not parse keeps the fallback's verdicts but still
      gets the curated resources of a common topic. */
  lemma UnparsableAnalysisUsesCuratedResources(topicName: string)
    ensures var r := Analyze(topicName, None);
            Get(r, "strengths") == JStr("No specific strengths identified.") &&
            Get(r, "weaknesses") == JStr("No specific weaknesses identified.") &&
            Get(r, "resources") == JArr(TopicResources(topicName).GetOr([]))
  {
    assert AnalysisAccepted(AnalysisFallback());
  }

  /** An accepted analysis of one of the five common topics always
      recommends something. */
  lemma CommonTopicGetsResources(topicName: string, parsed: Option<Json>)
    requires topicName in {"Mathematics", "Science", "Programming", "History", "Literature"}
    requires AnalysisAccepted(Used(parsed))
    ensures |Get(Analyze(topicName, parsed), "resources").items| > 0
  {
  }
}

=== FILE: quiz_session.dfy ===
/** The client side of a quiz: the array of answers, the progress bar, the
    question navigation, the validation of a quiz the server sends,
    the submit guard and the reset of the quiz pages.

    The answer array is modelled as JavaScript holds it: a slot is either a
    hole (never written, skipped by `filter`) or a value, which may be
    `null` (unanswered) or `undefined` (a hole copied by `[...responses]`).
 */
module QuizSession {
  import opened Wrappers
  import opened Json
  import Text
  import Seqs
  import LlmOutput

  // ---------------------------------------------------------------------
  // Answer slots
  // ---------------------------------------------------------------------

  datatype Slot = Hole | Value(v: Json)

  /** `new Array(n).fill(null)` */
  function NullResponses(n: nat): (rs: seq<Slot>)
    ensures |rs| == n
    ensures forall i :: 0 <= i < n ==> rs[i] == Value(Null)
  {
    seq(n, i => Value(Null))
  }

  /** `[...responses]`: every hole is read as `undefined`. */
  function Spread(rs: seq<Slot>): (r: seq<Slot>)
    ensures |r| == |rs|
    ensures forall i :: 0 <= i < |rs| ==> r[i].Value?
    ensures forall i :: 0 <= i < |rs| && rs[i].Value? ==> r[i] == rs[i]
  {
    seq(|rs|, i requires 0 <= i < |rs| => if rs[i].Hole? then Value(Undefined) else rs[i])
  }

  /** `a[i] = v` on an array: writing past the end leaves holes between. */
  function Write(rs: seq<Slot>, i: nat, v: Json): (r: seq<Slot>)
    ensures |r| == if i < |rs| then |rs| else i + 1
    ensures r[i] == Value(v)
    ensures forall k :: 0 <= k < |rs| && k != i ==> r[k] == rs[k]
    ensures forall k :: |rs| <= k < i ==> r[k] == Hole
  {
    if i < |rs| then rs[i := Value(v)]
    else rs + seq(i - |rs|, k => Hole) + [Value(v)]
  }

  /** `handleOptionChange` of the quiz pages: no bounds check. A negative
      index only adds a property, so the elements are the copied ones. */
  function ChooseOption(rs: seq<Slot>, index: int, v: Json): (r: seq<Slot>)
    ensures index < 0 ==> r == Spread(rs)
    ensures index >= 0 ==> |r| == if index < |rs| then |rs| else index + 1
    ensures index >= 0 ==> r[index] == Value(v)
    ensures forall k :: 0 <= k < |rs| && k != index ==>
              r[k] == if rs[k].Hole? then Value(Undefined) else rs[k]
    ensures forall k :: |rs| <= k < index ==> r[k] == Hole
  {
    if index < 0 then Spread(rs) else Write(Spread(rs), index, v)
  }

  /** `handleOptionChange` of the learning-path quiz: an index outside the
      questions is refused and the answers stay as they are. */
  function ChooseOptionBounded(rs: seq<Slot>, questionCount: nat, index: int, v: Json): (r: seq<Slot>)
    ensures !(0 <= index < questionCount) ==> r == rs
    ensures 0 <= index < questionCount && index < |rs| ==>
              |r| == |rs| && r[index] == Value(v) &&
              forall k :: 0 <= k < |rs| && k != index && rs[k].Value? ==> r[k] == rs[k]
  {
    if index < 0 || index >= questionCount then rs else ChooseOption(rs, index, v)
  }

  /** Counted by `responses.filter(r => r !== null)`: holes are skipped,
      `undefined` is counted. */
  predicate Answered(s: Slot)
  {
    s.Value? && s.v != Null
  }

  function AnsweredCount(rs: seq<Slot>): (n: nat)
    ensures n <= |rs|
  {
    Seqs.Count(Answered, rs)
  }

  /** `responses.includes(null)`: the submit guard of the quiz pages. */
  predicate IncludesNull(rs: seq<Slot>)
  {
    exists i :: 0 <= i < |rs| && rs[i] == Value(Null)
  }

  predicate NoHoles(rs: seq<Slot>)
  {
    forall i :: 0 <= i < |rs| ==> rs[i].Value?
  }

  /** Without holes, the submit guard and the progress count agree: a sheet
      may be sent exactly when every slot counts as answered. */
  lemma {:induction false} GuardMatchesProgress(rs: seq<Slot>)
    requires NoHoles(rs)
    ensures IncludesNull(rs) <==> AnsweredCount(rs) < |rs|
    decreases |rs|
  {
    if rs != [] {
      var tail := rs[1..];
      assert NoHoles(tail) by {
        forall i | 0 <= i < |tail|
          ensures tail[i].Value?
        {
          assert tail[i] == rs[i + 1];
        }
      }
      GuardMatchesProgress(tail);
      assert rs == [rs[0]] + tail;
      Seqs.CountAppend(Answered, [rs[0]], tail);
      assert IncludesNull(rs) <==> rs[0] == Value(Null) || IncludesNull(tail) by {
        if IncludesNull(tail) {
          var i :| 0 <= i < |tail| && tail[i] == Value(Null);
          assert rs[i + 1] == Value(Null);
        }
        if IncludesNull(rs) && rs[0] != Value(Null) {
          var i :| 0 <= i < |rs| && rs[i] == Value(Null);
          assert tail[i - 1] == Value(Null);
        }
      }
    }
  }

  /** A fresh sheet blocks submission unless the quiz has no questions. */
  lemma FreshSheetBlocksSubmit(n: nat)
    ensures IncludesNull(NullResponses(n)) <==> n > 0
  {
    if n > 0 {
      assert NullResponses(n)[0] == Value(Null);
    }
  }

  // ---------------------------------------------------------------------
  // Progress
  // ---------------------------------------------------------------------

  /** The width of the progress bar: a percentage, or what `0/0` and `k/0`
      print. */
  datatype Width = Percent(p: real) | NaNPercent | InfinityPercent

  /** The learning-path quiz: '0%' when there are no questions. */
  function GuardedWidth(answered: nat, total: nat): (w: Width)
    ensures w.Percent?
    ensures total == 0 ==> w.p == 0.0
    ensures answered <= total ==> 0.0 <= w.p <= 100.0
    ensures total > 0 && answered == total ==> w.p == 100.0
  {
    if total > 0 then Percent(answered as real / total as real * 100.0) else Percent(0.0)
  }

  /** The quiz pages divide without a guard. */
  function UnguardedWidth(answered: nat, total: nat): (w: Width)
    ensures total == 0 && answered == 0 <==> w == NaNPercent
    ensures total == 0 && answered > 0 <==> w == InfinityPercent
    ensures total > 0 ==> w.Percent?
  {
    if total > 0 then Percent(answered as real / total as real * 100.0)
    else if answered == 0 then NaNPercent
    else InfinityPercent
  }

  /** The two bars agree whenever the quiz has a question. */
  lemma WidthsAgreeOnQuestions(answered: nat, total: nat)
    requires total > 0
    ensures GuardedWidth(answered, total) == UnguardedWidth(answered, total)
  {
  }

  // ---------------------------------------------------------------------
  // Navigation
  // ---------------------------------------------------------------------

  datatype View = View(index: int, selectorOpen: bool)

  /** `goToQuestion`: a valid index is shown and the selector closes;
      anything else changes nothing. */
  function GoTo(view: View, questionCount: nat, i: int): (r: View)
    ensures 0 <= i < questionCount ==> r == View(i, false)
    ensures !(0 <= i < questionCount) ==> r == view
  {
    if 0 <= i < questionCount then View(i, false) else view
  }

  /** `goToNextQuestion` */
  function Next(view: View, quizLoaded: bool, questionCount: nat): (r: View)
    ensures r.selectorOpen == view.selectorOpen
    ensures r.index == view.index || (quizLoaded && r.index == view.index + 1 && r.index < questionCount)
  {
    if quizLoaded && view.index < questionCount - 1 then view.(index := view.index + 1) else view
  }

  /** `goToPrevQuestion` */
  function Prev(view: View): (r: View)
    ensures r.selectorOpen == view.selectorOpen
    ensures r.index == view.index || (r.index == view.index - 1 && r.index >= 0)
  {
    if view.index > 0 then view.(index := view.index - 1) else view
  }

  /** The shown question exists, or the quiz has none and the first is
      shown. */
  predicate InRange(view: View, questionCount: nat)
  {
    0 <= view.index && (view.index < questionCount || view.index == 0)
  }

  /** Starting from the first question, no sequence of moves leaves the
      quiz. */
  lemma NavigationStaysInRange(view: View, quizLoaded: bool, questionCount: nat, i: int)
    requires InRange(view, questionCount)
    ensures InRange(GoTo(view, questionCount, i), questionCount)
    ensures InRange(Next(view, quizLoaded, questionCount), questionCount)
    ensures InRange(Prev(view), questionCount)
  {
  }

  // ---------------------------------------------------------------------
  // Accepting a quiz from the server
  // ---------------------------------------------------------------------

  /** The page that asked: the general quiz page allows three question
      types, the custom and daily pages only MCQ. */
  datatype QuizPage = GeneralQuizPage | CustomQuizPage | DailyQuizPage

  predicate AllowedType(page: QuizPage, questionType: Json)
  {
    match page
    case GeneralQuizPage =>
      questionType == JStr("MCQ") || questionType == JStr("True/False") || questionType == JStr("Short Answer")
    case _ => questionType == JStr("MCQ")
  }

  /** A quiz the page keeps: a non-empty array of questions, each one an
      object-like value of an allowed type (a `null` question throws). */
  predicate Usable(page: QuizPage, quizData: Json)
  {
    !IsNullish(quizData) && Get(quizData, "questions").JArr? && |Get(quizData, "questions").items| > 0 &&
    forall i :: 0 <= i < |Get(quizData, "questions").items| ==>
      !IsNullish(Get(quizData, "questions").items[i]) &&
      AllowedType(page, Get(Get(quizData, "questions").items[i], "questionType"))
  }

  /** The `quizModel` tag the custom and daily pages add. */
  function ModelTag(page: QuizPage): Option<string>
  {
    match page
    case GeneralQuizPage => None
    case CustomQuizPage => Some("CustomQuiz")
    case DailyQuizPage => Some("DailyQuiz")
  }

  /** A session on a freshly accepted quiz. */
  datatype Session = Session(quiz: Json, responses: seq<Slot>, view: View, result: Option<Json>)

  /** What the page does with the quiz the server sent: a session on the
      first question with every answer unset, or a refusal. */
  function AcceptQuiz(page: QuizPage, quizData: Json, view: View): (r: Option<Session>)
    ensures r.Some? <==> Usable(page, quizData)
    ensures r.Some? ==>
              var n := |Get(quizData, "questions").items|;
              r.value.responses == NullResponses(n) && r.value.view.index == 0 &&
              r.value.result.None? && Get(r.value.quiz, "questions") == Get(quizData, "questions")
    ensures r.Some? && ModelTag(page).Some? ==> Get(r.value.quiz, "quizModel") == JStr(ModelTag(page).value)
    ensures r.Some? && ModelTag(page).None? ==> r.value.quiz == quizData
  {
    if !Usable(page, quizData) then None
    else
      var tagged := match ModelTag(page)
        case None => quizData
        case Some(tag) => JObj(quizData.fields["quizModel" := JStr(tag)]);
      Some(Session(tagged, NullResponses(|Get(quizData, "questions").items|), view.(index := 0), None))
  }

  /** The custom and daily pages accept the same quizzes, and the general
      page accepts all of them. */
  lemma StricterPagesAcceptLess(quizData: Json)
    ensures Usable(CustomQuizPage, quizData) <==> Usable(DailyQuizPage, quizData)
    ensures Usable(CustomQuizPage, quizData) ==> Usable(GeneralQuizPage, quizData)
  {
  }

  // ---------------------------------------------------------------------
  // Generating, submitting, resetting
  // ---------------------------------------------------------------------

  datatype GenerateError = NotLoggedIn | TopicRequired | FieldsRequired

  function GenerateErrorMessage(e: GenerateError): string
  {
    match e
    case NotLoggedIn => "Please log in to generate a quiz."
    case TopicRequired => "Topic name is required."
    case FieldsRequired => "Topic name, difficulty level, and number of questions are required."
  }

  datatype GenerateRequest = GenerateRequest(topicName: string, difficultyLevel: string, numQuestions: int)

  predicate LoggedIn(token: Option<string>)
  {
    token.Some? && token.value != ""
  }

  /** The general page's `generateQuiz` guards: five questions, topic
      trimmed. */
  function GeneralRequest(token: Option<string>, topicName: string, difficultyLevel: string)
    : (r: Result<GenerateRequest, GenerateError>)
    ensures r == Err(NotLoggedIn) <==> !LoggedIn(token)
    ensures r == Err(TopicRequired) <==> LoggedIn(token) && Text.IsBlank(topicName)
    ensures r.Ok? <==> LoggedIn(token) && !Text.IsBlank(topicName)
    ensures r.Ok? ==> r.value.topicName != "" && r.value.numQuestions == 5 &&
                      r.value.difficultyLevel == difficultyLevel && r.value.topicName == Text.Trim(topicName)
  {
    if !LoggedIn(token) then Err(NotLoggedIn)
    else if Text.Trim(topicName) == "" then Err(TopicRequired)
    else Ok(GenerateRequest(Text.Trim(topicName), difficultyLevel, 5))
  }

  /** The custom page's guards: topic, difficulty and a non-zero count. */
  function CustomRequest(token: Option<string>, topicName: string, difficultyLevel: string, numQuestions: int)
    : (r: Result<GenerateRequest, GenerateError>)
    ensures r == Err(NotLoggedIn) <==> !LoggedIn(token)
    ensures r == Err(FieldsRequired) <==>
              LoggedIn(token) && (Text.IsBlank(topicName) || difficultyLevel == "" || numQuestions == 0)
    ensures r.Ok? <==>
              LoggedIn(token) && !Text.IsBlank(topicName) && difficultyLevel != "" && numQuestions != 0
    ensures r.Ok? ==> r.value.topicName != "" && r.value.numQuestions == numQuestions != 0 &&
                      r.value.difficultyLevel == difficultyLevel && r.value.topicName == Text.Trim(topicName)
  {
    if !LoggedIn(token) then Err(NotLoggedIn)
    else if Text.Trim(topicName) == "" || difficultyLevel == "" || numQuestions == 0 then Err(FieldsRequired)
    else Ok(GenerateRequest(Text.Trim(topicName), difficultyLevel, numQuestions))
  }

  /** White space typed around a topic changes neither page's request: the
      model is asked about the topic as written. */
  lemma PaddedTopicSameRequest(token: Option<string>, pre: string, topic: string, post: string,
                               difficultyLevel: string, numQuestions: int)
    requires Text.IsBlank(pre) && Text.IsBlank(post)
    requires |topic| > 0 && !Text.IsSpace(topic[0]) && !Text.IsSpace(topic[|topic| - 1])
    ensures GeneralRequest(token, pre + topic + post, difficultyLevel) ==
            GeneralRequest(token, topic, difficultyLevel)
    ensures CustomRequest(token, pre + topic + post, difficultyLevel, numQuestions) ==
            CustomRequest(token, topic, difficultyLevel, numQuestions)
    ensures LoggedIn(token) ==>
              GeneralRequest(token, pre + topic + post, difficultyLevel) == Ok(GenerateRequest(topic, difficultyLevel, 5))
  {
    Text.TrimDropsPadding(pre, topic, post);
    Text.TrimmedAlready(topic);
  }

  /** The message shown when a sheet with an unset answer is submitted. */
  const UnansweredMessage := "Please answer all questions before submitting."

  /** The `submitQuiz` guard shared by the three quiz pages: the answers
      are sent only when none is `null`. */
  function SubmitGuard(rs: seq<Slot>): (r: Option<string>)
    ensures r.Some? <==> IncludesNull(rs)
    ensures r.Some? ==> r.value == UnansweredMessage
  {
    if IncludesNull(rs) then Some(UnansweredMessage) else None
  }

  /** The form and quiz state of a quiz page. */
  datatype PageState = PageState(topicName: string, difficultyLevel: string, numQuestions: int,
                                 quiz: Option<Json>, responses: seq<Slot>, result: Option<Json>,
                                 error: Option<string>, view: View)

  /** The state each page starts in. */
  function InitialPage(): PageState
  {
    PageState("", "Easy", 5, None, [], None, None, View(0, false))
  }

  /** `resetQuiz`: the general page restores the form but has no question
      count; the custom page restores the count too; the daily page keeps
      its form. None of them closes the question selector. */
  function Reset(page: QuizPage, s: PageState): (r: PageState)
    ensures r.quiz.None? && r.responses == [] && r.result.None? && r.error.None? && r.view.index == 0
    ensures r.view.selectorOpen == s.view.selectorOpen
    ensures page == CustomQuizPage ==> r == InitialPage().(view := View(0, s.view.selectorOpen))
    ensures page == GeneralQuizPage ==>
              r == InitialPage().(numQuestions := s.numQuestions, view := View(0, s.view.selectorOpen))
    ensures page == DailyQuizPage ==>
              r.topicName == s.topicName && r.difficultyLevel == s.difficultyLevel &&
              r.numQuestions == s.numQuestions
  {
    var cleared := s.(quiz := None, responses := [], result := None, error := None,
                      view := s.view.(index := 0));
    match page
    case GeneralQuizPage => cleared.(topicName := "", difficultyLevel := "Easy")
    case CustomQuizPage => cleared.(topicName := "", difficultyLevel := "Easy", numQuestions := 5)
    case DailyQuizPage => cleared
  }

  /** Resetting twice is resetting once. */
  lemma ResetIsIdempotent(page: QuizPage, s: PageState)
    ensures Reset(page, Reset(page, s)) == Reset(page, s)
  {
  }

  // ---------------------------------------------------------------------
  // Rendering a result and a question
  // ---------------------------------------------------------------------

  /** The recommended resources shown with a result: the stored text
      parsed, or an empty list when it is missing or does not parse.
      `parsed` is the parse of the stored value. */
  function RecommendedResources(stored: Json, parsed: Option<Json>): (r: Json)
    ensures !Truthy(stored) || parsed.None? ==> r == JArr([])
    ensures Truthy(stored) && parsed.Some? ==> r == parsed.value
  {
    if !Truthy(stored) then JArr([])
    else parsed.GetOr(JArr([]))
  }

  /** Options are offered only for a question with exactly four of them;
      otherwise the page reports an invalid question. */
  function OfferedOptions(question: Json): (r: Option<seq<Json>>)
    ensures r.Some? <==> Get(question, "options").JArr? && |Get(question, "options").items| == 4
    ensures r.Some? ==> r.value == Get(question, "options").items
  {
    var o := Get(question, "options");
    if o.JArr? && |o.items| == 4 then Some(o.items) else None
  }

  /** Every question the generators' filters keep is rendered with its
      options, and one of the four offered is the correct answer. */
  lemma KeptQuestionsOfferOptions(q: Json, needsSubtopic: bool)
    requires LlmOutput.WellFormedQuestion(q, needsSubtopic)
    ensures OfferedOptions(q).Some?
    ensures Get(q, "correctAnswer") in OfferedOptions(q).value
  {
  }
}

=== FILE: recognition.dfy ===
/** The document page: choosing between a PDF upload and a YouTube link,
    checking the link, and formatting the model's summary for display.

    The requests themselves (the upload, the transcript service) are left
    out; the page's choices before and after them are modelled.
 */
module Recognition {
  import opened Wrappers
  import Text
  import Seqs

  /** The characters a regular expression's `.` does not match and that end
      a line for `^` and `$` in multiline mode. */
  predicate IsLineTerminator(c: char)
  {
    c == '\n' || c == '\r' || c == '\U{2028}' || c == '\U{2029}'
  }

  predicate IsNewline(c: char)
  {
    c == '\n'
  }

  // ---------------------------------------------------------------------
  // formatText: bold
  // ---------------------------------------------------------------------

  /** Where the lazy `(.*?)\*\*` that follows an opening `**` ends: the
      first `**` at or after `i` with no line terminator before it. */
  function CloseFrom(s: string, i: nat): (r: Option<nat>)
    ensures r.Some? ==>
              i <= r.value && Text.OccursAt(s, "**", r.value) &&
              forall k :: i <= k < r.value ==> !IsLineTerminator(s[k]) && !Text.OccursAt(s, "**", k)
    ensures r.None? ==>
              forall k :: i <= k && Text.OccursAt(s, "**", k) ==>
                exists m :: i <= m < k && IsLineTerminator(s[m])
    decreases |s| - i
  {
    if i + 2 > |s| then None
    else if Text.OccursAt(s, "**", i) then Some(i)
    else if IsLineTerminator(s[i]) then None
    else CloseFrom(s, i + 1)
  }

  // `text.replace(/\*\*(.*?)\*\*/g, "<strong>$1</strong>")`: scanning from
  // the left, an opening `**` with a closing one later on the same line
  // becomes a `strong` element; any other character is copied.
  function Embolden(s: string): string
  {
    EmboldenFrom(s, 0)
  }

  /** The replacement applied to `s` from index `i` on. */
  function EmboldenFrom(s: string, i: nat): string
    decreases |s| - i
  {
    if i >= |s| then ""
    else if Text.OccursAt(s, "**", i) && CloseFrom(s, i + 2).Some? then
      var j := CloseFrom(s, i + 2).value;
      "<strong>" + s[i + 2..j] + "</strong>" + EmboldenFrom(s, j + 2)
    else [s[i]] + EmboldenFrom(s, i + 1)
  }

  /** Text without an asterisk is left as it is. */
  lemma {:induction false} EmboldenWithoutStars(s: string, i: nat)
    requires i <= |s|
    requires forall k :: i <= k < |s| ==> s[k] != '*'
    ensures EmboldenFrom(s, i) == s[i..]
    decreases |s| - i
  {
    if i < |s| {
      assert !Text.OccursAt(s, "**", i) by {
        assert i + 2 > |s| || s[i..i + 2][0] == s[i];
      }
      EmboldenWithoutStars(s, i + 1);
      assert s[i..] == [s[i]] + s[i + 1..];
    }
  }

  /** A line that is a phrase between double asterisks, with no other
      asterisk, becomes that phrase in bold. */
  lemma EmboldenWrapsBold(s: string)
    requires |s| >= 4 && s[0] == '*' && s[1] == '*' && s[|s| - 2] == '*' && s[|s| - 1] == '*'
    requires forall k :: 2 <= k < |s| - 2 ==> s[k] != '*' && !IsLineTerminator(s[k])
    ensures Embolden(s) == "<strong>" + s[2..|s| - 2] + "</strong>"
  {
    var j := |s| - 2;
    assert s[j..j + 2] == "**";
    CloseFromStopsAt(s, 2, j);
    assert s[0..2] == "**";
    assert EmboldenFrom(s, j + 2) == "";
    assert EmboldenFrom(s, 0) == "<strong>" + s[2..j] + "</strong>" + EmboldenFrom(s, j + 2);
  }

  lemma {:induction false} CloseFromStopsAt(s: string, i: nat, j: nat)
    requires i <= j && Text.OccursAt(s, "**", j)
    requires forall k :: i <= k < j ==> s[k] != '*' && !IsLineTerminator(s[k])
    ensures CloseFrom(s, i) == Some(j)
    decreases j - i
  {
    if i < j {
      assert s[i] != '*';
      assert !Text.OccursAt(s, "**", i);
      CloseFromStopsAt(s, i + 1, j);
    }
  }

  // ---------------------------------------------------------------------
  // formatText: bullets
  // ---------------------------------------------------------------------

  /** The replacement the page writes for a leading `* `: the three
      characters that the UTF-8 bytes of a bullet show as when read as
      Windows-1252. */
  const WrittenBullet: string := "\U{00E2}\U{20AC}\U{00A2}"

  /** The bullet character the page evidently means. */
  const Bullet: string := "\U{2022}"

  /** One line under `/^\* (.+)$/`: a line of at least three characters
      starting with `* ` gets the mark in place of the asterisk. */
  function BulletLine(line: string, mark: string): (r: string)
    ensures Text.StartsWith(line, "* ") && |line| >= 3 ==> r == mark + " " + line[2..]
    ensures !(Text.StartsWith(line, "* ") && |line| >= 3) ==> r == line
  {
    if |line| >= 3 && line[0] == '*' && line[1] == ' ' then mark + " " + line[2..] else line
  }

  /** `text.replace(/^\* (.+)$/gm, mark + " $1")`: every line, as ended by
      any line terminator, is treated on its own and the terminators are
      kept. */
  function Bullets(s: string, mark: string): (r: string)
    decreases |s|
  {
    var k := Seqs.FindFrom(IsLineTerminator, s, 0);
    if k == -1 then BulletLine(s, mark)
    else BulletLine(s[..k], mark) + [s[k]] + Bullets(s[k + 1..], mark)
  }

  /** A line that does not start with an asterisk is no bullet line. */
  lemma PlainLineKept(line: string, mark: string)
    requires |line| == 0 || line[0] != '*'
    ensures BulletLine(line, mark) == line
  {
  }

  /** One step of the bullet pass at the first line terminator: a text
      without an asterisk is kept when the rest after the terminator is. */
  lemma BulletsKeptAtTerminator(s: string, mark: string, k: int)
    requires forall i :: 0 <= i < |s| ==> s[i] != '*'
    requires k == Seqs.FindFrom(IsLineTerminator, s, 0) && k != -1
    requires Bullets(s[k + 1..], mark) == s[k + 1..]
    ensures Bullets(s, mark) == s
  {
    var line := s[..k];
    assert |line| == 0 || line[0] == s[0];
    PlainLineKept(line, mark);
    assert s == line + [s[k]] + s[k + 1..];
  }

  /** Text without an asterisk has no bullet line. */
  lemma {:induction false} BulletsWithoutStars(s: string, mark: string)
    requires forall k :: 0 <= k < |s| ==> s[k] != '*'
    ensures Bullets(s, mark) == s
    decreases |s|
  {
    var k := Seqs.FindFrom(IsLineTerminator, s, 0);
    if k == -1 {
      PlainLineKept(s, mark);
    } else {
      var rest := s[k + 1..];
      forall j | 0 <= j < |rest|
        ensures rest[j] != '*'
      {
        assert rest[j] == s[k + 1 + j];
      }
      BulletsWithoutStars(rest, mark);
      BulletsKeptAtTerminator(s, mark, k);
    }
  }

  /** The written mark is the bullet's UTF-8 encoding read one byte per
      character in Windows-1252. */
  lemma WrittenBulletIsMisencoded()
    ensures Bullet[0] as int == 0x2022
    ensures Utf8ThreeBytes(Bullet[0] as int) == [0xE2, 0x80, 0xA2]
    ensures WrittenBullet == [Windows1252(0xE2), Windows1252(0x80), Windows1252(0xA2)]
    ensures WrittenBullet != Bullet
  {
  }

  /** The UTF-8 encoding of a code point between U+0800 and U+FFFF. */
  function Utf8ThreeBytes(cp: int): (r: seq<int>)
    requires 0x800 <= cp <= 0xFFFF
    ensures |r| == 3 && r[0] / 16 == 0xE && r[1] / 64 == 2 && r[2] / 64 == 2
    ensures (r[0] % 16) * 4096 + (r[1] % 64) * 64 + r[2] % 64 == cp
  {
    [0xE0 + cp / 4096, 0x80 + (cp / 64) % 64, 0x80 + cp % 64]
  }

  /** The Windows-1252 character of the three bytes above (0x80 is the euro
      sign there; the other two are the Latin-1 characters). */
  function Windows1252(b: int): char
    requires b == 0xE2 || b == 0x80 || b == 0xA2
  {
    if b == 0x80 then '\U{20AC}' else b as char
  }

  // ---------------------------------------------------------------------
  // formatText: lines
  // ---------------------------------------------------------------------

  /** `s.split("\n")` */
  function SplitNewlines(s: string): (r: seq<string>)
    ensures |r| >= 1
    ensures forall i, k :: 0 <= i < |r| && 0 <= k < |r[i]| ==> r[i][k] != '\n'
    decreases |s|
  {
    var k := Seqs.FindFrom(IsNewline, s, 0);
    if k == -1 then [s] else [s[..k]] + SplitNewlines(s[k + 1..])
  }

  /** `ps.join(sep)` */
  function Join(ps: seq<string>, sep: string): string
  {
    if |ps| == 0 then ""
    else if |ps| == 1 then ps[0]
    else ps[0] + sep + Join(ps[1..], sep)
  }

  /** Splitting at line breaks and joining with line breaks gives the text
      back. */
  lemma {:induction false} SplitJoinRoundTrip(s: string)
    ensures Join(SplitNewlines(s), "\n") == s
    decreases |s|
  {
    var k := Seqs.FindFrom(IsNewline, s, 0);
    if k != -1 {
      SplitJoinRoundTrip(s[k + 1..]);
      assert s == s[..k] + "\n" + s[k + 1..];
    }
  }

  /** Joining pieces with no line break by `<br>` leaves no line break. */
  lemma {:induction false} JoinBrHasNoNewline(ps: seq<string>)
    requires forall i, k :: 0 <= i < |ps| && 0 <= k < |ps[i]| ==> ps[i][k] != '\n'
    ensures forall k :: 0 <= k < |Join(ps, "<br>")| ==> Join(ps, "<br>")[k] != '\n'
  {
    if |ps| > 1 {
      JoinBrHasNoNewline(ps[1..]);
      var rest := Join(ps[1..], "<br>");
      var r := ps[0] + "<br>" + rest;
      forall k | 0 <= k < |r|
        ensures r[k] != '\n'
      {
        if k >= |ps[0]| + 4 {
          assert r[k] == rest[k - |ps[0]| - 4];
        }
      }
    }
  }

  /** `lines.map(line => line.trim())` */
  function TrimAll(ps: seq<string>): (r: seq<string>)
    ensures |r| == |ps|
    ensures forall i :: 0 <= i < |ps| ==> r[i] == Text.Trim(ps[i])
  {
    if |ps| == 0 then [] else [Text.Trim(ps[0])] + TrimAll(ps[1..])
  }

  /** Trimming keeps a slice of the text, so it adds no line break. */
  lemma TrimAddsNoNewline(s: string)
    requires forall k :: 0 <= k < |s| ==> s[k] != '\n'
    ensures forall k :: 0 <= k < |Text.Trim(s)| ==> Text.Trim(s)[k] != '\n'
  {
    var t := Text.TrimStart(s);
    assert Text.Trim(s) == Text.TrimEnd(t);
  }

  /** `formatText` with the given bullet mark. */
  function FormatWith(text: string, mark: string): (r: string)
    ensures forall k :: 0 <= k < |r| ==> r[k] != '\n'
  {
    if text == "" then ""
    else
      var pieces := SplitNewlines(Bullets(Embolden(text), mark));
      var trimmed := TrimAll(pieces);
      forall i | 0 <= i < |trimmed|
        ensures forall k :: 0 <= k < |trimmed[i]| ==> trimmed[i][k] != '\n'
      {
        TrimAddsNoNewline(pieces[i]);
      }
      JoinBrHasNoNewline(trimmed);
      Join(trimmed, "<br>")
  }

  /** `formatText` as written, with the mis-encoded bullet. */
  function FormatText(text: string): (r: string)
    ensures forall k :: 0 <= k < |r| ==> r[k] != '\n'
  {
    FormatWith(text, WrittenBullet)
  }

  /** `formatText` with the bullet character. */
  function FormatTextCorrected(text: string): (r: string)
    ensures forall k :: 0 <= k < |r| ==> r[k] != '\n'
  {
    FormatWith(text, Bullet)
  }

  /** A single line without markup is only trimmed. */
  lemma PlainLineIsTrimmed(text: string, mark: string)
    requires forall k :: 0 <= k < |text| ==> text[k] != '*' && !IsLineTerminator(text[k])
    ensures FormatWith(text, mark) == Text.Trim(text)
  {
    if text != "" {
      EmboldenWithoutStars(text, 0);
      BulletsWithoutStars(text, mark);
      OneLineIsTrimmed(text);
    }
  }

  /** The last step on a text with no line break: it is only trimmed. */
  lemma OneLineIsTrimmed(t: string)
    requires forall k :: 0 <= k < |t| ==> t[k] != '\n'
    ensures Join(TrimAll(SplitNewlines(t)), "<br>") == Text.Trim(t)
  {
    assert Seqs.FindFrom(IsNewline, t, 0) == -1;
    assert TrimAll([t]) == [Text.Trim(t)];
  }

  /** A line with no line terminator is handled as one line. */
  lemma OneLineBullet(s: string, mark: string)
    requires forall k :: 0 <= k < |s| ==> !IsLineTerminator(s[k])
    ensures Bullets(s, mark) == BulletLine(s, mark)
  {
    assert Seqs.FindFrom(IsLineTerminator, s, 0) == -1;
  }

  /** A bullet item has no bold to make. */
  lemma BulletItemHasNoBold(s: string)
    requires |s| >= 2 && s[0] == '*' && s[1] == ' '
    requires forall k :: 1 <= k < |s| ==> s[k] != '*'
    ensures Embolden(s) == s
  {
    assert !Text.OccursAt(s, "**", 0) by {
      assert s[0..2][1] == ' ';
    }
    EmboldenWithoutStars(s, 1);
    assert s == [s[0]] + s[1..];
  }

  /** The bullet step turns a one-line bullet item into the mark, a space
      and the item. */
  lemma BulletItemBulleted(x: string, mark: string)
    requires |x| > 0
    requires forall k :: 0 <= k < |x| ==> x[k] != '*' && !IsLineTerminator(x[k])
    ensures Bullets(Embolden("* " + x), mark) == mark + " " + x
  {
    var s := "* " + x;
    assert forall k :: 2 <= k < |s| ==> s[k] == x[k - 2];
    BulletItemHasNoBold(s);
    OneLineBullet(s, mark);
    assert s[2..] == x;
  }

  /** The last step leaves a line without a line feed or surrounding white
      space as it is. */
  lemma OneLineKept(b: string)
    requires |b| > 0 && !Text.IsSpace(b[0]) && !Text.IsSpace(b[|b| - 1])
    requires forall k :: 0 <= k < |b| ==> b[k] != '\n'
    ensures Join(TrimAll(SplitNewlines(b)), "<br>") == b
  {
    OneLineIsTrimmed(b);
    Text.TrimmedAlready(b);
  }

  /** A mark and an item, joined by a space, hold no line feed. */
  lemma MarkedItemOneLine(x: string, mark: string)
    requires forall k :: 0 <= k < |x| ==> x[k] != '\n'
    requires forall k :: 0 <= k < |mark| ==> mark[k] != '\n'
    ensures forall k :: 0 <= k < |mark + " " + x| ==> (mark + " " + x)[k] != '\n'
  {
    var b := mark + " " + x;
    forall k | 0 <= k < |b|
      ensures b[k] != '\n'
    {
      if k < |mark| {
        assert b[k] == mark[k];
      } else if k > |mark| {
        assert b[k] == x[k - |mark| - 1];
      }
    }
  }

  /** A mark and an item, joined by a space, have no white space at
      either end. */
  lemma MarkedItemEnds(x: string, mark: string)
    requires |x| > 0 && !Text.IsSpace(x[|x| - 1])
    requires |mark| > 0 && !Text.IsSpace(mark[0])
    ensures var b := mark + " " + x; !Text.IsSpace(b[0]) && !Text.IsSpace(b[|b| - 1])
  {
    var b := mark + " " + x;
    assert b[0] == mark[0];
    assert b[|b| - 1] == x[|x| - 1];
  }

  /** A one-line bullet item becomes the mark, a space and the item. */
  lemma BulletItemFormatted(x: string, mark: string)
    requires |x| > 0 && !Text.IsSpace(x[|x| - 1])
    requires forall k :: 0 <= k < |x| ==> x[k] != '*' && !IsLineTerminator(x[k])
    requires |mark| > 0 && !Text.IsSpace(mark[0])
    requires forall k :: 0 <= k < |mark| ==> mark[k] != '\n'
    ensures FormatWith("* " + x, mark) == mark + " " + x
  {
    BulletItemBulleted(x, mark);
    MarkedItemOneLine(x, mark);
    MarkedItemEnds(x, mark);
    OneLineKept(mark + " " + x);
  }

  /** A bullet line as written shows the three mis-encoded characters in
      place of the bullet: `* item` comes out as the mojibake, a space and
      `item`. */
  lemma WrittenBulletLineShowsMojibake(x: string)
    requires |x| > 0 && !Text.IsSpace(x[|x| - 1])
    requires forall k :: 0 <= k < |x| ==> x[k] != '*' && !IsLineTerminator(x[k])
    ensures FormatText("* " + x) == WrittenBullet + " " + x
    ensures FormatText("* " + x) != Bullet + " " + x
  {
    BulletItemFormatted(x, WrittenBullet);
  }

  /** With the bullet character, a bullet line becomes the bullet, a space
      and the item. */
  lemma CorrectedBulletLine(x: string)
    requires |x| > 0 && !Text.IsSpace(x[|x| - 1])
    requires forall k :: 0 <= k < |x| ==> x[k] != '*' && !IsLineTerminator(x[k])
    ensures FormatTextCorrected("* " + x) == Bullet + " " + x
  {
    BulletItemFormatted(x, Bullet);
  }

  // ---------------------------------------------------------------------
  // Choosing what to upload
  // ---------------------------------------------------------------------

  /** A picked file, by its MIME type. */
  datatype PickedFile = PickedFile(mimeType: string)

  /** The page's upload choice: the kept PDF, the link box, which one is
      active (`""`, `"pdf"` or `"youtube"`) and the error shown. */
  datatype Upload = Upload(file: Option<PickedFile>, youtubeLink: string, uploadType: string, error: Option<string>)

  function InitialUpload(): Upload
  {
    Upload(None, "", "", None)
  }

  /** `handleFileChange`: a PDF replaces the link; anything else (or no
      file) is refused and drops the kept file. */
  function ChooseFile(u: Upload, picked: Option<PickedFile>): (r: Upload)
    ensures picked.Some? && picked.value.mimeType == "application/pdf" ==>
              r == Upload(picked, "", "pdf", None)
    ensures !(picked.Some? && picked.value.mimeType == "application/pdf") ==>
              r.file.None? && r.error == Some("Please select a valid PDF file.") &&
              r.youtubeLink == u.youtubeLink && r.uploadType == u.uploadType
  {
    if picked.Some? && picked.value.mimeType == "application/pdf" then Upload(picked, "", "pdf", None)
    else u.(file := None, error := Some("Please select a valid PDF file."))
  }

  /** `handleYoutubeLink`: a link replaces the file; clearing the box falls
      back to the kept file, if any. */
  function EnterLink(u: Upload, link: string): (r: Upload)
    ensures r.youtubeLink == link
    ensures link != "" ==> r.file.None? && r.uploadType == "youtube" && r.error.None?
    ensures link == "" ==> r.file == u.file && r.error == u.error &&
                           r.uploadType == (if u.file.Some? then "pdf" else "")
  {
    if link != "" then Upload(None, link, "youtube", None)
    else u.(youtubeLink := link, uploadType := if u.file.Some? then "pdf" else "")
  }

  /** At most one source is held, and the active type names it. */
  predicate Coherent(u: Upload)
  {
    !(u.file.Some? && u.youtubeLink != "") &&
    (u.uploadType == "youtube" <==> u.youtubeLink != "") &&
    (u.file.Some? ==> u.uploadType == "pdf") &&
    (u.uploadType == "" || u.uploadType == "pdf" || u.uploadType == "youtube")
  }

  lemma UploadChoicesStayCoherent(u: Upload, picked: Option<PickedFile>, link: string)
    requires Coherent(u)
    ensures Coherent(ChooseFile(u, picked))
    ensures Coherent(EnterLink(u, link))
  {
  }

  // ---------------------------------------------------------------------
  // The YouTube link check
  // ---------------------------------------------------------------------

  /** The alternatives of `(https?:\/\/)?`, `(www\.)?` and
      `(youtube\.com|youtu\.be)\/`. */
  const Schemes: seq<string> := ["", "http://", "https://"]
  const Subdomains: seq<string> := ["", "www."]
  const Hosts: seq<string> := ["youtube.com/", "youtu.be/"]

  /** `/^(https?:\/\/)?(www\.)?(youtube\.com|youtu\.be)\/.+/`: some choice of
      the three parts at the start, then at least one character other than
      a line terminator. */
  predicate IsYoutubeLink(s: string)
  {
    exists i, j, k :: 0 <= i < |Schemes| && 0 <= j < |Subdomains| && 0 <= k < |Hosts| &&
      var p := Schemes[i] + (Subdomains[j] + Hosts[k]);
      Text.StartsWith(s, p) && |p| < |s| && !IsLineTerminator(s[|p|])
  }

  function SchemeLength(s: string): (r: nat)
  {
    if Text.StartsWith(s, "https://") then 8 else if Text.StartsWith(s, "http://") then 7 else 0
  }

  function SubdomainLength(s: string): (r: nat)
  {
    if Text.StartsWith(s, "www.") then 4 else 0
  }

  /** The length of the host and slash at the start of `s`, or 0. */
  function HostLength(s: string): (r: nat)
  {
    if Text.StartsWith(s, "youtube.com/") then 12 else if Text.StartsWith(s, "youtu.be/") then 9 else 0
  }

  /** The link check read left to right, taking each optional part when it
      is there. */
  function CheckLink(s: string): bool
  {
    var a := SchemeLength(s);
    var b := if a <= |s| then a + SubdomainLength(s[a..]) else a;
    var h := if b <= |s| then HostLength(s[b..]) else 0;
    h > 0 && b + h < |s| && !IsLineTerminator(s[b + h])
  }

  lemma PrefixSplit(s: string, a: string, b: string)
    ensures Text.StartsWith(s, a + b) <==> Text.StartsWith(s, a) && Text.StartsWith(s[|a|..], b)
  {
    if Text.StartsWith(s, a + b) {
      assert s[..|a|] == (a + b)[..|a|];
      assert s[|a|..][..|b|] == (a + b)[|a|..];
    }
    if Text.StartsWith(s, a) && Text.StartsWith(s[|a|..], b) {
      assert s[..|a| + |b|] == s[..|a|] + s[|a|..][..|b|];
    }
  }

  /** A text starting with `p` has `p`'s characters in front. */
  lemma StartsWithAt(s: string, p: string, k: nat)
    requires k < |p| && k < |s|
    ensures Text.StartsWith(s, p) ==> s[k] == p[k]
  {
    if Text.StartsWith(s, p) {
      assert s[k] == s[..|p|][k];
    }
  }

  lemma SliceOfSlice(s: string, a: nat, c: nat)
    requires a + c <= |s|
    ensures s[a..][c..] == s[a + c..]
  {
  }

  lemma SchemeFound(s: string, i: nat)
    requires i < |Schemes| && Text.StartsWith(s, Schemes[i])
    requires i == 0 ==> |s| > 0 && (s[0] == 'w' || s[0] == 'y')
    ensures SchemeLength(s) == |Schemes[i]|
  {
    if i == 1 {
      StartsWithAt(s, "http://", 4);
      StartsWithAt(s, "https://", 4);
    } else if i == 0 {
      StartsWithAt(s, "https://", 0);
      StartsWithAt(s, "http://", 0);
    }
  }

  lemma SubdomainFound(s: string, j: nat)
    requires j < |Subdomains| && Text.StartsWith(s, Subdomains[j])
    requires j == 0 ==> |s| > 0 && s[0] == 'y'
    ensures SubdomainLength(s) == |Subdomains[j]|
  {
    if j == 0 {
      StartsWithAt(s, "www.", 0);
    }
  }

  lemma HostFound(s: string, k: nat)
    requires k < |Hosts| && Text.StartsWith(s, Hosts[k])
    ensures HostLength(s) == |Hosts[k]|
  {
    if k == 1 {
      StartsWithAt(s, "youtu.be/", 5);
      StartsWithAt(s, "youtube.com/", 5);
    }
  }

  /** What the left-to-right check accepts, the pattern matches. */
  lemma CheckLinkSound(s: string)
    requires CheckLink(s)
    ensures IsYoutubeLink(s)
  {
    var a := SchemeLength(s);
    var b := a + SubdomainLength(s[a..]);
    var i := if a == 8 then 2 else if a == 7 then 1 else 0;
    var j := if b > a then 1 else 0;
    var k := if HostLength(s[b..]) == 12 then 0 else 1;
    var sch, sub, host := Schemes[i], Subdomains[j], Hosts[k];
    assert |sch| == a && Text.StartsWith(s, sch);
    assert |sub| == b - a && Text.StartsWith(s[a..], sub);
    assert |host| == HostLength(s[b..]) && Text.StartsWith(s[b..], host);
    SliceOfSlice(s, a, b - a);
    PrefixSplit(s[a..], sub, host);
    PrefixSplit(s, sch, sub + host);
    assert |sch + (sub + host)| == b + |host|;
  }

  /** What the pattern matches, the left-to-right check accepts. */
  lemma CheckLinkComplete(s: string, i: nat, j: nat, k: nat)
    requires i < |Schemes| && j < |Subdomains| && k < |Hosts|
    requires var p := Schemes[i] + (Subdomains[j] + Hosts[k]);
             Text.StartsWith(s, p) && |p| < |s| && !IsLineTerminator(s[|p|])
    ensures CheckLink(s)
  {
    var sch, sub, host := Schemes[i], Subdomains[j], Hosts[k];
    PrefixSplit(s, sch, sub + host);
    var u := s[|sch|..];
    PrefixSplit(u, sub, host);
    assert host[0] == 'y';
    StartsWithAt(u, sub + host, 0);
    assert sub == "" ==> (sub + host)[0] == host[0];
    assert i == 0 ==> u == s;
    SchemeFound(s, i);
    SubdomainFound(u, j);
    var b := |sch| + |sub|;
    SliceOfSlice(s, |sch|, |sub|);
    HostFound(s[b..], k);
  }

  /** The left-to-right check accepts exactly the links the pattern
      matches: the optional parts never compete, so no backtracking is
      needed. */
  lemma CheckLinkMatchesPattern(s: string)
    ensures CheckLink(s) <==> IsYoutubeLink(s)
  {
    if CheckLink(s) {
      CheckLinkSound(s);
    }
    if IsYoutubeLink(s) {
      var i, j, k :| 0 <= i < |Schemes| && 0 <= j < |Subdomains| && 0 <= k < |Hosts| &&
        var p := Schemes[i] + (Subdomains[j] + Hosts[k]);
        Text.StartsWith(s, p) && |p| < |s| && !IsLineTerminator(s[|p|]);
      CheckLinkComplete(s, i, j, k);
    }
  }

  // ---------------------------------------------------------------------
  // handleUpload
  // ---------------------------------------------------------------------

  datatype UploadAction =
    | SendPdf(file: PickedFile)
    | SendLink(link: string)
    | Refuse(message: string)

  /** `handleUpload`: the active source is sent; a link is checked first. */
  function HandleUpload(u: Upload): (r: UploadAction)
    ensures r.SendPdf? <==> u.uploadType == "pdf" && u.file.Some?
    ensures r.SendLink? <==> u.uploadType == "youtube" && u.youtubeLink != "" && IsYoutubeLink(u.youtubeLink)
    ensures r == Refuse("Please enter a valid YouTube URL") <==>
              !(u.uploadType == "pdf" && u.file.Some?) &&
              u.uploadType == "youtube" && u.youtubeLink != "" && !IsYoutubeLink(u.youtubeLink)
    ensures r.SendLink? ==> r.link == u.youtubeLink
  {
    CheckLinkMatchesPattern(u.youtubeLink);
    if u.uploadType == "pdf" && u.file.Some? then SendPdf(u.file.value)
    else if u.uploadType == "youtube" && u.youtubeLink != "" then
      if CheckLink(u.youtubeLink) then SendLink(u.youtubeLink)
      else Refuse("Please enter a valid YouTube URL")
    else Refuse("Please select a PDF file or enter a YouTube link.")
  }

  /** On a coherent page, the kept file is sent whenever there is one, and
      the page asks for a source exactly when it holds neither. */
  lemma CoherentUploadSendsHeldSource(u: Upload)
    requires Coherent(u)
    ensures u.file.Some? ==> HandleUpload(u) == SendPdf(u.file.value)
    ensures HandleUpload(u) == Refuse("Please select a PDF file or enter a YouTube link.") <==>
              u.youtubeLink == "" && !(u.uploadType == "pdf" && u.file.Some?)
  {
  }
}

=== FILE: schema.dfy ===
/** The stored documents: the LearningPathQuiz, LearningPath and User
    schemas, with their enumerations, defaults and validation rules.

    Dates are abstract timestamps (`int`). Of Mongoose's own behaviour only
    the casts of a quiz response's `selectedOption` and `responseTime` on
    save are modelled; otherwise documents are taken as the controllers read
    and write them.
 */
module Schema {
  import opened Wrappers
  import opened Json

  // ---------------------------------------------------------------------
  // Enumerations
  // ---------------------------------------------------------------------

  datatype Difficulty = Easy | Medium | Hard

  function DifficultyName(d: Difficulty): string
  {
    match d
    case Easy => "Easy"
    case Medium => "Medium"
    case Hard => "Hard"
  }

  /** Membership in `['Easy', 'Medium', 'Hard']`. */
  function ParseDifficulty(s: string): (r: Option<Difficulty>)
    ensures r.Some? ==> DifficultyName(r.value) == s
    ensures r.None? <==> forall d: Difficulty :: DifficultyName(d) != s
  {
    if s == "Easy" then Some(Easy)
    else if s == "Medium" then Some(Medium)
    else if s == "Hard" then Some(Hard)
    else None
  }

  datatype LearningStyle = Visual | Auditory | ReadingWriting | Kinesthetic

  function StyleName(l: LearningStyle): string
  {
    match l
    case Visual => "Visual"
    case Auditory => "Auditory"
    case ReadingWriting => "Reading/Writing"
    case Kinesthetic => "Kinesthetic"
  }

  /** Membership in `['Visual', 'Auditory', 'Reading/Writing', 'Kinesthetic']`. */
  function ParseStyle(s: string): (r: Option<LearningStyle>)
    ensures r.Some? ==> StyleName(r.value) == s
    ensures r.None? <==> forall l: LearningStyle :: StyleName(l) != s
  {
    if s == "Visual" then Some(Visual)
    else if s == "Auditory" then Some(Auditory)
    else if s == "Reading/Writing" then Some(ReadingWriting)
    else if s == "Kinesthetic" then Some(Kinesthetic)
    else None
  }

  datatype QuizResult = Pending | Pass | Fail

  // ---------------------------------------------------------------------
  // LearningPathQuiz
  // ---------------------------------------------------------------------

  /** A stored question; an absent `aiGeneratedExplanation` is the empty string. */
  datatype Question = Question(
    question: string,
    options: seq<string>,
    correctAnswer: string,
    questionType: string,
    marks: int,
    explanation: string)

  /** A question the schema accepts: required strings present, exactly four
      options, type 'MCQ', at least one mark. */
  predicate ValidQuestion(q: Question)
  {
    q.question != "" && |q.options| == 4 && q.correctAnswer != "" &&
    q.questionType == "MCQ" && q.marks >= 1
  }

  /** A graded response as stored on the quiz. */
  datatype StoredResponse = StoredResponse(
    question: string,
    selectedOption: Json,
    isCorrect: bool,
    marksObtained: int,
    responseTime: Json,
    feedback: string)

  /** `question` is required; `responseTime` is optional and, when present,
      a number that is at least 0. */
  predicate ValidResponse(r: StoredResponse)
  {
    r.question != "" &&
    (IsNullish(r.responseTime) || (r.responseTime.JNum? && r.responseTime.n >= 0))
  }

  /** Mongoose's cast of a value to a `Number` path, `None` when the cast
      throws: `null` and `undefined` are kept, "" becomes `null`, strings and
      booleans go through `Number()`, numbers are kept, and NaN, arrays and
      objects fail. */
  function CastNumber(j: Json): (r: Option<Json>)
    ensures r.Some? ==> IsNullish(r.value) || r.value.JNum?
    ensures IsNullish(j) || j.JNum? ==> r == Some(j)
    ensures j.JArr? || j.JObj? ==> r.None?
    ensures (j.JStr? && j.s != "") || j.JBool? ==>
              (r.Some? <==> ToNumber(j).Some?) && (r.Some? ==> r.value == JNum(ToNumber(j).value))
  {
    match j
    case Undefined => Some(j)
    case Null => Some(j)
    case JNum(_) => Some(j)
    case JBool(_) => Some(JNum(ToNumber(j).value))
    case JStr(t) =>
      if t == "" then Some(Null)
      else if ToNumber(j).Some? then Some(JNum(ToNumber(j).value))
      else None
    case _ => None
  }

  /** Mongoose's cast of a value to a `String` path, `None` when the cast
      throws: `null` and `undefined` are kept, an object with a non-empty
      string `_id` becomes that id, any other object or array fails, and
      strings, numbers and booleans become their text. */
  function CastString(j: Json): (r: Option<Json>)
    ensures r.Some? ==> IsNullish(r.value) || r.value.JStr?
    ensures IsNullish(j) || j.JStr? ==> r == Some(j)
    ensures j.JNum? || j.JBool? ==> r == Some(JStr(ToText(j)))
    ensures j.JArr? ==> r.None?
    ensures j.JObj? ==> (r.Some? <==> Get(j, "_id").JStr? && Get(j, "_id").s != "")
  {
    match j
    case Undefined => Some(j)
    case Null => Some(j)
    case JStr(_) => Some(j)
    case JNum(_) => Some(JStr(ToText(j)))
    case JBool(_) => Some(JStr(ToText(j)))
    case JArr(_) => None
    case JObj(_) => if Get(j, "_id").JStr? && Get(j, "_id").s != "" then Some(Get(j, "_id")) else None
  }

  /** A cast value casts to itself: what a save stores is saved again
      unchanged. */
  lemma CastsAreStable(j: Json)
    ensures CastNumber(j).Some? ==> CastNumber(CastNumber(j).value) == CastNumber(j)
    ensures CastString(j).Some? ==> CastString(CastString(j).value) == CastString(j)
  {
  }

  /** How the casts treat the values a client typically sends. */
  lemma CastExamples()
    ensures CastNumber(JStr("")) == Some(Null)
    ensures CastNumber(JBool(true)) == Some(JNum(1))
    ensures CastString(JObj(map[])) == None
    ensures CastString(JArr([JStr("a")])) == None
  {
  }

  /** The response as the save stores it: both fields cast, `None` when a
      cast throws. */
  function CastResponse(r: StoredResponse): (c: Option<StoredResponse>)
    ensures c.Some? <==> CastString(r.selectedOption).Some? && CastNumber(r.responseTime).Some?
    ensures c.Some? ==>
              c.value == r.(selectedOption := CastString(r.selectedOption).value,
                            responseTime := CastNumber(r.responseTime).value)
  {
    match (CastString(r.selectedOption), CastNumber(r.responseTime))
    case (Some(o), Some(t)) => Some(r.(selectedOption := o, responseTime := t))
    case _ => None
  }

  /** Every response cast, `None` when one of the casts throws. */
  function CastResponses(ps: seq<StoredResponse>): (r: Option<seq<StoredResponse>>)
    ensures r.Some? <==> forall k :: 0 <= k < |ps| ==> CastResponse(ps[k]).Some?
    ensures r.Some? ==> |r.value| == |ps| && forall k :: 0 <= k < |ps| ==> Some(r.value[k]) == CastResponse(ps[k])
  {
    if |ps| == 0 then Some([])
    else
      match (CastResponse(ps[0]), CastResponses(ps[1..]))
      case (Some(c), Some(cs)) => Some([c] + cs)
      case _ => None
  }

  /** A response the save accepts: both casts succeed, and a cast response
      time is not negative. */
  predicate SavableResponse(r: StoredResponse)
  {
    CastResponse(r).Some? && ValidResponse(CastResponse(r).value)
  }

  /** A quiz document. `userId` is `None` when the stored owner is missing;
      `quizDate` is a timestamp. */
  datatype LearningPathQuiz = LearningPathQuiz(
    userId: Option<string>,
    topicName: string,
    difficultyLevel: Difficulty,
    quizTime: int,
    quizDate: int,
    questions: seq<Question>,
    responses: seq<StoredResponse>,
    quizResult: QuizResult,
    quizScore: int)

  predicate ValidLearningPathQuiz(q: LearningPathQuiz)
  {
    q.userId.Some? && q.topicName != "" &&
    (forall i :: 0 <= i < |q.questions| ==> ValidQuestion(q.questions[i])) &&
    (forall i :: 0 <= i < |q.responses| ==> ValidResponse(q.responses[i])) &&
    q.quizScore >= 0
  }

  /** A freshly created quiz: no responses, result 'Pending', score 0. It
      satisfies the schema whenever its topic and questions do. */
  function NewLearningPathQuiz(userId: string, topicName: string, difficulty: Difficulty,
                               quizTime: int, now: int, questions: seq<Question>): (q: LearningPathQuiz)
    ensures q.quizResult == Pending && q.quizScore == 0 && q.responses == []
    ensures q.questions == questions && q.topicName == topicName && q.userId == Some(userId)
    ensures q.quizDate == now
    ensures ValidLearningPathQuiz(q) <==>
              topicName != "" && forall i :: 0 <= i < |questions| ==> ValidQuestion(questions[i])
  {
    LearningPathQuiz(Some(userId), topicName, difficulty, quizTime, now, questions, [], Pending, 0)
  }

  // ---------------------------------------------------------------------
  // LearningPath
  // ---------------------------------------------------------------------

  datatype Resource = Resource(title: string, url: string)

  /** A topic of a learning path. `order` is written by the CBSE course
      builder; `timeSpent` is kept as the number the controllers write. */
  datatype Topic = Topic(
    topicName: string,
    topicDescription: string,
    resources: seq<Resource>,
    completionStatus: bool,
    timeSpent: int,
    completionDate: Option<int>,
    order: int)

  /** A topic as first created: not completed and without completion date. */
  function NewTopic(name: string, description: string, resources: seq<Resource>,
                    timeSpent: int, order: int): (t: Topic)
    ensures !t.completionStatus && t.completionDate == None
    ensures t.topicName == name && t.topicDescription == description && t.resources == resources
    ensures t.timeSpent == timeSpent && t.order == order
  {
    Topic(name, description, resources, false, timeSpent, None, order)
  }

  /** A quiz linked from a learning path. */
  datatype PathQuiz = PathQuiz(quizId: string, completed: bool)

  /** A learning path. `points` and `streak` stand for the `gamification`
      fields the controllers read and increment; `None` is a missing field. */
  datatype LearningPath = LearningPath(
    courseName: string,
    topics: seq<Topic>,
    courseCompletionStatus: int,
    courseCompletionDate: Option<int>,
    courseStrength: string,
    courseWeakness: string,
    courseScore: int,
    courseResult: string,
    courseDuration: int,
    quizzes: seq<PathQuiz>,
    difficultyLevel: Difficulty,
    points: Option<int>,
    streak: Option<int>)

  /** What `save()` lets through for a learning path: the `required`
      strings are non-empty, and no topic carries a resource object, since
      `topicResourceLink` is declared as an array of strings and Mongoose
      cannot cast a plain object to a string. */
  predicate PathAccepted(p: LearningPath)
  {
    p.courseName != "" && p.courseStrength != "" && p.courseWeakness != "" && p.courseResult != "" &&
    forall i :: 0 <= i < |p.topics| ==>
      p.topics[i].topicName != "" && p.topics[i].topicDescription != "" && p.topics[i].resources == []
  }

  /** A path as first created: completion 0 without date, score 0, no
      quizzes, and none of its topics completed when they are all new. */
  function NewLearningPath(courseName: string, topics: seq<Topic>, strength: string,
                           weakness: string, result: string, duration: int,
                           difficulty: Difficulty): (p: LearningPath)
    ensures p.courseCompletionStatus == 0 && p.courseCompletionDate == None && p.courseScore == 0
    ensures p.topics == topics && p.quizzes == [] && p.difficultyLevel == difficulty
    ensures (forall i :: 0 <= i < |topics| ==> !topics[i].completionStatus) ==>
              forall i :: 0 <= i < |p.topics| ==> !p.topics[i].completionStatus
  {
    LearningPath(courseName, topics, 0, None, strength, weakness, 0, result, duration,
                 [], difficulty, None, None)
  }

  // ---------------------------------------------------------------------
  // User
  // ---------------------------------------------------------------------

  /** `learningPreferences`; `None` is a field that is not set. */
  datatype Preferences = Preferences(
    preferredDifficulty: Option<Difficulty>,
    preferredLearningStyle: Option<LearningStyle>,
    dailyStudyTime: Option<int>)

  datatype ProgressMetrics = ProgressMetrics(
    totalCourses: int,
    completedCourses: int,
    totalStudyTime: int)

  /** A user; `password` holds the stored hash. */
  datatype User = User(
    name: string,
    email: string,
    password: string,
    studyStreak: int,
    totalPoints: int,
    learningPreferences: Preferences,
    progressMetrics: ProgressMetrics)

  /** Required fields are present. */
  predicate ValidUser(u: User)
  {
    u.name != "" && u.email != "" && u.password != ""
  }

  /** No two stored users share an email address. */
  predicate UniqueEmails(users: seq<User>)
  {
    forall i, j :: 0 <= i < |users| && 0 <= j < |users| && i != j ==>
      users[i].email != users[j].email
  }

  /** A user as first stored: 30 minutes of daily study time, no preferences
      chosen, every counter at 0. */
  function NewUser(name: string, email: string, password: string): (u: User)
    ensures u.learningPreferences == Preferences(None, None, Some(30))
    ensures u.progressMetrics == ProgressMetrics(0, 0, 0) && u.studyStreak == 0 && u.totalPoints == 0
    ensures u.email == email
    ensures ValidUser(u) <==> name != "" && email != "" && password != ""
  {
    User(name, email, password, 0, 0, Preferences(None, None, Some(30)), ProgressMetrics(0, 0, 0))
  }

  /** Registering a new address keeps emails unique; an address already in
      use would break uniqueness. */
  lemma {:induction false} RegisterKeepsEmailsUnique(users: seq<User>, u: User)
    requires UniqueEmails(users)
    ensures UniqueEmails(users + [u]) <==>
            forall i :: 0 <= i < |users| ==> users[i].email != u.email
  {
    var s := users + [u];
    var email := u.email;
    if forall i :: 0 <= i < |users| ==> users[i].email != email {
      forall i, j | 0 <= i < |s| && 0 <= j < |s| && i != j
        ensures s[i].email != s[j].email
      {
        if i < |users| && j < |users| {
          assert s[i] == users[i] && s[j] == users[j];
        }
      }
    } else {
      var k :| 0 <= k < |users| && users[k].email == email;
      assert s[k].email == s[|users|].email;
    }
  }
}

=== FILE: seqs.dfy ===
/** Order-preserving sequence utilities: the counterparts of JavaScript's
    `Array.prototype.filter`, `findIndex` and `some`, with the facts about
    them that the rest of the model relies on.
 */
module Seqs {

  /** `s.filter(p)`: the elements satisfying `p`, in their original order. */
  function Filter<T>(p: T -> bool, s: seq<T>): (r: seq<T>)
    ensures |r| <= |s|
    ensures forall i :: 0 <= i < |r| ==> p(r[i]) && r[i] in s
    ensures forall x :: x in s && p(x) ==> x in r
  {
    if |s| == 0 then []
    else if p(s[0]) then [s[0]] + Filter(p, s[1..])
    else Filter(p, s[1..])
  }

  /** `a` can be obtained from `b` by deleting elements (order kept). */
  ghost predicate IsSubsequence<T>(a: seq<T>, b: seq<T>)
    decreases |b|
  {
    |a| == 0 ||
    (|b| > 0 &&
     if a[0] == b[0] then IsSubsequence(a[1..], b[1..]) else IsSubsequence(a, b[1..]))
  }

  lemma {:induction false} EmptyIsSubsequence<T>(b: seq<T>)
    ensures IsSubsequence([], b)
  {
  }

  lemma {:induction false} FilterIsSubsequence<T>(p: T -> bool, s: seq<T>)
    ensures IsSubsequence(Filter(p, s), s)
  {
    if |s| == 0 {
    } else {
      FilterIsSubsequence(p, s[1..]);
      var rest := Filter(p, s[1..]);
      if p(s[0]) {
        assert Filter(p, s) == [s[0]] + rest;
        assert ([s[0]] + rest)[1..] == rest;
      } else {
        SkipHeadKeepsSubsequence(rest, s);
      }
    }
  }

  /** A prefix of a subsequence is still a subsequence. */
  lemma {:induction false} PrefixKeepsSubsequence<T>(a: seq<T>, b: seq<T>, k: nat)
    requires IsSubsequence(a, b) && k <= |a|
    ensures IsSubsequence(a[..k], b)
    decreases |b|
  {
    if k > 0 {
      if a[0] == b[0] {
        PrefixKeepsSubsequence(a[1..], b[1..], k - 1);
        assert a[..k][1..] == a[1..][..k - 1];
      } else {
        PrefixKeepsSubsequence(a, b[1..], k);
      }
    }
  }

  /** Dropping the head of `b` keeps a subsequence of `b[1..]` a subsequence of `b`. */
  lemma {:induction false} SkipHeadKeepsSubsequence<T>(a: seq<T>, b: seq<T>)
    requires |b| > 0
    requires IsSubsequence(a, b[1..])
    ensures IsSubsequence(a, b)
    decreases |b|, |a|
  {
    if |a| == 0 {
    } else if a[0] == b[0] {
      // `a` embeds into `b[1..]`; the copy of a[0] at b[0] can then be used
      // and the tail of `a` still embeds into `b[1..]`.
      SubsequenceTail(a, b[1..]);
    }
  }

  /** If `a` is a subsequence of `b` then so is `a` without its head. */
  lemma {:induction false} SubsequenceTail<T>(a: seq<T>, b: seq<T>)
    requires |a| > 0
    requires IsSubsequence(a, b)
    ensures IsSubsequence(a[1..], b)
    decreases |b|, |a|
  {
    assert |b| > 0;
    if a[0] == b[0] {
      SkipHeadKeepsSubsequence(a[1..], b);
    } else {
      SubsequenceTail(a, b[1..]);
      SkipHeadKeepsSubsequence(a[1..], b);
    }
  }

  /** Filtering keeps everything exactly when every element passes. */
  lemma {:induction false} FilterAllPass<T>(p: T -> bool, s: seq<T>)
    ensures Filter(p, s) == s <==> forall i :: 0 <= i < |s| ==> p(s[i])
  {
    if |s| == 0 {
    } else {
      FilterAllPass(p, s[1..]);
      if !p(s[0]) {
        assert |Filter(p, s)| <= |s[1..]| < |s|;
      } else {
        assert Filter(p, s) == [s[0]] + Filter(p, s[1..]);
        if Filter(p, s) == s {
          assert Filter(p, s[1..]) == s[1..];
        }
        if forall i :: 0 <= i < |s| ==> p(s[i]) {
          assert forall i :: 0 <= i < |s[1..]| ==> p(s[1..][i]) by {
            forall i | 0 <= i < |s[1..]| ensures p(s[1..][i]) {
              assert s[1..][i] == s[i + 1];
            }
          }
          assert s == [s[0]] + s[1..];
        }
      }
    }
  }

  lemma {:induction false} FilterAppend<T>(p: T -> bool, a: seq<T>, b: seq<T>)
    ensures Filter(p, a + b) == Filter(p, a) + Filter(p, b)
  {
    if |a| == 0 {
      assert a + b == b;
    } else {
      assert (a + b)[0] == a[0];
      assert (a + b)[1..] == a[1..] + b;
      FilterAppend(p, a[1..], b);
    }
  }

  /** Concatenation regroups freely. */
  lemma AppendAssoc<T>(a: seq<T>, b: seq<T>, c: seq<T>)
    ensures a + b + c == a + (b + c)
  {
    forall i | 0 <= i < |a| + |b| + |c|
      ensures (a + b + c)[i] == (a + (b + c))[i]
    {
    }
  }

  /** Filtering by a predicate and by its complement splits `s` into two
      parts that together hold every element of `s`. */
  lemma {:induction false} FilterSplitPermutes<T>(p: T -> bool, q: T -> bool, s: seq<T>)
    requires forall x :: q(x) <==> !p(x)
    ensures multiset(Filter(p, s)) + multiset(Filter(q, s)) == multiset(s)
    decreases |s|
  {
    if |s| > 0 {
      FilterSplitPermutes(p, q, s[1..]);
      assert s == [s[0]] + s[1..];
    }
  }

  /** The number of elements satisfying `p`: `s.filter(p).length`. */
  function Count<T>(p: T -> bool, s: seq<T>): (n: nat)
    ensures n <= |s|
  {
    |Filter(p, s)|
  }

  lemma {:induction false} CountAppend<T>(p: T -> bool, a: seq<T>, b: seq<T>)
    ensures Count(p, a + b) == Count(p, a) + Count(p, b)
  {
    FilterAppend(p, a, b);
  }

  lemma {:induction false} CountZero<T>(p: T -> bool, s: seq<T>)
    ensures Count(p, s) == 0 <==> forall i :: 0 <= i < |s| ==> !p(s[i])
  {
    if |s| == 0 {
    } else {
      CountZero(p, s[1..]);
      if p(s[0]) {
        assert Filter(p, s) == [s[0]] + Filter(p, s[1..]);
      } else {
        assert Filter(p, s) == Filter(p, s[1..]);
        assert forall i :: 1 <= i < |s| ==> s[i] == s[1..][i - 1];
      }
    }
  }

  lemma {:induction false} CountAll<T>(p: T -> bool, s: seq<T>)
    ensures Count(p, s) == |s| <==> forall i :: 0 <= i < |s| ==> p(s[i])
  {
    FilterAllPass(p, s);
    if Count(p, s) == |s| {
      FilterFullLength(p, s);
    }
  }

  /** A filter that loses nothing in length loses nothing at all. */
  lemma {:induction false} FilterFullLength<T>(p: T -> bool, s: seq<T>)
    requires |Filter(p, s)| == |s|
    ensures Filter(p, s) == s
  {
    if |s| > 0 && p(s[0]) {
      FilterFullLength(p, s[1..]);
    }
  }

  /** `s.findIndex((x, i) => i >= from && p(x))`: the first index at or after
      `from` whose element satisfies `p`, or -1 when there is none. */
  function FindFrom<T>(p: T -> bool, s: seq<T>, from: nat): (r: int)
    ensures r == -1 || (from <= r < |s| && p(s[r]))
    ensures r == -1 <==> forall i :: from <= i < |s| ==> !p(s[i])
    ensures r != -1 ==> forall i :: from <= i < r ==> !p(s[i])
    decreases |s| - from
  {
    if from >= |s| then -1
    else if p(s[from]) then from
    else FindFrom(p, s, from + 1)
  }

  /** `s.some(p)` */
  predicate Exists<T>(p: T -> bool, s: seq<T>)
  {
    exists i :: 0 <= i < |s| && p(s[i])
  }

  /** `s.slice(-k)`: the last `k` elements, or all of them when there are fewer. */
  function LastN<T>(s: seq<T>, k: nat): (r: seq<T>)
    ensures |r| == if |s| < k then |s| else k
    ensures r == s[|s| - |r|..]
  {
    if |s| <= k then s else s[|s| - k..]
  }

  /** `s.slice(0, k)`: the first `k` elements, or all of them when there are fewer. */
  function Take<T>(s: seq<T>, k: nat): (r: seq<T>)
    ensures |r| == if |s| < k then |s| else k
    ensures forall i :: 0 <= i < |r| ==> r[i] == s[i]
  {
    if |s| <= k then s else s[..k]
  }
}

=== FILE: stats.dfy ===
/** Statistics over a user's stored documents: the learning controller's
    `getDashboardData` and `getProgress` aggregates, and the analytics
    controller's `getAnalytics` fold and `getPastScore` listing.

    The documents are given as sequences in the order the store returns
    them; a field that is missing from a document is `None`.
 */
module Stats {
  import opened Wrappers
  import opened Schema
  import Seqs

  // ---------------------------------------------------------------------
  // Dashboard (learningController.getDashboardData / getProgress)
  // ---------------------------------------------------------------------

  /** The fields of a quiz document that the dashboard reads. */
  datatype QuizDoc = QuizDoc(quizScore: Option<int>, quizResult: string)

  /** `q.quizScore || 0` */
  function ScoreOrZero(q: QuizDoc): int
  {
    q.quizScore.GetOr(0)
  }

  function ScoreSum(qs: seq<QuizDoc>): int
  {
    if |qs| == 0 then 0 else ScoreSum(qs[..|qs| - 1]) + ScoreOrZero(qs[|qs| - 1])
  }

  /** `quizzes.length ? sum / quizzes.length : 0` */
  function AverageScore(qs: seq<QuizDoc>): (r: real)
    ensures |qs| == 0 ==> r == 0.0
    ensures |qs| > 0 ==> r * (|qs| as real) == ScoreSum(qs) as real
  {
    if |qs| == 0 then 0.0 else (ScoreSum(qs) as real) / (|qs| as real)
  }

  lemma {:induction false} ScoreSumBounds(qs: seq<QuizDoc>, lo: int, hi: int)
    requires forall i :: 0 <= i < |qs| ==> lo <= ScoreOrZero(qs[i]) <= hi
    ensures lo * |qs| <= ScoreSum(qs) <= hi * |qs|
  {
    if |qs| > 0 {
      ScoreSumBounds(qs[..|qs| - 1], lo, hi);
    }
  }

  /** The average lies between the smallest and the largest score. */
  lemma AverageWithinBounds(qs: seq<QuizDoc>, lo: int, hi: int)
    requires |qs| > 0
    requires forall i :: 0 <= i < |qs| ==> lo <= ScoreOrZero(qs[i]) <= hi
    ensures lo as real <= AverageScore(qs) <= hi as real
  {
    ScoreSumBounds(qs, lo, hi);
    var n := |qs| as real;
    var avg := AverageScore(qs);
    assert avg * n == ScoreSum(qs) as real;
    assert (lo as real) * n <= avg * n <= (hi as real) * n;
  }

  predicate Passed(q: QuizDoc)
  {
    q.quizResult == "Pass"
  }

  /** `quizzes.filter(q => q.quizResult === 'Pass').length / quizzes.length * 100`,
      or 0 without quizzes. */
  function PassRate(qs: seq<QuizDoc>): (r: real)
    ensures 0.0 <= r <= 100.0
    ensures r == 100.0 <==> |qs| > 0 && forall i :: 0 <= i < |qs| ==> Passed(qs[i])
    ensures r == 0.0 <==> forall i :: 0 <= i < |qs| ==> !Passed(qs[i])
  {
    if |qs| == 0 then 0.0
    else
      var c := Seqs.Count(Passed, qs);
      Seqs.CountAll(Passed, qs);
      Seqs.CountZero(Passed, qs);
      var r := (c as real) / (|qs| as real) * 100.0;
      PercentBounds(c, |qs|, r);
      r
  }

  lemma PercentBounds(c: nat, n: nat, r: real)
    requires 0 < n && c <= n && r == (c as real) / (n as real) * 100.0
    ensures 0.0 <= r <= 100.0
    ensures r == 100.0 <==> c == n
    ensures r == 0.0 <==> c == 0
  {
    var f := (c as real) / (n as real);
    assert f * (n as real) == c as real;
    if c < n {
      assert f < 1.0;
    }
  }

  /** A path as the dashboard shows it. */
  datatype PathSummary = PathSummary(courseName: string, progress: int, strength: string,
                                     weakness: string, points: int)

  /** `value || 'N/A'` */
  function OrNA(s: string): (r: string)
    ensures r != ""
    ensures s != "" ==> r == s
  {
    if s != "" then s else "N/A"
  }

  /** One entry of `learningPaths.map(path => ...)`. */
  function SummarisePath(p: LearningPath): (r: PathSummary)
    ensures r.courseName == p.courseName && r.progress == p.courseCompletionStatus
    ensures r.strength == OrNA(p.courseStrength) && r.weakness == OrNA(p.courseWeakness)
    ensures r.points == p.points.GetOr(0)
  {
    PathSummary(p.courseName, p.courseCompletionStatus, OrNA(p.courseStrength),
                OrNA(p.courseWeakness), p.points.GetOr(0))
  }

  /** `path.gamification?.points || 0` summed over the paths. */
  function TotalPoints(ps: seq<LearningPath>): int
  {
    if |ps| == 0 then 0 else TotalPoints(ps[..|ps| - 1]) + ps[|ps| - 1].points.GetOr(0)
  }

  /** Points add up path list by path list. */
  lemma {:induction false} TotalPointsAppend(a: seq<LearningPath>, b: seq<LearningPath>)
    ensures TotalPoints(a + b) == TotalPoints(a) + TotalPoints(b)
    decreases |b|
  {
    if |b| == 0 {
      assert a + b == a;
    } else {
      var b' := b[..|b| - 1];
      assert (a + b)[..|a + b| - 1] == a + b';
      assert (a + b)[|a + b| - 1] == b[|b| - 1];
      TotalPointsAppend(a, b');
    }
  }

  /** Crediting a path with points raises the total by exactly that much. */
  lemma {:induction false} TotalPointsCredit(ps: seq<LearningPath>, i: nat, extra: int)
    requires i < |ps|
    ensures TotalPoints(ps[i := ps[i].(points := Some(ps[i].points.GetOr(0) + extra))]) == TotalPoints(ps) + extra
  {
    var p' := ps[i].(points := Some(ps[i].points.GetOr(0) + extra));
    assert ps == ps[..i] + [ps[i]] + ps[i + 1..];
    assert ps[i := p'] == ps[..i] + [p'] + ps[i + 1..];
    TotalPointsAppend(ps[..i] + [ps[i]], ps[i + 1..]);
    TotalPointsAppend(ps[..i] + [p'], ps[i + 1..]);
    TotalPointsAppend(ps[..i], [ps[i]]);
    TotalPointsAppend(ps[..i], [p']);
    assert TotalPoints([ps[i]]) == ps[i].points.GetOr(0) by { assert [ps[i]][..0] == []; }
    assert TotalPoints([p']) == p'.points.GetOr(0) by { assert [p'][..0] == []; }
  }

  function StreakOrZero(p: LearningPath): int
  {
    p.streak.GetOr(0)
  }

  predicate HasActiveStreak(p: LearningPath)
  {
    StreakOrZero(p) > 0
  }

  /** `learningPaths.map(p => p.gamification?.streak || 0).filter(s => s > 0)`:
      one entry per path with a positive streak, in path order. */
  function ActiveStreaks(ps: seq<LearningPath>): (r: seq<int>)
    ensures forall i :: 0 <= i < |r| ==> r[i] > 0
    ensures |r| <= |ps|
    ensures |r| == Seqs.Count(HasActiveStreak, ps)
    ensures forall i :: 0 <= i < |r| ==> r[i] == StreakOrZero(Seqs.Filter(HasActiveStreak, ps)[i])
    ensures forall i :: 0 <= i < |ps| && StreakOrZero(ps[i]) > 0 ==> StreakOrZero(ps[i]) in r
  {
    if |ps| == 0 then []
    else if StreakOrZero(ps[0]) > 0 then [StreakOrZero(ps[0])] + ActiveStreaks(ps[1..])
    else ActiveStreaks(ps[1..])
  }

  /** The streaks kept appear in path order. */
  lemma {:induction false} ActiveStreaksInOrder(ps: seq<LearningPath>)
    ensures Seqs.IsSubsequence(ActiveStreaks(ps), seq(|ps|, i requires 0 <= i < |ps| => StreakOrZero(ps[i])))
  {
    var all := seq(|ps|, i requires 0 <= i < |ps| => StreakOrZero(ps[i]));
    if |ps| == 0 {
      Seqs.EmptyIsSubsequence(all);
    } else {
      ActiveStreaksInOrder(ps[1..]);
      var tail := seq(|ps[1..]|, i requires 0 <= i < |ps[1..]| => StreakOrZero(ps[1..][i]));
      assert all[1..] == tail;
      if StreakOrZero(ps[0]) > 0 {
        assert ActiveStreaks(ps)[1..] == ActiveStreaks(ps[1..]);
      } else {
        Seqs.SkipHeadKeepsSubsequence(ActiveStreaks(ps[1..]), all);
      }
    }
  }

  datatype QuizStats = QuizStats(totalQuizzes: int, averageScore: real, passRate: real)

  datatype Dashboard<A> = Dashboard(
    learningPaths: seq<PathSummary>,
    quizStats: QuizStats,
    recentActivities: seq<A>,
    totalPoints: int,
    activeStreaks: seq<int>)

  /** `getDashboardData`. `chatHistory` is the stored chat history, or `None`
      without a chat document. */
  function DashboardData<A>(paths: seq<LearningPath>, quizzes: seq<QuizDoc>, chatHistory: Option<seq<A>>)
    : (d: Dashboard<A>)
    ensures |d.learningPaths| == |paths|
    ensures forall i :: 0 <= i < |paths| ==> d.learningPaths[i] == SummarisePath(paths[i])
    ensures d.quizStats.totalQuizzes == |quizzes|
    ensures d.quizStats.averageScore == AverageScore(quizzes) && d.quizStats.passRate == PassRate(quizzes)
    ensures |d.recentActivities| <= 5
    ensures chatHistory.None? ==> d.recentActivities == []
    ensures chatHistory.Some? ==>
              var h := chatHistory.value;
              |d.recentActivities| == (if |h| < 5 then |h| else 5) &&
              forall i :: 0 <= i < |d.recentActivities| ==>
                d.recentActivities[i] == h[|h| - |d.recentActivities| + i]
    ensures d.totalPoints == TotalPoints(paths) && d.activeStreaks == ActiveStreaks(paths)
  {
    Dashboard(
      seq(|paths|, i requires 0 <= i < |paths| => SummarisePath(paths[i])),
      QuizStats(|quizzes|, AverageScore(quizzes), PassRate(quizzes)),
      if chatHistory.Some? then Seqs.LastN(chatHistory.value, 5) else [],
      TotalPoints(paths),
      ActiveStreaks(paths))
  }

  datatype ProgressData = ProgressData(completedCourses: int, activeCourses: int, averageScore: real,
                                       totalStudyTime: int)

  /** The aggregates of `getProgress`; `metrics` is `None` when the user has
      no `progressMetrics`. */
  function Progress(metrics: Option<ProgressMetrics>, quizzes: seq<QuizDoc>): (p: ProgressData)
    ensures metrics.None? ==> p.completedCourses == 0 && p.activeCourses == 0 && p.totalStudyTime == 0
    ensures metrics.Some? ==> p.completedCourses + p.activeCourses == metrics.value.totalCourses
    ensures metrics.Some? && metrics.value.completedCourses <= metrics.value.totalCourses ==>
              p.activeCourses >= 0
    ensures p.averageScore == AverageScore(quizzes)
  {
    match metrics
    case None => ProgressData(0, 0, AverageScore(quizzes), 0)
    case Some(m) =>
      ProgressData(m.completedCourses, m.totalCourses - m.completedCourses,
                   AverageScore(quizzes), m.totalStudyTime)
  }

  // ---------------------------------------------------------------------
  // Analytics (analyticsController.getAnalytics)
  // ---------------------------------------------------------------------

  /** The fields of a quiz history record that the analytics fold reads. */
  datatype QuizRecord = QuizRecord(title: string, score: int, totalQuestions: int, correctAnswers: int)

  datatype NamedScore = NamedScore(name: string, score: int)

  datatype QuizAnalytics = QuizAnalytics(bestQuiz: NamedScore, worstQuiz: NamedScore,
                                         correct: int, incorrect: int)

  /** `b` is the best quiz of `h` as the fold leaves it: starting from
      ("N/A", 0) and replaced only by a strictly greater score, it is the
      first quiz with the highest score when that score is positive. */
  predicate IsBest(h: seq<QuizRecord>, b: NamedScore)
  {
    (forall i :: 0 <= i < |h| ==> h[i].score <= b.score) &&
    ((forall i :: 0 <= i < |h| ==> h[i].score <= 0) ==> b == NamedScore("N/A", 0)) &&
    ((exists i :: 0 <= i < |h| && h[i].score > 0) ==>
       exists i :: 0 <= i < |h| && b == NamedScore(h[i].title, h[i].score) &&
                   forall j :: 0 <= j < i ==> h[j].score < h[i].score)
  }

  /** The mirror image for the worst quiz, starting from ("N/A", 100). */
  predicate IsWorst(h: seq<QuizRecord>, w: NamedScore)
  {
    (forall i :: 0 <= i < |h| ==> h[i].score >= w.score) &&
    ((forall i :: 0 <= i < |h| ==> h[i].score >= 100) ==> w == NamedScore("N/A", 100)) &&
    ((exists i :: 0 <= i < |h| && h[i].score < 100) ==>
       exists i :: 0 <= i < |h| && w == NamedScore(h[i].title, h[i].score) &&
                   forall j :: 0 <= j < i ==> h[j].score > h[i].score)
  }

  function CorrectSum(h: seq<QuizRecord>): int
  {
    if |h| == 0 then 0 else CorrectSum(h[..|h| - 1]) + h[|h| - 1].correctAnswers
  }

  function IncorrectSum(h: seq<QuizRecord>): int
  {
    if |h| == 0 then 0
    else IncorrectSum(h[..|h| - 1]) + (h[|h| - 1].totalQuestions - h[|h| - 1].correctAnswers)
  }

  function QuestionSum(h: seq<QuizRecord>): int
  {
    if |h| == 0 then 0 else QuestionSum(h[..|h| - 1]) + h[|h| - 1].totalQuestions
  }

  /** Every question is counted once, as correct or as incorrect. */
  lemma {:induction false} AccuracyCoversAllQuestions(h: seq<QuizRecord>)
    ensures CorrectSum(h) + IncorrectSum(h) == QuestionSum(h)
  {
    if |h| > 0 {
      AccuracyCoversAllQuestions(h[..|h| - 1]);
    }
  }

  /** `getAnalytics`' quiz statistics: the fixed sample for an empty history,
      otherwise one pass over the history. */
  method Analytics(h: seq<QuizRecord>) returns (a: QuizAnalytics)
    ensures |h| == 0 ==> a == QuizAnalytics(NamedScore("Sample Quiz 1", 85), NamedScore("Sample Quiz 2", 65), 75, 25)
    ensures |h| > 0 ==> IsBest(h, a.bestQuiz) && IsWorst(h, a.worstQuiz)
    ensures |h| > 0 ==> a.correct == CorrectSum(h) && a.incorrect == IncorrectSum(h)
  {
    if |h| == 0 {
      return QuizAnalytics(NamedScore("Sample Quiz 1", 85), NamedScore("Sample Quiz 2", 65), 75, 25);
    }
    var best := NamedScore("N/A", 0);
    var worst := NamedScore("N/A", 100);
    var correct := 0;
    var incorrect := 0;
    var k := 0;
    while k < |h|
      invariant 0 <= k <= |h|
      invariant best == BestOf(h[..k]) && worst == WorstOf(h[..k])
      invariant correct == CorrectSum(h[..k]) && incorrect == IncorrectSum(h[..k])
    {
      var q := h[k];
      assert h[..k + 1][..k] == h[..k];
      if q.score > best.score {
        best := NamedScore(q.title, q.score);
      }
      if q.score < worst.score {
        worst := NamedScore(q.title, q.score);
      }
      correct := correct + q.correctAnswers;
      incorrect := incorrect + (q.totalQuestions - q.correctAnswers);
      k := k + 1;
    }
    assert h[..k] == h;
    BestOfIsBest(h);
    WorstOfIsWorst(h);
    a := QuizAnalytics(best, worst, correct, incorrect);
  }

  /** The best quiz after folding over `h`. */
  function BestOf(h: seq<QuizRecord>): NamedScore
  {
    if |h| == 0 then NamedScore("N/A", 0)
    else
      var b := BestOf(h[..|h| - 1]);
      var q := h[|h| - 1];
      if q.score > b.score then NamedScore(q.title, q.score) else b
  }

  /** The worst quiz after folding over `h`. */
  function WorstOf(h: seq<QuizRecord>): NamedScore
  {
    if |h| == 0 then NamedScore("N/A", 100)
    else
      var w := WorstOf(h[..|h| - 1]);
      var q := h[|h| - 1];
      if q.score < w.score then NamedScore(q.title, q.score) else w
  }

  lemma {:induction false} BestOfIsBest(h: seq<QuizRecord>)
    ensures IsBest(h, BestOf(h))
  {
    if |h| > 0 {
      var init := h[..|h| - 1];
      BestOfIsBest(init);
      BestStep(init, h[|h| - 1], BestOf(init));
      assert init + [h[|h| - 1]] == h;
    }
  }

  lemma {:induction false} WorstOfIsWorst(h: seq<QuizRecord>)
    ensures IsWorst(h, WorstOf(h))
  {
    if |h| > 0 {
      var init := h[..|h| - 1];
      WorstOfIsWorst(init);
      WorstStep(init, h[|h| - 1], WorstOf(init));
      assert init + [h[|h| - 1]] == h;
    }
  }

  /** One step of the fold: a strictly greater score takes over. */
  lemma BestStep(h: seq<QuizRecord>, q: QuizRecord, b: NamedScore)
    requires IsBest(h, b)
    ensures IsBest(h + [q], if q.score > b.score then NamedScore(q.title, q.score) else b)
  {
    var h' := h + [q];
    assert forall j :: 0 <= j < |h| ==> h'[j] == h[j];
    assert h'[|h|] == q;
    if exists i :: 0 <= i < |h| && h[i].score > 0 {
      var m :| 0 <= m < |h| && b == NamedScore(h[m].title, h[m].score) &&
               forall j :: 0 <= j < m ==> h[j].score < h[m].score;
      if q.score <= b.score {
        assert h'[m] == h[m];
      }
    }
  }

  /** One step of the fold: a strictly smaller score takes over. */
  lemma WorstStep(h: seq<QuizRecord>, q: QuizRecord, w: NamedScore)
    requires IsWorst(h, w)
    ensures IsWorst(h + [q], if q.score < w.score then NamedScore(q.title, q.score) else w)
  {
    var h' := h + [q];
    assert forall j :: 0 <= j < |h| ==> h'[j] == h[j];
    assert h'[|h|] == q;
    if exists i :: 0 <= i < |h| && h[i].score < 100 {
      var m :| 0 <= m < |h| && w == NamedScore(h[m].title, h[m].score) &&
               forall j :: 0 <= j < m ==> h[j].score > h[m].score;
      if q.score >= w.score {
        assert h'[m] == h[m];
      }
    }
  }

  // ---------------------------------------------------------------------
  // Past scores (analyticsController.getPastScore)
  // ---------------------------------------------------------------------

  /** One entry of `pastScores`; a `title` of `None` is `undefined`, which
      the JSON response leaves out. */
  datatype PastScore = PastScore(title: Option<string>, score: int, date: int)

  /** `getPastScore` as written: the title is read from `quiz.topicname`, a
      field the quiz schema does not have (it is `topicName`), so every
      entry comes out untitled. */
  function PastScoresAsWritten(quizzes: seq<LearningPathQuiz>): (r: seq<PastScore>)
    ensures |r| == |quizzes|
    ensures forall i :: 0 <= i < |r| ==>
              r[i].score == quizzes[i].quizScore && r[i].date == quizzes[i].quizDate
  {
    seq(|quizzes|, i requires 0 <= i < |quizzes| => PastScore(None, quizzes[i].quizScore, quizzes[i].quizDate))
  }

  /** No entry of the as-written listing carries the quiz's topic. */
  lemma PastScoresLoseTitles(quizzes: seq<LearningPathQuiz>)
    ensures forall i :: 0 <= i < |quizzes| ==> PastScoresAsWritten(quizzes)[i].title == None
  {
  }

  /** `getPastScore` reading the schema's `topicName`: one titled entry per
      quiz, in order. */
  function PastScores(quizzes: seq<LearningPathQuiz>): (r: seq<PastScore>)
    ensures |r| == |quizzes|
    ensures forall i :: 0 <= i < |r| ==>
              r[i] == PastScore(Some(quizzes[i].topicName), quizzes[i].quizScore, quizzes[i].quizDate)
  {
    if |quizzes| == 0 then []
    else [PastScore(Some(quizzes[0].topicName), quizzes[0].quizScore, quizzes[0].quizDate)] + PastScores(quizzes[1..])
  }

  /** The corrected listing differs from the as-written one only in the title. */
  lemma PastScoresAgreeButTitle(quizzes: seq<LearningPathQuiz>)
    ensures forall i :: 0 <= i < |quizzes| ==>
              PastScores(quizzes)[i].(title := None) == PastScoresAsWritten(quizzes)[i]
  {
  }
}

=== FILE: text.dfy ===
/** String helpers with JavaScript semantics: the `\s` character class and
    `String.prototype.trim`, decimal digits (`\d`, `parseInt`, template
    interpolation of numbers), and ASCII lower-casing.
 */
module Text {

  /** The characters JavaScript's `\s` and `trim()` treat as white space. */
  predicate IsSpace(c: char)
  {
    c == ' ' || c == '\t' || c == '\n' || c == '\r' || c == '\U{000B}' || c == '\U{000C}' ||
    c == '\U{00A0}' || c == '\U{1680}' || ('\U{2000}' <= c <= '\U{200A}') ||
    c == '\U{2028}' || c == '\U{2029}' || c == '\U{202F}' || c == '\U{205F}' ||
    c == '\U{3000}' || c == '\U{FEFF}'
  }

  /** Leading white space removed. */
  function TrimStart(s: string): (r: string)
    ensures |r| <= |s| && r == s[|s| - |r|..]
    ensures forall i :: 0 <= i < |s| - |r| ==> IsSpace(s[i])
    ensures |r| > 0 ==> !IsSpace(r[0])
  {
    if |s| > 0 && IsSpace(s[0]) then TrimStart(s[1..]) else s
  }

  /** Trailing white space removed. */
  function TrimEnd(s: string): (r: string)
    ensures |r| <= |s| && r == s[..|r|]
    ensures forall i :: |r| <= i < |s| ==> IsSpace(s[i])
    ensures |r| > 0 ==> !IsSpace(r[|r| - 1])
  {
    if |s| > 0 && IsSpace(s[|s| - 1]) then TrimEnd(s[..|s| - 1]) else s
  }

  /** `s.trim()` */
  function Trim(s: string): (r: string)
    ensures |r| > 0 ==> !IsSpace(r[0]) && !IsSpace(r[|r| - 1])
    ensures |r| <= |s|
    ensures r == [] <==> forall i :: 0 <= i < |s| ==> IsSpace(s[i])
  {
    var t := TrimStart(s);
    var r := TrimEnd(t);
    r
  }

  /** A text without white space at either end is its own trim. */
  lemma TrimmedAlready(b: string)
    requires |b| > 0 && !IsSpace(b[0]) && !IsSpace(b[|b| - 1])
    ensures Trim(b) == b
  {
    assert TrimStart(b) == b;
    assert TrimEnd(b) == b;
  }

  lemma {:induction false} TrimStartDropsBlank(pre: string, x: string)
    requires IsBlank(pre) && |x| > 0 && !IsSpace(x[0])
    ensures TrimStart(pre + x) == x
  {
    if |pre| > 0 {
      assert (pre + x)[1..] == pre[1..] + x;
      TrimStartDropsBlank(pre[1..], x);
    } else {
      assert pre + x == x;
    }
  }

  lemma {:induction false} TrimEndDropsBlank(x: string, post: string)
    requires IsBlank(post) && |x| > 0 && !IsSpace(x[|x| - 1])
    ensures TrimEnd(x + post) == x
  {
    if |post| > 0 {
      assert (x + post)[..|x + post| - 1] == x + post[..|post| - 1];
      TrimEndDropsBlank(x, post[..|post| - 1]);
    } else {
      assert x + post == x;
    }
  }

  /** White space around a text is what `trim()` removes, and only that. */
  lemma TrimDropsPadding(pre: string, b: string, post: string)
    requires IsBlank(pre) && IsBlank(post)
    requires |b| > 0 && !IsSpace(b[0]) && !IsSpace(b[|b| - 1])
    ensures Trim(pre + b + post) == b
  {
    assert pre + b + post == pre + (b + post);
    TrimStartDropsBlank(pre, b + post);
    TrimEndDropsBlank(b, post);
  }

  /** Empty or white space only: what `!s.trim()` detects. */
  predicate IsBlank(s: string)
  {
    forall i :: 0 <= i < |s| ==> IsSpace(s[i])
  }

  predicate IsDigit(c: char)
  {
    '0' <= c <= '9'
  }

  predicate AllDigits(s: string)
  {
    forall i :: 0 <= i < |s| ==> IsDigit(s[i])
  }

  function DigitValue(c: char): nat
    requires IsDigit(c)
  {
    (c as int) - ('0' as int)
  }

  function DigitChar(d: nat): (c: char)
    requires d < 10
    ensures IsDigit(c) && DigitValue(c) == d
  {
    (('0' as int) + d) as char
  }

  /** The decimal value of a string of digits, as `parseInt` reads it. */
  function DecimalValue(s: string): nat
    requires AllDigits(s)
  {
    if |s| == 0 then 0 else DecimalValue(s[..|s| - 1]) * 10 + DigitValue(s[|s| - 1])
  }

  /** The decimal rendering of `n` that template interpolation `${n}` produces. */
  function NatToString(n: nat): (s: string)
    ensures |s| > 0 && AllDigits(s)
    ensures |s| > 1 ==> s[0] != '0'
  {
    if n < 10 then [DigitChar(n)] else NatToString(n / 10) + [DigitChar(n % 10)]
  }

  /** Reading back a rendered number gives the number. */
  lemma {:induction false} NatToStringRoundTrip(n: nat)
    ensures DecimalValue(NatToString(n)) == n
  {
    if n >= 10 {
      NatToStringRoundTrip(n / 10);
      var s := NatToString(n);
      assert s[..|s| - 1] == NatToString(n / 10);
    }
  }

  /** `${i}` for a possibly negative integer. */
  function IntToString(i: int): (s: string)
    ensures |s| > 0
  {
    if i < 0 then "-" + NatToString(-i) else NatToString(i)
  }

  /** ASCII `toLowerCase` (other letters are left as they are). */
  function Lower(s: string): (r: string)
    ensures |r| == |s|
    ensures forall i :: 0 <= i < |s| ==> ('A' <= s[i] <= 'Z' ==> r[i] as int == s[i] as int + 32)
    ensures forall i :: 0 <= i < |s| ==> (!('A' <= s[i] <= 'Z') ==> r[i] == s[i])
  {
    if |s| == 0 then []
    else [if 'A' <= s[0] <= 'Z' then (s[0] as int + 32) as char else s[0]] + Lower(s[1..])
  }

  predicate StartsWith(s: string, prefix: string)
  {
    |prefix| <= |s| && s[..|prefix|] == prefix
  }

  predicate EndsWith(s: string, suffix: string)
  {
    |suffix| <= |s| && s[|s| - |suffix|..] == suffix
  }

  /** Does `needle` occur in `s` starting at index `i`? */
  predicate OccursAt(s: string, needle: string, i: nat)
  {
    i + |needle| <= |s| && s[i..i + |needle|] == needle
  }

  predicate Contains(s: string, needle: string)
  {
    exists i :: 0 <= i <= |s| && OccursAt(s, needle, i)
  }
}

=== FILE: wrappers.dfy ===
/** Failure-carrying result types shared by every module of the model.

    The backend reports problems by returning an HTTP error body or by
    throwing; the model turns both into an `Err` value so that the error
    paths can be stated and proved about like any other result.
 */
module Wrappers {

  datatype Option<+T> = None | Some(value: T) {
    function GetOr(default: T): T {
      match this
      case Some(v) => v
      case None => default
    }
  }

  datatype Result<+T, +E> = Ok(value: T) | Err(error: E)
}
